=== FILE: README.md ===
# task-planner scheduling core in Dafny

This project models the core of the task-planner backend: the weekly task
schedulers, the task importers' record normaliser, the console prompts' input
rules, and the service's configuration rules. It also proves properties of
the model.

- **Capacity-based scheduler** (`Schedule`, `ScheduleProperties`;
  `schedule.go`). The tasks are sorted once, longest first, and then placed
  week by week.
  - Each week every developer's workload starts at zero.
  - Each pending task goes to the first developer, in list order, whose
    workload plus the task's effective cost fits within the weekly hours.
    The effective cost is difficulty divided by capacity.
  - A task that fits nobody waits for the next week.
  - A bucket only ever has tasks appended, so it lists its tasks longest
    first.
  - After each week the developers' buckets are reordered by task count
    (`rebalanceWorkload`).
  - The response counts the weeks, the working days, and the truncated sum of
    the effective costs.
- **Duration-based scheduler** (`DurationScheduler`; `ScheduleAssaignments`
  in `service.go`, the one the HTTP handler calls). Every week the
  developers take turns in list order. Each developer takes, in order, every
  pending task whose duration fits the hours they have left.
- **Record normaliser** (`Provider`). This is `mapToTask` in its three copies
  (`fetch.go`, `start.go`, `cli/main.go`). It turns a decoded JSON object in
  either provider's format into a `CreateTaskRequest`. `ProcessTasks` models
  the loop that submits every record that maps and logs every one that does
  not.
- **Console prompts** (`Prompt`; `prompt.go` and its copy in `start.go`).
  These are the validity rule for environment values, and the decision
  logic of `PromptForEnv` and `PromptYesNo` over a sequence of input lines.
- **Configuration** (`Config`; `config.go`). This covers `parseCSV`, the CORS
  defaults, and the `DB_PORT` rule of `LoadConfig`, read from an environment
  map.
- **Go library behaviour** (`Text`, `Sequences`, `Wrappers`; also `Payload`
  for the records). These are the pieces of Go's library the code relies on:
  `strconv.Atoi`, `%v` of an unsigned integer, `strings.Split`, `Join`,
  `TrimSpace` and `ToLower`, and sorting.

## How the model departs from the code

**Progress guard.** Both schedulers' week loops run while any task is pending.
A week that places nothing hands its pending tasks back unchanged, so the
source loops forever. The model stops at such a week. It reports the weeks
so far and the stranded tasks (`Unschedulable`, `Stalled`). The Findings
section has the two concrete inputs.

**Fields missing from `payload.go`.** `schedule.go` reads `Developer.Capacity`
and fills `ScheduleAssignmentResponse.MinWeek`, `TotalWorkDay` and
`TotalElapsedWorkHour`, but `payload.go` declares none of these.
- `Capacity` is an `int`, as in the database table
  (`tables/developer.go:12`).
- The capacity-based response has the three fields `schedule.go` sets.
- The duration-based scheduler's response keeps `payload.go`'s
  `MinDuration`.

**Developer order and rebalancing.** `assignTasksToDevelopers` tries the
developers in the order of the given list for every task, and never re-sorts
them by load. No developer is skipped for a capacity of zero or less; the
model assumes positive capacities (see "Left out"). A bucket opens only when
a task is placed in it, so no bucket of a week is ever empty. The move branch
of `rebalanceWorkload` needs an empty bucket, so it can never fire. The model
keeps that branch and proves it dead (`Schedule.RebalanceWorkload`).

## Model

| member | source | states |
|---|---|---|
| Schedule.FirstFit | backend/internal/task/service/schedule.go:113-125 | the chosen developer has room for the task, every developer before it in list order lacks room, and `None` means nobody has room |
| Schedule.AssignTaskToDeveloper | backend/internal/task/service/schedule.go:141-156 | the buckets gain exactly the one task and at most one new bucket |
| Schedule.FindBucket | backend/internal/task/service/schedule.go:143-148 | the index found holds a bucket with the ID and no earlier bucket has it; `None` means no bucket has the ID |
| Schedule.AssignTaskToDeveloperPlacement | backend/internal/task/service/schedule.go:141-156 | the task is appended to the first bucket with the developer's ID, every other bucket unchanged, or a new last bucket holding only the task is opened; no bucket becomes empty and no ID gets a second bucket |
| Schedule.PlaceTaskFirstFit | backend/internal/task/service/schedule.go:113-125 | when developer `i` is the first with room, the task goes into `i`'s bucket and `i`'s workload and the running total grow by its effective cost |
| Schedule.PlaceTaskNoRoom | backend/internal/task/service/schedule.go:129-131 | a task nobody has room for is carried over and nothing else changes |
| Schedule.PlaceAllNoRoom | backend/internal/task/service/schedule.go:111-132 | when no task fits any developer, the whole pass only appends the tasks to the carry-over |
| Schedule.PlaceAllPartition | backend/internal/task/service/schedule.go:111-132 | every task the loop sees lands in a bucket or in the carry-over, exactly once (multiset equation) |
| Schedule.PlaceAllWellFormed | backend/internal/task/service/schedule.go:111-156 | buckets stay non-empty, one per developer ID, each with a listed developer, and none is ever removed |
| Schedule.PlaceAllCarryOrder | backend/internal/task/service/schedule.go:129-131 | carried-over tasks are appended after the earlier ones, in the order the loop met them |
| Schedule.AssignTaskFrom | backend/internal/task/service/schedule.go:141-156 | giving a task to a developer appends it to a bucket or opens a bucket with it, so every bucket stays a subsequence of the tasks seen so far |
| Schedule.PlaceAllFrom | backend/internal/task/service/schedule.go:111-133 | after the task loop every bucket holds tasks it met, in the order it met them |
| Schedule.PlaceAllWithinCapacity | backend/internal/task/service/schedule.go:115-121 | no step lets a workload exceed the weekly hours; an exact fit is accepted |
| Schedule.PlaceAllCosts | backend/internal/task/service/schedule.go:118-122 | each workload equals the effective cost of that developer's bucket, and the running total grows by exactly the cost of the buckets |
| Schedule.PlaceAllStall | backend/internal/task/service/schedule.go:111-131 | a pass that opens no bucket carries every task over in order and changes neither workloads nor total; every task fitted nobody |
| ScheduleProperties.UnfitOnlyEmpty | backend/internal/task/service/schedule.go:43-62 | a list of tasks that each fit someone, yet all fit nobody, is empty |
| Schedule.MoveLastTask | backend/internal/task/service/schedule.go:168-176 | one rebalancing move takes the last task of the source bucket, appends it as the only task of the empty bucket, leaves every other bucket alone, raises the target developer's load by the task's cost to them and lowers the source developer's by its cost to them, and changes no other load |
| Schedule.RebalanceInner | backend/internal/task/service/schedule.go:167-179 | the inner loop keeps every bucket's developer and the tasks held, and with no empty bucket changes neither buckets nor workloads |
| Schedule.RebalanceFrom | backend/internal/task/service/schedule.go:166-180 | the outer loop keeps every bucket's developer and the tasks held, and with no empty bucket changes neither buckets nor workloads |
| Schedule.RebalanceWorkload | backend/internal/task/service/schedule.go:159-181 | the tasks held never change; with no empty bucket the result is a permutation of the buckets ordered by descending task count, with the workloads untouched |
| Schedule.AssignTasksToDevelopers | backend/internal/task/service/schedule.go:98-138 | pending tasks are split into the buckets and the remaining tasks (multiset), remaining keep their order, buckets are non-empty with distinct developer IDs from the list and ordered by task count, and the week makes progress exactly when it opens a bucket |
| Schedule.PeriodCost | backend/internal/task/service/schedule.go:115-122 | with distinct developer IDs no bucket costs more than the weekly hours, and the running total grows by the cost of the week's buckets |
| Schedule.PeriodBucketsFrom | backend/internal/task/service/schedule.go:98-138 | every bucket of a week lists pending tasks in their pending order, because the rebalancing only reorders whole buckets |
| Schedule.PeriodStall | backend/internal/task/service/schedule.go:111-131 | a week opens no bucket exactly when every pending task costs every developer more than the weekly hours; such a week returns the pending tasks and the total unchanged |
| Schedule.PeriodStallExample | backend/internal/task/service/schedule.go:31-62 | with 4 weekly hours, a capacity-1 developer and a difficulty-5 task, the week places nothing and returns the task unchanged |
| Schedule.ScheduleWeeks | backend/internal/task/service/schedule.go:43-62 | at most one week per task, and every recorded week is non-empty, well formed and ordered by task count |
| Schedule.TruncateHours | backend/internal/task/service/schedule.go:70 | Go's float-to-unsigned conversion drops the fraction: the result is the largest integer not above a non-negative total |
| Schedule.ScheduleAssignments | backend/internal/task/service/schedule.go:10-75 | no tasks or no developers give the all-zero response; MinWeek is the number of weeks and at most the number of tasks; TotalWorkDay is MinWeek times the days per week; an unschedulable outcome names at least one task |
| ScheduleProperties.WeeksPartition | backend/internal/task/service/schedule.go:42-62 | every pending task lands in exactly one week or among the stranded tasks |
| ScheduleProperties.WeeksCostBound | backend/internal/task/service/schedule.go:43-62 | with distinct developer IDs and non-negative weekly hours, no bucket of any week exceeds the weekly hours, and the running total is the cost of all weeks |
| ScheduleProperties.WeeksStranded | backend/internal/task/service/schedule.go:43-62 | stranded tasks come from the pending ones and none fits any developer in an empty week |
| ScheduleProperties.WeeksComplete | backend/internal/task/service/schedule.go:43-62 | when each pending task fits some developer in an empty week, nothing is stranded |
| ScheduleProperties.ScheduleAssignmentsPartition | backend/internal/task/service/schedule.go:38-62 | with at least one developer every input task appears exactly once, in one week or among the stranded |
| ScheduleProperties.ScheduleAssignmentsWeeks | backend/internal/task/service/schedule.go:51-53 | every reported week has a bucket, no empty bucket, one bucket per developer ID, developers from the list, ordered by task count |
| ScheduleProperties.ScheduleAssignmentsBuckets | backend/internal/task/service/schedule.go:38-40 | the tasks are sorted by descending duration once, before the first week, and every bucket keeps the order it met them in (`schedule.go:111-125` and `141-156`), so every bucket of every week lists its tasks longest first |
| ScheduleProperties.WeeksBucketsFrom | backend/internal/task/service/schedule.go:43-62 | every bucket of every week holds tasks of the pending list in their pending order |
| ScheduleProperties.ScheduleAssignmentsHours | backend/internal/task/service/schedule.go:43-71 | no developer is booked beyond the weekly hours in any week, and TotalElapsedWorkHour is the truncated effective cost of the whole schedule |
| ScheduleProperties.ScheduleAssignmentsStranded | backend/internal/task/service/schedule.go:43-62 | the outcome is unschedulable only with input tasks that no developer could take in an empty week |
| ScheduleProperties.ScheduleAssignmentsComplete | backend/internal/task/service/schedule.go:43-62 | when every task fits some developer on its own, the schedule is complete |
| ScheduleProperties.PlaceTaskKeepsUnfit | backend/internal/task/service/schedule.go:113-131 | with non-negative workloads and difficulties, placing one task never puts a task that fits nobody into a bucket, and workloads stay non-negative |
| ScheduleProperties.PlaceAllKeepsUnfit | backend/internal/task/service/schedule.go:111-132 | with non-negative workloads and difficulties, no step puts a task that fits nobody into a bucket, and workloads stay non-negative |
| ScheduleProperties.PeriodKeepsUnfit | backend/internal/task/service/schedule.go:98-138 | with non-negative difficulties, every copy of a task that fits nobody stays among the remaining tasks of the week |
| ScheduleProperties.WeeksStrandUnfit | backend/internal/task/service/schedule.go:43-62 | with non-negative difficulties, a pending task that fits nobody ends among the stranded tasks |
| ScheduleProperties.ScheduleAssignmentsStrandsUnfit | backend/internal/task/service/schedule.go:10-75 | with non-negative difficulties and a developer, an input task that fits nobody makes the outcome unschedulable and is stranded |
| ScheduleProperties.ScheduleAssignmentsCompleteIff | backend/internal/task/service/schedule.go:10-75 | with non-negative difficulties, the schedule is complete exactly when there is no developer or every task fits some developer in an empty week |
| Sequences.SortDescBy | backend/internal/task/service/schedule.go:38-40 | the result is ordered by descending key and is a permutation of the input |
| DurationScheduler.DeveloperPass | backend/internal/task/service/service.go:135-145 | one developer's pass splits the pending tasks into taken and passed-over ones, both in order, with nothing lost or duplicated, and the hours taken plus the hours left are the hours available |
| DurationScheduler.DeveloperPassGreedy | backend/internal/task/service/service.go:136-143 | every task passed over is longer than the hours left at the end |
| DurationScheduler.DeveloperPassNothing | backend/internal/task/service/service.go:136-147 | a pass takes nothing exactly when every task is longer than the hours available |
| DurationScheduler.DeveloperPassNothingKeeps | backend/internal/task/service/service.go:136-145 | a pass that takes nothing leaves the pending list exactly as it was |
| DurationScheduler.DeveloperTurnsPartition | backend/internal/task/service/service.go:124-150 | the developer loop puts every task in exactly one bucket or leaves it pending, in order, and changes nothing when it opens no bucket |
| DurationScheduler.DeveloperTurnsBound | backend/internal/task/service/service.go:124-150 | with distinct IDs and fresh workloads, no bucket the developer loop opens holds more than the weekly hours |
| DurationScheduler.SkipNeverFires | backend/internal/task/service/service.go:118-128 | with workloads reset to zero, distinct IDs and positive weekly hours, the `remainingHours <= 0` skip never fires |
| DurationScheduler.WeekNoSkip | backend/internal/task/service/service.go:118-128 | with distinct developer IDs and positive weekly hours, a week equals the same week computed without the skip |
| DurationScheduler.Week | backend/internal/task/service/service.go:113-150 | a week splits the pending tasks into its buckets and the pending rest, buckets are non-empty, from the list, and subsequences of the pending tasks, and it progresses exactly when it records a bucket |
| DurationScheduler.WeekBound | backend/internal/task/service/service.go:103-145 | with distinct developer IDs no bucket holds more than the weekly hours |
| DurationScheduler.WeekStall | backend/internal/task/service/service.go:113-156 | a week recording nothing leaves the tasks pending, and with positive hours that needs no developers or every task longer than the weekly hours |
| DurationScheduler.WeekStallExample | backend/internal/task/service/service.go:103-156 | with 45 weekly hours a 46-hour task leaves the week empty and the task pending |
| DurationScheduler.WeekProgress | backend/internal/task/service/service.go:113-150 | with a developer, positive weekly hours and a first pending task that fits an empty week, the week records a bucket |
| DurationScheduler.PassTakesFit | backend/internal/task/service/service.go:136-143 | with no negative durations, every task a pass takes fits the hours the developer started with |
| DurationScheduler.TurnKeepsLong | backend/internal/task/service/service.go:124-149 | with non-negative loads and durations, one developer's turn keeps every copy of a task longer than the weekly hours pending, and loads stay non-negative |
| DurationScheduler.WeekKeepsLong | backend/internal/task/service/service.go:113-150 | with no negative durations, every copy of a task longer than the weekly hours stays pending after a week |
| DurationScheduler.RunStrandsLong | backend/internal/task/service/service.go:113-156 | with no negative durations, a pending task longer than the weekly hours ends among the stranded tasks |
| DurationScheduler.RunWeeks | backend/internal/task/service/service.go:113-156 | at most one week per task and every recorded week has a bucket |
| DurationScheduler.RunStranded | backend/internal/task/service/service.go:113-156 | the tasks left when a week stalls come from the input and, with developers present, are all longer than the weekly hours |
| DurationScheduler.RunComplete | backend/internal/task/service/service.go:113-156 | with a developer and every task within the weekly hours, nothing is left stranded |
| DurationScheduler.RunBound | backend/internal/task/service/service.go:113-156 | with distinct developer IDs, no bucket of any recorded week holds more than the weekly hours |
| DurationScheduler.ScheduleAssaignments | backend/internal/task/service/service.go:86-165 | MinDuration is the number of recorded weeks and at most the number of tasks; no tasks give no weeks; a stalled outcome names at least one task |
| DurationScheduler.ScheduleAssaignmentsPartition | backend/internal/task/service/service.go:107-156 | every task appears exactly once, in one bucket of one week or among the stranded |
| DurationScheduler.ScheduleAssaignmentsBuckets | backend/internal/task/service/service.go:107-149 | every bucket is non-empty, belongs to a listed developer, and lists its tasks longest first |
| DurationScheduler.ScheduleAssaignmentsBound | backend/internal/task/service/service.go:103-145 | with distinct developer IDs no developer's bucket exceeds the weekly hours in any week |
| DurationScheduler.ScheduleAssaignmentsStalls | backend/internal/task/service/service.go:113-156 | with positive hours the run stalls only without developers or with input tasks longer than the weekly hours |
| DurationScheduler.ScheduleAssaignmentsCompletes | backend/internal/task/service/service.go:113-156 | with a developer and tasks that each fit an empty week, the run completes |
| DurationScheduler.ScheduleAssaignmentsStrandsLong | backend/internal/task/service/service.go:86-165 | with no negative durations, an input task longer than the weekly hours makes the outcome stalled and is stranded |
| DurationScheduler.ScheduleAssaignmentsNoDevelopers | backend/internal/task/service/service.go:113-156 | without developers and with tasks, nothing is scheduled and every task is stranded |
| DurationScheduler.ScheduleAssaignmentsCompletesIff | backend/internal/task/service/service.go:86-165 | with positive weekly hours and no negative durations, the run completes exactly when there are no tasks, or there is a developer and every task fits an empty week |
| Provider.Uint | backend/internal/console/provider/fetch.go:64 | `uint(x)` is below 2^64 and the identity on the unsigned range |
| Provider.MapToTaskWith | backend/internal/console/provider/fetch.go:51-91 | a mapped request's name is "Task " and its external ID; an error is one of the three messages |
| Provider.MapToTaskProviderOne | backend/internal/console/provider/fetch.go:54-70 | with "zorluk" present the record maps exactly when id, sure and zorluk are numbers, to duration sure and difficulty zorluk, tagged with the first tag; otherwise the provider-one error, with no fallthrough to "value" |
| Provider.MapToTaskProviderTwo | backend/internal/console/provider/fetch.go:72-88 | without "zorluk" and with "value" the record maps exactly when id, estimated_duration and value are numbers, to those fields, tagged with the second tag; otherwise the provider-two error |
| Provider.MapToTaskUnknown | backend/internal/console/provider/fetch.go:90 | "unknown provider format" exactly for records with neither key |
| Provider.TaskNameRoundTrip | backend/internal/console/provider/fetch.go:65 | the generated name is "Task " followed by the ID in decimal, which parses back to the ID |
| Provider.MapToTaskValidity | backend/internal/pkg/payload/payload.go:17-23 | a mapped request's name always has a valid length, and the request is valid exactly when its ID is non-zero and its duration, difficulty and tag are in range |
| Provider.MapToTaskFixedTagsProvider | backend/cmd/cli/main.go:119-159 | the command-line importer's fixed tags always have a valid length |
| Provider.ProcessTasks | backend/internal/console/provider/fetch.go:38-45 | every record that maps is submitted, in record order; every other one has its own mapping error logged, in record order; submitted plus logged count the records |
| Provider.MappedSound | backend/cmd/cli/main.go:107-114 | every submitted request is the mapping of some record, and when all records map all are submitted |
| Provider.ErrorsSound | backend/internal/console/provider/fetch.go:38-45 | every logged error is the error of some record, and each record is either submitted or logged |
| Prompt.IsValidEnvVarNonEmpty | backend/internal/console/input/prompt.go:32-40 | no key accepts the empty value, and every key other than DB_PORT accepts exactly the non-empty values |
| Prompt.IsValidPort | backend/internal/console/input/prompt.go:34-36 | DB_PORT accepts every 64-bit decimal integer, with a minus or plus sign or none, so negative ports and port zero pass |
| Prompt.InvalidPort | backend/internal/console/input/prompt.go:34-36 | a DB_PORT value with a non-digit past its first character is refused |
| Prompt.PromptForEnv | backend/internal/console/input/prompt.go:12-29 | the answer is the default or a valid, non-empty, trimmed value |
| Prompt.PromptForEnvFirstAnswer | backend/internal/console/input/prompt.go:12-29 | the answer is the trimmed text of the first line that is empty or valid, the default when that line is empty, and the default when every line is refused |
| Prompt.PromptForEnvDefaultUnchecked | backend/internal/console/input/prompt.go:19-21 | a blank answer gives the default, whatever the default is |
| Prompt.YesNoCaseInsensitive | backend/internal/console/cmd/start.go:165-176 | a line means yes exactly when, trimmed, it is empty or spells "yes" or "y" in any case, and no exactly when it spells "no" or "n" |
| Prompt.AnswerMeansYes | backend/internal/console/input/prompt.go:54-58 | the lower-cased answer is yes exactly for the empty string and the spellings of "yes" and "y" in any case |
| Prompt.AnswerMeansNo | backend/internal/console/input/prompt.go:54-58 | the lower-cased answer is no exactly for the spellings of "no" and "n" in any case |
| Prompt.PromptYesNoFirstAnswer | backend/internal/console/input/prompt.go:51-62 | the first recognised line decides, yes or no, and the answer is yes when no line is recognised, as the end of input reads as an empty answer |
| Config.ParseCsv | backend/internal/task/config/config.go:77-82 | at least one item, none containing a comma, and joining them with commas gives the value, or the default when the value is empty |
| Config.ParseCsvOfJoin | backend/internal/task/config/config.go:77-82 | a comma-free list reads back from its comma-joined form |
| Config.LoadConfigCorsDefaults | backend/internal/task/config/config.go:51-53 | unset CORS variables give origins ["*"], the five methods GET, POST, PUT, DELETE, OPTIONS, and headers ["*"] |
| Config.ParsePort | backend/internal/task/config/config.go:62-71 | its only error is the DB_PORT message |
| Config.LoadConfig | backend/internal/task/config/config.go:36-74 | loading fails exactly when the port rule fails, with that message, and otherwise stores the port the rule gives |
| Config.ParsePortRoundTrip | backend/internal/task/config/config.go:66-70 | any 64-bit decimal port, negative or not, loads as that number |
| Config.PromptAndLoadAgree | backend/internal/task/config/config.go:66-69 | a non-empty DB_PORT loads exactly when the console's prompt would accept it |
| Config.PromptedPortLoads | backend/internal/console/input/prompt.go:12-40 | any answer the DB_PORT prompt returns with default 5432 is a port the service's loader (`config.go:62-71`) accepts |
| Text.Atoi | backend/internal/console/input/prompt.go:35 | an accepted string is non-empty and gives a signed 64-bit value, non-negative without a minus sign |
| Text.AtoiOfNatToString | backend/internal/task/config/config.go:66 | every non-negative 64-bit integer in decimal parses back to itself |
| Text.AtoiOfNegative | backend/internal/task/config/config.go:66 | a minus sign followed by the decimal digits of a magnitude up to 2^63 parses to the negative number |
| Text.AtoiRejectsNonDigit | backend/internal/console/input/prompt.go:35 | a string with a non-digit past its first character does not parse |
| Text.JoinSplit | backend/internal/task/config/config.go:79-81 | joining the pieces of a split with the same separator rebuilds the string |
| Text.SplitJoin | backend/internal/task/config/config.go:79-81 | splitting a join of separator-free pieces gives the pieces back |
| Text.TrimSpaceInside | backend/internal/console/input/prompt.go:17 | trimming drops only white space, from both ends |
| Text.TrimSpaceIdempotent | backend/internal/console/input/prompt.go:17 | trimming twice is trimming once |
| Text.TrimSpaceAllSpace | backend/internal/console/input/prompt.go:17-20 | a line of only white space trims to the empty string |
| Text.TrimSpace | backend/internal/console/input/prompt.go:43-48 | `strings.TrimSpace`: the result is no longer than the line and neither starts nor ends with white space |
| Text.Split | backend/internal/task/config/config.go:77-82 | `strings.Split` on one separator: at least one piece and no piece contains the separator |
| Text.SpelledAsLower | backend/internal/console/input/prompt.go:54 | `strings.ToLower` folds case and nothing else: a string lowers to a lower-case ASCII word exactly when it spells that word in any mix of cases |

## Left out

- Fetching, decoding, storage, concurrency and logging are left out.
  - HTTP fetches and JSON decoding: the importers take the already-decoded
    list of records.
  - The repository, migrations and database calls, which include the fetches
    at the top of both schedulers.
  - Worker pools, goroutines, channels, signals and sleeps: `ProcessTasks`
    returns the submitted requests in the order the loop submits them.
  - Logging.
- Standard input: the prompts take the lines typed as a sequence. End of
  input reads as an empty line, as `ReadString` returns at end of file.
  `PromptForInput` (and `promptForInput` in `start.go`) builds a new
  `bufio.Reader` on every call, so with piped input a retry can lose lines
  the discarded reader had buffered. Prompt.PromptYesNo consumes exactly one
  line per attempt, as with interactive input.
- The console's `Run` orchestration is left out. This includes collecting
  extra provider URLs, the default-provider choice and `os.Setenv`. It is
  I/O sequencing around the modelled rules.
- Floating point: effective costs and workloads are exact reals, so
  rounding in `difficulty / capacity` and in their sums is not modelled.
  Every developer has positive capacity (`PositiveCapacities`). Go would
  produce +Inf for capacity 0 and negative costs for negative capacity.
- Schedule.ScheduleAssignments: `uint(minDays)` and `uint(totalElapsedWorkHour)`
  are not wrapped. With non-negative parameters they never need to be.
  Schedule.TruncateHours gives a negative total a stand-in value, because Go
  leaves that conversion implementation-defined; only negative difficulties,
  which validation rejects, reach it.
- Provider.Uint: JSON numbers are integers, so `uint(x)` of a negative,
  fractional or huge float, which Go leaves implementation-defined, is modelled as
  wrap-around modulo 2^64. `int(x)` is modelled as the identity.
- `sort.Slice` is not stable. The model sorts with one admissible ordering,
  and every lemma about the callers uses only "ordered and a permutation".
  So no tie-break is claimed.
- Text.LowerChar and Text.ToLower lower ASCII letters only, while Go's `unicode.ToLower`
  also lowers other scripts. The only non-ASCII characters Go lowers to
  ASCII are the Kelvin sign (to "k") and dotted capital I (to "i"), and
  neither letter occurs in "yes", "y", "no" or "n". So the yes/no
  classification is exact.
- `godotenv.Load` (reading a `.env` file) is left out. The environment map
  is taken as already loaded.
- Config.PromptedPortLoads relates the prompt's rule to the loader in
  `backend/internal/task/config/config.go`. The console's `start.go` calls
  `LoadConfig` from its own `internal/pkg/config` package instead, which is
  not part of this model, so nothing here states what that loader does with
  the prompted port.
- Config.LoadConfig: on a bad port the source has already stored the other
  settings globally before returning the error. The model returns only the
  error.
  - Config.ParsePort's error message leaves out the text of the `strconv`
    error that the source appends.
- `ListTasksRequest` puts no constraint on `Offset` or `Limit`, so there is
  nothing to state about it.
- The rebalancing pass also updates the workload map. That map is discarded
  when `assignTasksToDevelopers` returns, and in any case the move never
  fires.
- Schedule.PeriodCost, ScheduleProperties.WeeksCostBound,
  ScheduleProperties.ScheduleAssignmentsHours, DurationScheduler.WeekBound
  and DurationScheduler.WeekNoSkip require distinct developer IDs (the
  database's primary key). With duplicate IDs the source shares one
  workload, and for the capacity scheduler one bucket, between them. For
  the duration scheduler that means the skip at `service.go:126-128` can
  fire: once the first of two developers with one ID has booked all the
  weekly hours, the second starts with none left.
- The other `service.go` methods (`CreateTask`, `ListTasks`,
  `ListDevelopers`) are left out. They are repository pass-throughs.

## Findings

| source | as written | input that shows it | evidently intended | confidence | as-written member | corrected member |
|---|---|---|---|---|---|---|
| backend/internal/task/service/schedule.go:43-62 | the week loop runs while any task is pending, but a week that places nothing returns the pending tasks unchanged, so the loop never ends | weekly hours 4, one developer of capacity 1, one task of difficulty 5 | stop and report the tasks no developer can take | high, not executed | Schedule.PeriodStallExample | ScheduleProperties.ScheduleAssignmentsCompleteIff |
| backend/internal/task/service/service.go:113-156 | the week loop runs while any task is pending, but a task longer than 45 hours is never taken, so the loop never ends | one developer, one task of duration 46 | stop and report the tasks no developer can take | high, not executed | DurationScheduler.WeekStallExample | DurationScheduler.ScheduleAssaignmentsCompletesIff |

=== FILE: config.dfy ===
/**
 * The HTTP service's configuration, read from the environment in
 * backend/internal/task/config/config.go: plain pass-through settings,
 * comma-separated CORS lists with defaults, and the database port, which
 * defaults to PostgreSQL's 5432 when unset and must otherwise parse as an
 * integer.
 */
module Config {
  import opened Wrappers
  import opened Text
  import Prompt

  /** The process environment. */
  type Env = map<string, string>

  /** `os.Getenv`: an unset variable reads as the empty string. */
  function Getenv(env: Env, key: string): string {
    if key in env then env[key] else ""
  }

  const DefaultOrigins: string := "*"
  const DefaultMethods: string := "GET,POST,PUT,DELETE,OPTIONS"
  const DefaultHeaders: string := "*"
  const DefaultDbPort: int := 5432
  const DbPortError: string := "invalid DB_PORT value"

  /**
   * `parseCSV`: the comma-separated items of `value`, or of `defaultValue`
   * when `value` is empty. Items are not trimmed and may be empty.
   */
  function ParseCsv(value: string, defaultValue: string): (r: seq<string>)
    ensures |r| >= 1
    ensures forall k | 0 <= k < |r| :: ',' !in r[k]
    ensures Join(r, ',') == if value == [] then defaultValue else value
  {
    var source := if value == [] then defaultValue else value;
    JoinSplit(source, ',');
    Split(source, ',')
  }

  /** The settings `LoadConfig` stores. */
  datatype App = App(
    HttpAddr: string,
    HttpServerLogLevel: string,
    ServiceLogLevel: string,
    RepositoryLogLevel: string,
    HttpAllowedOrigins: seq<string>,
    HttpAllowedMethods: seq<string>,
    HttpAllowedHeaders: seq<string>,
    DbHost: string,
    DbUser: string,
    DbPassword: string,
    DbName: string,
    DbPort: int)

  /** The database port rule: unset gives 5432, otherwise the value must parse as an integer. */
  function ParsePort(value: string): (r: Result<int, string>)
    ensures r.Err? ==> r.error == DbPortError
  {
    if value == [] then Ok(DefaultDbPort)
    else match Atoi(value)
      case None => Err(DbPortError)
      case Some(port) => Ok(port)
  }

  /** `LoadConfig` over the environment it reads. */
  function LoadConfig(env: Env): (r: Result<App, string>)
    ensures r.Err? <==> ParsePort(Getenv(env, "DB_PORT")).Err?
    ensures r.Err? ==> r.error == DbPortError
    ensures r.Ok? ==> r.value.DbPort == ParsePort(Getenv(env, "DB_PORT")).value
  {
    match ParsePort(Getenv(env, "DB_PORT"))
    case Err(e) => Err(e)
    case Ok(port) =>
      Ok(App(
        Getenv(env, "HTTP_ADDR"),
        Getenv(env, "HTTP_SERVER_LOG_LEVEL"),
        Getenv(env, "SERVICE_LOG_LEVEL"),
        Getenv(env, "REPOSITORY_LOG_LEVEL"),
        ParseCsv(Getenv(env, "HTTP_ALLOWED_ORIGINS"), DefaultOrigins),
        ParseCsv(Getenv(env, "HTTP_ALLOWED_METHODS"), DefaultMethods),
        ParseCsv(Getenv(env, "HTTP_ALLOWED_HEADERS"), DefaultHeaders),
        Getenv(env, "DB_HOST"),
        Getenv(env, "DB_USER"),
        Getenv(env, "DB_PASSWORD"),
        Getenv(env, "DB_NAME"),
        port))
  }

  /** `parseCSV` splits the value, or the default when the value is empty. */
  lemma ParseCsvSource(value: string, defaultValue: string)
    ensures ParseCsv(value, defaultValue) == Split(if value == [] then defaultValue else value, ',')
  {
  }

  /** A list of items free of commas reads back from its comma-joined form. */
  lemma ParseCsvOfJoin(items: seq<string>, defaultValue: string)
    requires |items| >= 1 && forall k | 0 <= k < |items| :: ',' !in items[k]
    requires Join(items, ',') != []
    ensures ParseCsv(Join(items, ','), defaultValue) == items
  {
    SplitJoin(items, ',');
  }

  lemma JoinCons(head: string, rest: seq<string>, sep: char)
    requires rest != []
    ensures Join([head] + rest, sep) == head + [sep] + Join(rest, sep)
  {
    assert ([head] + rest)[1..] == rest;
  }

  lemma JoinMethodsFrom3()
    ensures Join(["DELETE", "OPTIONS"], ',') == DefaultMethods[13..]
  {
    JoinCons("DELETE", ["OPTIONS"], ',');
    assert DefaultMethods[13..] == DefaultMethods[13..20] + DefaultMethods[20..];
  }

  lemma JoinMethodsFrom2()
    ensures Join(["PUT", "DELETE", "OPTIONS"], ',') == DefaultMethods[9..]
  {
    JoinMethodsFrom3();
    JoinCons("PUT", ["DELETE", "OPTIONS"], ',');
    assert DefaultMethods[9..] == DefaultMethods[9..13] + DefaultMethods[13..];
  }

  lemma JoinMethodsFrom1()
    ensures Join(["POST", "PUT", "DELETE", "OPTIONS"], ',') == DefaultMethods[4..]
  {
    JoinMethodsFrom2();
    JoinCons("POST", ["PUT", "DELETE", "OPTIONS"], ',');
    assert DefaultMethods[4..] == DefaultMethods[4..9] + DefaultMethods[9..];
  }

  lemma JoinDefaultMethods(methods: seq<string>)
    requires methods == ["GET", "POST", "PUT", "DELETE", "OPTIONS"]
    ensures Join(methods, ',') == DefaultMethods
  {
    JoinMethodsFrom1();
    JoinCons("GET", ["POST", "PUT", "DELETE", "OPTIONS"], ',');
    assert DefaultMethods == DefaultMethods[..4] + DefaultMethods[4..];
  }

  lemma SplitDefaultMethods(methods: seq<string>)
    requires methods == ["GET", "POST", "PUT", "DELETE", "OPTIONS"]
    ensures Split(DefaultMethods, ',') == methods
  {
    JoinDefaultMethods(methods);
    assert ',' !in "GET" && ',' !in "POST" && ',' !in "PUT" && ',' !in "DELETE" && ',' !in "OPTIONS";
    SplitJoin(methods, ',');
  }

  /** The default method list holds the five usual methods. */
  lemma DefaultMethodsList()
    ensures ParseCsv("", DefaultMethods) == ["GET", "POST", "PUT", "DELETE", "OPTIONS"]
  {
    SplitDefaultMethods(["GET", "POST", "PUT", "DELETE", "OPTIONS"]);
    ParseCsvSource("", DefaultMethods);
  }

  /** The default origin and header lists hold the one wildcard. */
  lemma DefaultWildcardList()
    ensures ParseCsv("", DefaultOrigins) == ["*"] && ParseCsv("", DefaultHeaders) == ["*"]
  {
    SplitJoin(["*"], ',');
    ParseCsvSource("", DefaultOrigins);
  }

  /** Unset CORS variables give every origin, the five usual methods and every header. */
  lemma LoadConfigCorsDefaults(env: Env)
    requires LoadConfig(env).Ok?
    requires Getenv(env, "HTTP_ALLOWED_ORIGINS") == [] && Getenv(env, "HTTP_ALLOWED_METHODS") == []
    requires Getenv(env, "HTTP_ALLOWED_HEADERS") == []
    ensures LoadConfig(env).value.HttpAllowedOrigins == ["*"]
    ensures LoadConfig(env).value.HttpAllowedMethods == ["GET", "POST", "PUT", "DELETE", "OPTIONS"]
    ensures LoadConfig(env).value.HttpAllowedHeaders == ["*"]
  {
    DefaultMethodsList();
    DefaultWildcardList();
  }

  /**
   * The port: unset or empty gives 5432; otherwise it must parse as a
   * 64-bit integer, and the port is that integer, with no range check.
   */
  lemma ParsePortRule(value: string)
    ensures value == [] ==> ParsePort(value) == Ok(5432)
    ensures value != [] ==> (ParsePort(value).Ok? <==> Atoi(value).Some?)
    ensures ParsePort(value).Ok? && value != [] ==> ParsePort(value).value == Atoi(value).value
  {
  }

  /** Any 64-bit port written in decimal, negative or not, parses as that number. */
  lemma ParsePortRoundTrip(n: nat)
    requires n <= MaxInt64
    ensures ParsePort(NatToString(n)) == Ok(n)
    ensures ParsePort("-" + NatToString(n)) == Ok(-(n as int))
  {
    AtoiOfNatToString(n);
    AtoiOfNegative(n);
  }

  /**
   * The console's port validation and the service's port parsing agree:
   * a non-empty value loads exactly when the prompt would accept it.
   */
  lemma PromptAndLoadAgree(value: string)
    requires value != []
    ensures Prompt.IsValidEnvVar(Prompt.DbPort, value) <==> ParsePort(value).Ok?
  {
  }

  lemma DefaultPortText()
    ensures NatToString(5432) == "5432"
  {
    assert NatToString(5) == "5";
    assert NatToString(54) == "54";
    assert NatToString(543) == "543";
  }

  /**
   * Any answer the DB_PORT prompt returns, with 5432 as the default, is a
   * port this loader accepts.
   */
  lemma PromptedPortLoads(lines: seq<string>)
    ensures ParsePort(Prompt.PromptForEnv(Prompt.DbPort, "5432", lines)).Ok?
  {
    DefaultPortText();
    AtoiOfNatToString(5432);
  }
}

=== FILE: duration_scheduler.dfy ===
/**
 * The duration-based weekly scheduler, `ScheduleAssaignments` in
 * backend/internal/task/service/service.go (the name keeps the source's
 * spelling; it is the scheduler the HTTP handler calls).
 *
 * Tasks are sorted once by descending duration. Every week the developers
 * take turns in list order; a developer with hours left takes, in order,
 * every pending task whose duration fits the hours still left, and the
 * tasks it passes over stay pending for the next developer. A developer
 * who took something gets a bucket, and a week with a bucket is recorded.
 * The source repeats weeks while tasks are pending, which never ends when
 * no developer can take any of them; this model stops at the first week
 * that records nothing and reports the tasks left over.
 */
module DurationScheduler {
  import opened Payload
  import opened Sequences
  import opened Schedule

  /** The weekly hours the source is built with. */
  const WeeklyWorkHours: int := 45

  /** Per-developer hours booked this week, keyed by developer ID. */
  type HourLoads = map<nat, int>

  /** A Go map lookup: an absent key reads as zero. */
  function HoursOf(w: HourLoads, id: nat): int {
    if id in w then w[id] else 0
  }

  /** The sum of the durations of `ts`. */
  function Hours(ts: seq<Task>): int
    decreases |ts|
  {
    if ts == [] then 0 else ts[0].Duration + Hours(ts[1..])
  }

  predicate NonNegativeDurations(ts: seq<Task>) {
    forall k | 0 <= k < |ts| :: ts[k].Duration >= 0
  }

  // ---------------------------------------------------------------------
  // One developer's turn
  // ---------------------------------------------------------------------

  /** The tasks a developer took, the tasks passed over, and the hours left. */
  datatype Pass = Pass(taken: seq<Task>, rest: seq<Task>, left: int)

  /**
   * The task loop of one developer's turn: each task, in order, is taken
   * when its duration fits the hours still left (an exact fit is taken),
   * and passed over otherwise. The pass splits the tasks into the taken
   * and the passed-over ones, both in their original order, and the hours
   * taken plus the hours left are the hours the developer started with.
   */
  function DeveloperPass(ts: seq<Task>, remainingHours: int): (r: Pass)
    ensures multiset(r.taken) + multiset(r.rest) == multiset(ts)
    ensures IsSubsequence(r.taken, ts) && IsSubsequence(r.rest, ts)
    ensures Hours(r.taken) + r.left == remainingHours
    ensures remainingHours >= 0 ==> r.left >= 0
    decreases |ts|
  {
    if ts == [] then Pass([], [], remainingHours)
    else
      var t := ts[0];
      assert ts == [t] + ts[1..];
      if t.Duration <= remainingHours then
        var r := DeveloperPass(ts[1..], remainingHours - t.Duration);
        assert ([t] + r.taken)[1..] == r.taken;
        Pass([t] + r.taken, r.rest, r.left)
      else
        var r := DeveloperPass(ts[1..], remainingHours);
        assert ([t] + r.rest)[1..] == r.rest;
        Pass(r.taken, [t] + r.rest, r.left)
  }

  lemma {:induction false} HoursNonNegative(ts: seq<Task>)
    requires NonNegativeDurations(ts)
    ensures Hours(ts) >= 0
    decreases |ts|
  {
    if ts != [] {
      HoursNonNegative(ts[1..]);
    }
  }

  lemma NonNegativeSubsequence(sub: seq<Task>, ts: seq<Task>)
    requires IsSubsequence(sub, ts) && NonNegativeDurations(ts)
    ensures NonNegativeDurations(sub)
  {
    SubsequenceMembers(sub, ts);
    forall k | 0 <= k < |sub|
      ensures sub[k].Duration >= 0
    {
      var m :| 0 <= m < |ts| && ts[m] == sub[k];
    }
  }

  /** Every task passed over is longer than the hours left. */
  predicate PassedOverLonger(p: Pass) {
    forall k | 0 <= k < |p.rest| :: p.rest[k].Duration > p.left
  }

  /**
   * The pass is greedy: with no negative durations, every task passed
   * over is longer than the hours the developer has left at the end.
   */
  lemma {:induction false} DeveloperPassGreedy(ts: seq<Task>, remainingHours: int)
    requires NonNegativeDurations(ts)
    ensures PassedOverLonger(DeveloperPass(ts, remainingHours))
    decreases |ts|
  {
    if ts != [] {
      var t := ts[0];
      assert NonNegativeDurations(ts[1..]);
      if t.Duration <= remainingHours {
        DeveloperPassGreedy(ts[1..], remainingHours - t.Duration);
        GreedyTakeStep(ts, remainingHours);
      } else {
        var r := DeveloperPass(ts[1..], remainingHours);
        DeveloperPassGreedy(ts[1..], remainingHours);
        NonNegativeSubsequence(r.taken, ts[1..]);
        HoursNonNegative(r.taken);
        GreedySkipStep(ts, remainingHours);
      }
    }
  }

  lemma GreedyTakeStep(ts: seq<Task>, remainingHours: int)
    requires ts != [] && ts[0].Duration <= remainingHours
    requires PassedOverLonger(DeveloperPass(ts[1..], remainingHours - ts[0].Duration))
    ensures PassedOverLonger(DeveloperPass(ts, remainingHours))
  {
    var r := DeveloperPass(ts[1..], remainingHours - ts[0].Duration);
    var q := DeveloperPass(ts, remainingHours);
    assert q.rest == r.rest && q.left == r.left;
  }

  lemma GreedySkipStep(ts: seq<Task>, remainingHours: int)
    requires ts != [] && ts[0].Duration > remainingHours
    requires PassedOverLonger(DeveloperPass(ts[1..], remainingHours))
    requires DeveloperPass(ts[1..], remainingHours).left <= remainingHours
    ensures PassedOverLonger(DeveloperPass(ts, remainingHours))
  {
    var r := DeveloperPass(ts[1..], remainingHours);
    var q := DeveloperPass(ts, remainingHours);
    assert q.rest == [ts[0]] + r.rest && q.left == r.left;
    forall k | 0 <= k < |q.rest|
      ensures q.rest[k].Duration > q.left
    {
      if k > 0 {
        assert q.rest[k] == r.rest[k - 1];
      }
    }
  }

  /** Every task of `ts` is longer than `hours`. */
  predicate AllLonger(ts: seq<Task>, hours: int) {
    forall k | 0 <= k < |ts| :: ts[k].Duration > hours
  }

  /** A pass takes nothing exactly when every task is longer than the hours available. */
  lemma {:induction false} DeveloperPassNothing(ts: seq<Task>, remainingHours: int)
    ensures DeveloperPass(ts, remainingHours).taken == [] <==> AllLonger(ts, remainingHours)
    decreases |ts|
  {
    if ts != [] {
      var t := ts[0];
      var r := DeveloperPass(ts, remainingHours);
      if t.Duration <= remainingHours {
        assert r.taken != [];
      } else {
        var r1 := DeveloperPass(ts[1..], remainingHours);
        DeveloperPassNothing(ts[1..], remainingHours);
        assert r.taken == r1.taken;
        if AllLonger(ts[1..], remainingHours) {
          forall k | 0 <= k < |ts|
            ensures ts[k].Duration > remainingHours
          {
            if k > 0 {
              assert ts[k] == ts[1..][k - 1];
            }
          }
        }
      }
    }
  }

  /** A pass that takes nothing passes over every task. */
  lemma DeveloperPassNothingKeeps(ts: seq<Task>, remainingHours: int)
    requires DeveloperPass(ts, remainingHours).taken == []
    ensures DeveloperPass(ts, remainingHours).rest == ts
  {
    var r := DeveloperPass(ts, remainingHours);
    assert multiset(r.rest) == multiset(ts);
    assert |r.rest| == |ts| by {
      assert |multiset(r.rest)| == |r.rest| && |multiset(ts)| == |ts|;
    }
    SubsequenceSameLength(r.rest, ts);
  }

  // ---------------------------------------------------------------------
  // One week
  // ---------------------------------------------------------------------

  /** The loop state of one week: the buckets so far, the pending tasks, the hours booked. */
  datatype WeekState = WeekState(buckets: seq<Bucket>, pending: seq<Task>, loads: HourLoads)

  /**
   * One developer's turn: a developer with no hours left is skipped;
   * otherwise they make a pass over the pending tasks, get a bucket if
   * they took anything, and their booked hours grow by what they took.
   */
  function DeveloperTurn(s: WeekState, d: Developer, weeklyWorkHours: int): WeekState {
    var remainingHours := weeklyWorkHours - HoursOf(s.loads, d.ID);
    if remainingHours <= 0 then s
    else
      var p := DeveloperPass(s.pending, remainingHours);
      WeekState(
        if |p.taken| > 0 then s.buckets + [DeveloperTaskAssignment(d, p.taken)] else s.buckets,
        p.rest,
        s.loads[d.ID := HoursOf(s.loads, d.ID) + Hours(p.taken)])
  }

  /** The developer loop of one week, over `devs` in order. */
  function DeveloperTurns(s: WeekState, devs: seq<Developer>, weeklyWorkHours: int): WeekState
    decreases |devs|
  {
    if devs == [] then s else DeveloperTurns(DeveloperTurn(s, devs[0], weeklyWorkHours), devs[1..], weeklyWorkHours)
  }

  /** The workloads at the start of a week: zero for every developer. */
  function ZeroLoads(devs: seq<Developer>): (w: HourLoads)
    ensures forall id :: HoursOf(w, id) == 0
  {
    map id | id in DeveloperIds(devs) :: 0
  }

  lemma DeveloperTurnPartition(s: WeekState, d: Developer, weeklyWorkHours: int)
    ensures var r := DeveloperTurn(s, d, weeklyWorkHours);
      && BucketTasks(r.buckets) + multiset(r.pending) == BucketTasks(s.buckets) + multiset(s.pending)
      && IsSubsequence(r.pending, s.pending)
      && |r.buckets| >= |s.buckets|
      && (|r.buckets| == |s.buckets| ==> r.pending == s.pending)
  {
    var remainingHours := weeklyWorkHours - HoursOf(s.loads, d.ID);
    var p := DeveloperPass(s.pending, remainingHours);
    TurnPending(s, d, weeklyWorkHours);
    TurnBuckets(s, d, weeklyWorkHours);
    SubsequenceReflexive(s.pending);
    if remainingHours > 0 {
      if |p.taken| > 0 {
        TurnTakes(s.buckets, d, p, s.pending);
      } else {
        DeveloperPassNothingKeeps(s.pending, remainingHours);
      }
    }
  }

  lemma TurnTakes(b: seq<Bucket>, d: Developer, p: Pass, pending: seq<Task>)
    requires multiset(p.taken) + multiset(p.rest) == multiset(pending)
    requires IsSubsequence(p.rest, pending) && |p.taken| > 0
    ensures var nb := b + [DeveloperTaskAssignment(d, p.taken)];
      && BucketTasks(nb) + multiset(p.rest) == BucketTasks(b) + multiset(pending)
      && IsSubsequence(p.rest, pending)
      && |nb| > |b|
  {
    PassIntoNewBucket(b, DeveloperTaskAssignment(d, p.taken), p.rest, pending);
  }

  lemma PassIntoNewBucket(b: seq<Bucket>, x: Bucket, rest: seq<Task>, pending: seq<Task>)
    requires multiset(x.Tasks) + multiset(rest) == multiset(pending)
    ensures BucketTasks(b + [x]) + multiset(rest) == BucketTasks(b) + multiset(pending)
  {
    BucketsConcat(b, [x]);
    assert [x][..0] == [];
    assert BucketTasks([x]) == multiset(x.Tasks);
    calc {
      BucketTasks(b + [x]) + multiset(rest);
      (BucketTasks(b) + multiset(x.Tasks)) + multiset(rest);
      { assert forall y :: ((BucketTasks(b) + multiset(x.Tasks)) + multiset(rest))[y]
                          == (BucketTasks(b) + (multiset(x.Tasks) + multiset(rest)))[y]; }
      BucketTasks(b) + multiset(pending);
    }
  }

  /**
   * The developer loop hands every task it sees to exactly one bucket or
   * leaves it pending, keeps the pending tasks in order, never removes a
   * bucket, and leaves the pending tasks alone when it opens no bucket.
   */
  lemma {:induction false} DeveloperTurnsPartition(s: WeekState, devs: seq<Developer>, weeklyWorkHours: int)
    ensures var r := DeveloperTurns(s, devs, weeklyWorkHours);
      && BucketTasks(r.buckets) + multiset(r.pending) == BucketTasks(s.buckets) + multiset(s.pending)
      && IsSubsequence(r.pending, s.pending)
      && |r.buckets| >= |s.buckets|
      && (|r.buckets| == |s.buckets| ==> r.pending == s.pending)
    decreases |devs|
  {
    if devs == [] {
      SubsequenceReflexive(s.pending);
    } else {
      var s1 := DeveloperTurn(s, devs[0], weeklyWorkHours);
      DeveloperTurnPartition(s, devs[0], weeklyWorkHours);
      DeveloperTurnsPartition(s1, devs[1..], weeklyWorkHours);
      var r := DeveloperTurns(s, devs, weeklyWorkHours);
      SubsequenceTransitive(r.pending, s1.pending, s.pending);
    }
  }

  /**
   * The buckets a week records: none empty, each belonging to a developer
   * of the list, each holding a subsequence of the week's pending tasks.
   */
  predicate WeekBuckets(b: seq<Bucket>, devs: seq<Developer>, pending: seq<Task>) {
    && NoEmptyBucket(b)
    && StaffedFrom(b, devs)
    && forall k | 0 <= k < |b| :: IsSubsequence(b[k].Tasks, pending)
  }

  lemma DeveloperTurnShape(s: WeekState, d: Developer, all: seq<Developer>, pending: seq<Task>, weeklyWorkHours: int)
    requires d in all
    requires WeekBuckets(s.buckets, all, pending) && IsSubsequence(s.pending, pending)
    ensures var r := DeveloperTurn(s, d, weeklyWorkHours);
      WeekBuckets(r.buckets, all, pending) && IsSubsequence(r.pending, pending)
  {
    var r := DeveloperTurn(s, d, weeklyWorkHours);
    var remainingHours := weeklyWorkHours - HoursOf(s.loads, d.ID);
    if remainingHours > 0 {
      var p := DeveloperPass(s.pending, remainingHours);
      assert r.pending == p.rest;
      SubsequenceTransitive(p.taken, s.pending, pending);
      SubsequenceTransitive(p.rest, s.pending, pending);
      if |p.taken| > 0 {
        var x := DeveloperTaskAssignment(d, p.taken);
        assert r.buckets == s.buckets + [x];
        AppendWeekBucket(s.buckets, x, all, pending);
      } else {
        assert r.buckets == s.buckets;
      }
    } else {
      assert r == s;
    }
  }

  lemma AppendWeekBucket(b: seq<Bucket>, x: Bucket, all: seq<Developer>, pending: seq<Task>)
    requires WeekBuckets(b, all, pending)
    requires |x.Tasks| > 0 && x.Developer in all && IsSubsequence(x.Tasks, pending)
    ensures WeekBuckets(b + [x], all, pending)
  {
    assert forall k | 0 <= k < |b| :: (b + [x])[k] == b[k];
  }

  lemma {:induction false} DeveloperTurnsShape(s: WeekState, devs: seq<Developer>, all: seq<Developer>, pending: seq<Task>, weeklyWorkHours: int)
    requires forall j | 0 <= j < |devs| :: devs[j] in all
    requires WeekBuckets(s.buckets, all, pending) && IsSubsequence(s.pending, pending)
    ensures var r := DeveloperTurns(s, devs, weeklyWorkHours);
      WeekBuckets(r.buckets, all, pending) && IsSubsequence(r.pending, pending)
    decreases |devs|
  {
    if devs != [] {
      DeveloperTurnShape(s, devs[0], all, pending, weeklyWorkHours);
      DeveloperTurnsShape(DeveloperTurn(s, devs[0], weeklyWorkHours), devs[1..], all, pending, weeklyWorkHours);
    }
  }

  /** No bucket holds more than the weekly hours. */
  predicate BucketsWithin(b: seq<Bucket>, weeklyWorkHours: int) {
    forall k | 0 <= k < |b| :: Hours(b[k].Tasks) <= weeklyWorkHours
  }

  /**
   * A developer who starts the turn with nothing booked gets a bucket of
   * at most the weekly hours, and nobody else's booked hours change.
   */
  lemma DeveloperTurnBound(s: WeekState, d: Developer, weeklyWorkHours: int)
    requires HoursOf(s.loads, d.ID) == 0
    requires BucketsWithin(s.buckets, weeklyWorkHours)
    ensures var r := DeveloperTurn(s, d, weeklyWorkHours);
      && BucketsWithin(r.buckets, weeklyWorkHours)
      && (forall id | id != d.ID :: HoursOf(r.loads, id) == HoursOf(s.loads, id))
  {
    var r := DeveloperTurn(s, d, weeklyWorkHours);
    if weeklyWorkHours > 0 {
      var p := DeveloperPass(s.pending, weeklyWorkHours);
      if |p.taken| > 0 {
        var x := DeveloperTaskAssignment(d, p.taken);
        assert r.buckets == s.buckets + [x];
        assert forall k | 0 <= k < |s.buckets| :: (s.buckets + [x])[k] == s.buckets[k];
      } else {
        assert r.buckets == s.buckets;
      }
    } else {
      assert r == s;
    }
  }

  /** Every bucket the loop records holds at most the weekly hours, provided each developer starts from zero. */
  lemma {:induction false} DeveloperTurnsBound(s: WeekState, devs: seq<Developer>, weeklyWorkHours: int)
    requires UniqueIds(devs)
    requires forall j | 0 <= j < |devs| :: HoursOf(s.loads, devs[j].ID) == 0
    requires BucketsWithin(s.buckets, weeklyWorkHours)
    ensures BucketsWithin(DeveloperTurns(s, devs, weeklyWorkHours).buckets, weeklyWorkHours)
    decreases |devs|
  {
    if devs != [] {
      var d := devs[0];
      var s1 := DeveloperTurn(s, d, weeklyWorkHours);
      DeveloperTurnBound(s, d, weeklyWorkHours);
      forall j | 0 <= j < |devs[1..]|
        ensures HoursOf(s1.loads, devs[1..][j].ID) == 0
      {
        assert devs[1..][j] == devs[j + 1];
      }
      DeveloperTurnsBound(s1, devs[1..], weeklyWorkHours);
      assert DeveloperTurns(s, devs, weeklyWorkHours) == DeveloperTurns(s1, devs[1..], weeklyWorkHours);
    }
  }

  /** The developer loop with no skip: every developer makes a pass. */
  function DeveloperTurnsNoSkip(s: WeekState, devs: seq<Developer>, weeklyWorkHours: int): WeekState
    decreases |devs|
  {
    if devs == [] then s
    else
      var d := devs[0];
      var p := DeveloperPass(s.pending, weeklyWorkHours - HoursOf(s.loads, d.ID));
      var s1 := WeekState(
        if |p.taken| > 0 then s.buckets + [DeveloperTaskAssignment(d, p.taken)] else s.buckets,
        p.rest,
        s.loads[d.ID := HoursOf(s.loads, d.ID) + Hours(p.taken)]);
      DeveloperTurnsNoSkip(s1, devs[1..], weeklyWorkHours)
  }

  /**
   * Workloads restart from zero every week and each developer is visited
   * once, so with distinct IDs and positive weekly hours the skip for a
   * developer with no hours left never fires.
   */
  lemma {:induction false} SkipNeverFires(s: WeekState, devs: seq<Developer>, weeklyWorkHours: int)
    requires UniqueIds(devs) && weeklyWorkHours > 0
    requires forall j | 0 <= j < |devs| :: HoursOf(s.loads, devs[j].ID) == 0
    ensures DeveloperTurns(s, devs, weeklyWorkHours) == DeveloperTurnsNoSkip(s, devs, weeklyWorkHours)
    decreases |devs|
  {
    if devs != [] {
      var d := devs[0];
      var s1 := DeveloperTurn(s, d, weeklyWorkHours);
      forall j | 0 <= j < |devs[1..]|
        ensures HoursOf(s1.loads, devs[1..][j].ID) == 0
      {
        assert devs[1..][j] == devs[j + 1];
      }
      SkipNeverFires(s1, devs[1..], weeklyWorkHours);
    }
  }

  /** The week's loop from an empty assignment, every workload at zero. */
  function Week(pending: seq<Task>, devs: seq<Developer>, weeklyWorkHours: int): (r: WeekState)
    ensures BucketTasks(r.buckets) + multiset(r.pending) == multiset(pending)
    ensures IsSubsequence(r.pending, pending)
    ensures WeekBuckets(r.buckets, devs, pending)
    ensures |r.buckets| > 0 <==> |r.pending| < |pending|
  {
    var start := WeekState([], pending, ZeroLoads(devs));
    DeveloperTurnsPartition(start, devs, weeklyWorkHours);
    SubsequenceReflexive(pending);
    DeveloperTurnsShape(start, devs, devs, pending, weeklyWorkHours);
    var r := DeveloperTurns(start, devs, weeklyWorkHours);
    BucketTasksCount(r.buckets);
    assert |multiset(r.pending)| == |r.pending|;
    r
  }

  /**
   * A week that records nothing leaves every task pending; with positive
   * weekly hours that happens only without developers or when every
   * pending task is longer than the weekly hours.
   */
  lemma WeekStall(pending: seq<Task>, devs: seq<Developer>, weeklyWorkHours: int)
    requires weeklyWorkHours > 0
    ensures var r := Week(pending, devs, weeklyWorkHours);
      r.buckets == [] ==>
        && r.pending == pending
        && (|devs| == 0 || AllLonger(pending, weeklyWorkHours))
  {
    var start := WeekState([], pending, ZeroLoads(devs));
    if |devs| > 0 {
      var s1 := DeveloperTurn(start, devs[0], weeklyWorkHours);
      DeveloperTurnPartition(start, devs[0], weeklyWorkHours);
      DeveloperTurnsPartition(s1, devs[1..], weeklyWorkHours);
      if Week(pending, devs, weeklyWorkHours).buckets == [] {
        assert s1.buckets == [];
        DeveloperPassNothing(pending, weeklyWorkHours);
      }
    }
  }

  /**
   * With a developer, positive weekly hours and pending tasks whose first
   * task fits an empty week, the week places something.
   */
  lemma WeekProgress(pending: seq<Task>, devs: seq<Developer>, weeklyWorkHours: int)
    requires weeklyWorkHours > 0 && |devs| > 0 && |pending| > 0
    requires pending[0].Duration <= weeklyWorkHours
    ensures |Week(pending, devs, weeklyWorkHours).buckets| > 0
  {
    WeekStall(pending, devs, weeklyWorkHours);
  }

  /**
   * A task longer than the weekly hours is never taken: with one
   * developer and the source's 45 hours, a 46-hour task leaves the week
   * empty and the task pending, so the source's week loop, which repeats
   * while tasks are pending, would repeat this week forever.
   */
  lemma WeekStallExample(d: Developer, t: Task)
    requires t.Duration == WeeklyWorkHours + 1
    ensures var w := Week([t], [d], WeeklyWorkHours);
      w.buckets == [] && w.pending == [t]
  {
    var start := WeekState([], [t], ZeroLoads([d]));
    var p := DeveloperPass([t], WeeklyWorkHours);
    assert p.taken == [] && p.rest == [t] by {
      assert [t][1..] == [];
    }
    var s1 := DeveloperTurn(start, d, WeeklyWorkHours);
    assert s1.buckets == [] && s1.pending == [t];
    assert DeveloperTurns(start, [d], WeeklyWorkHours) == DeveloperTurns(s1, [], WeeklyWorkHours);
  }

  // ---------------------------------------------------------------------
  // The whole schedule
  // ---------------------------------------------------------------------

  /** The weeks recorded and the tasks never placed. */
  datatype DurationRun = DurationRun(weeks: seq<Assignment>, stranded: seq<Task>)

  /**
   * The week loop: weeks repeat while tasks are pending; a week that
   * records nothing ends the loop, which the source would repeat forever.
   */
  function RunWeeks(pending: seq<Task>, devs: seq<Developer>, weeklyWorkHours: int): (r: DurationRun)
    ensures |r.weeks| <= |pending|
    ensures forall k | 0 <= k < |r.weeks| :: |r.weeks[k].DeveloperTasks| > 0
    decreases |pending|
  {
    if pending == [] then DurationRun([], [])
    else
      var w := Week(pending, devs, weeklyWorkHours);
      if w.buckets == [] then DurationRun([], pending)
      else
        var rest := RunWeeks(w.pending, devs, weeklyWorkHours);
        assert forall k | 1 <= k < |rest.weeks| + 1 :: ([Assignment(w.buckets)] + rest.weeks)[k] == rest.weeks[k - 1];
        DurationRun([Assignment(w.buckets)] + rest.weeks, rest.stranded)
  }

  /** What the scheduler returns: a complete schedule, or the weeks recorded and the tasks that never fit. */
  datatype DurationOutcome =
    | Completed(response: DurationScheduleResponse)
    | Stalled(response: DurationScheduleResponse, stranded: seq<Task>)

  /**
   * `ScheduleAssaignments`: sort the tasks by descending duration, run the
   * weeks, and report the number of weeks recorded as `MinDuration`.
   */
  function ScheduleAssaignments(tasks: seq<Task>, devs: seq<Developer>, weeklyWorkHours: int): (r: DurationOutcome)
    ensures r.response.MinDuration == |r.response.Assignments| <= |tasks|
    ensures tasks == [] ==> r == Completed(DurationScheduleResponse([], 0))
    ensures r.Stalled? ==> |r.stranded| > 0
  {
    var sorted := SortDescBy(tasks, TaskDuration);
    assert |sorted| == |multiset(sorted)| == |tasks|;
    var run := RunWeeks(sorted, devs, weeklyWorkHours);
    var response := DurationScheduleResponse(run.weeks, |run.weeks|);
    if run.stranded == [] then Completed(response) else Stalled(response, run.stranded)
  }

  // ---------------------------------------------------------------------
  // Properties of a week
  // ---------------------------------------------------------------------

  /** With distinct developer IDs, no bucket of a week holds more than the weekly hours. */
  lemma WeekBound(pending: seq<Task>, devs: seq<Developer>, weeklyWorkHours: int)
    requires UniqueIds(devs)
    ensures BucketsWithin(Week(pending, devs, weeklyWorkHours).buckets, weeklyWorkHours)
  {
    DeveloperTurnsBound(WeekState([], pending, ZeroLoads(devs)), devs, weeklyWorkHours);
  }

  /** With distinct developer IDs and positive weekly hours, every developer of a week makes a pass. */
  lemma WeekNoSkip(pending: seq<Task>, devs: seq<Developer>, weeklyWorkHours: int)
    requires UniqueIds(devs) && weeklyWorkHours > 0
    ensures Week(pending, devs, weeklyWorkHours) == DeveloperTurnsNoSkip(WeekState([], pending, ZeroLoads(devs)), devs, weeklyWorkHours)
  {
    SkipNeverFires(WeekState([], pending, ZeroLoads(devs)), devs, weeklyWorkHours);
  }

  lemma WeekBucketsWiden(b: seq<Bucket>, devs: seq<Developer>, p1: seq<Task>, p2: seq<Task>)
    requires WeekBuckets(b, devs, p1) && IsSubsequence(p1, p2)
    ensures WeekBuckets(b, devs, p2)
  {
    forall k | 0 <= k < |b|
      ensures IsSubsequence(b[k].Tasks, p2)
    {
      SubsequenceTransitive(b[k].Tasks, p1, p2);
    }
  }

  // ---------------------------------------------------------------------
  // Properties of the whole run
  // ---------------------------------------------------------------------

  /** Every pending task lands in exactly one bucket of one week or among the stranded tasks. */
  lemma {:induction false} RunPartition(pending: seq<Task>, devs: seq<Developer>, weeklyWorkHours: int)
    ensures var r := RunWeeks(pending, devs, weeklyWorkHours);
      AllTasks(r.weeks) + multiset(r.stranded) == multiset(pending)
    decreases |pending|
  {
    if pending != [] {
      var w := Week(pending, devs, weeklyWorkHours);
      if w.buckets != [] {
        var rest := RunWeeks(w.pending, devs, weeklyWorkHours);
        RunPartition(w.pending, devs, weeklyWorkHours);
        var r := RunWeeks(pending, devs, weeklyWorkHours);
        assert r.weeks == [Assignment(w.buckets)] + rest.weeks && r.stranded == rest.stranded;
        AllTasksCons(Assignment(w.buckets), rest.weeks);
        MultisetAssociative(BucketTasks(w.buckets), AllTasks(rest.weeks), multiset(rest.stranded));
      }
    }
  }

  /** The buckets of all weeks are non-empty, staffed from the list, and hold subsequences of the tasks. */
  predicate RunBuckets(weeks: seq<Assignment>, devs: seq<Developer>, pending: seq<Task>) {
    forall k | 0 <= k < |weeks| :: WeekBuckets(weeks[k].DeveloperTasks, devs, pending)
  }

  lemma RunBucketsCons(a: Assignment, weeks: seq<Assignment>, devs: seq<Developer>, pending: seq<Task>)
    requires WeekBuckets(a.DeveloperTasks, devs, pending) && RunBuckets(weeks, devs, pending)
    ensures RunBuckets([a] + weeks, devs, pending)
  {
    assert forall k | 1 <= k < |[a] + weeks| :: ([a] + weeks)[k] == weeks[k - 1];
  }

  lemma RunBucketsWiden(weeks: seq<Assignment>, devs: seq<Developer>, p1: seq<Task>, p2: seq<Task>)
    requires RunBuckets(weeks, devs, p1) && IsSubsequence(p1, p2)
    ensures RunBuckets(weeks, devs, p2)
  {
    forall k | 0 <= k < |weeks|
      ensures WeekBuckets(weeks[k].DeveloperTasks, devs, p2)
    {
      WeekBucketsWiden(weeks[k].DeveloperTasks, devs, p1, p2);
    }
  }

  lemma {:induction false} RunShape(pending: seq<Task>, devs: seq<Developer>, weeklyWorkHours: int)
    ensures RunBuckets(RunWeeks(pending, devs, weeklyWorkHours).weeks, devs, pending)
    decreases |pending|
  {
    if pending != [] {
      var w := Week(pending, devs, weeklyWorkHours);
      if w.buckets != [] {
        var rest := RunWeeks(w.pending, devs, weeklyWorkHours);
        RunShape(w.pending, devs, weeklyWorkHours);
        RunBucketsWiden(rest.weeks, devs, w.pending, pending);
        RunBucketsCons(Assignment(w.buckets), rest.weeks, devs, pending);
      }
    }
  }

  /** Every bucket of every week holds at most the weekly hours. */
  predicate RunWithin(weeks: seq<Assignment>, weeklyWorkHours: int) {
    forall k, m | 0 <= k < |weeks| && 0 <= m < |weeks[k].DeveloperTasks| ::
      Hours(weeks[k].DeveloperTasks[m].Tasks) <= weeklyWorkHours
  }

  lemma RunWithinCons(a: Assignment, weeks: seq<Assignment>, weeklyWorkHours: int)
    requires BucketsWithin(a.DeveloperTasks, weeklyWorkHours)
    requires RunWithin(weeks, weeklyWorkHours)
    ensures RunWithin([a] + weeks, weeklyWorkHours)
  {
    assert forall k | 1 <= k < |[a] + weeks| :: ([a] + weeks)[k] == weeks[k - 1];
  }

  /** With distinct developer IDs, no developer is booked beyond the weekly hours in any week. */
  lemma {:induction false} RunBound(pending: seq<Task>, devs: seq<Developer>, weeklyWorkHours: int)
    requires UniqueIds(devs)
    ensures RunWithin(RunWeeks(pending, devs, weeklyWorkHours).weeks, weeklyWorkHours)
    decreases |pending|
  {
    if pending != [] {
      var w := Week(pending, devs, weeklyWorkHours);
      if w.buckets != [] {
        WeekBound(pending, devs, weeklyWorkHours);
        RunBound(w.pending, devs, weeklyWorkHours);
        RunWithinCons(Assignment(w.buckets), RunWeeks(w.pending, devs, weeklyWorkHours).weeks, weeklyWorkHours);
      }
    }
  }

  /**
   * With positive weekly hours, tasks are stranded only when there is no
   * developer or every stranded task is longer than the weekly hours; the
   * stranded tasks come from the pending ones.
   */
  lemma {:induction false} RunStranded(pending: seq<Task>, devs: seq<Developer>, weeklyWorkHours: int)
    requires weeklyWorkHours > 0
    ensures var r := RunWeeks(pending, devs, weeklyWorkHours);
      && multiset(r.stranded) <= multiset(pending)
      && (|devs| == 0 || AllLonger(r.stranded, weeklyWorkHours))
    decreases |pending|
  {
    RunPartition(pending, devs, weeklyWorkHours);
    if pending != [] {
      var w := Week(pending, devs, weeklyWorkHours);
      WeekStall(pending, devs, weeklyWorkHours);
      if w.buckets != [] {
        RunStranded(w.pending, devs, weeklyWorkHours);
      }
    }
  }

  /** Every task fits an empty week. */
  predicate AllFit(ts: seq<Task>, weeklyWorkHours: int) {
    forall k | 0 <= k < |ts| :: ts[k].Duration <= weeklyWorkHours
  }

  lemma AllFitSubset(sub: seq<Task>, ts: seq<Task>, weeklyWorkHours: int)
    requires multiset(sub) <= multiset(ts) && AllFit(ts, weeklyWorkHours)
    ensures AllFit(sub, weeklyWorkHours)
  {
    forall k | 0 <= k < |sub|
      ensures sub[k].Duration <= weeklyWorkHours
    {
      assert sub[k] in multiset(sub);
      var m :| 0 <= m < |ts| && ts[m] == sub[k];
    }
  }

  /** With a developer and positive weekly hours, a run over tasks that each fit an empty week strands nothing. */
  lemma RunComplete(pending: seq<Task>, devs: seq<Developer>, weeklyWorkHours: int)
    requires weeklyWorkHours > 0 && |devs| > 0 && AllFit(pending, weeklyWorkHours)
    ensures RunWeeks(pending, devs, weeklyWorkHours).stranded == []
  {
    var r := RunWeeks(pending, devs, weeklyWorkHours);
    RunStranded(pending, devs, weeklyWorkHours);
    AllFitSubset(r.stranded, pending, weeklyWorkHours);
  }

  // ---------------------------------------------------------------------
  // Tasks longer than a week
  // ---------------------------------------------------------------------

  /** Every developer's booked hours are non-negative. */
  predicate LoadsNonNegative(w: HourLoads) {
    forall id | id in w :: w[id] >= 0
  }

  /** With no negative durations, every task a pass takes fits the hours the developer started with. */
  lemma {:induction false} PassTakesFit(ts: seq<Task>, remainingHours: int)
    requires NonNegativeDurations(ts)
    ensures AllFit(DeveloperPass(ts, remainingHours).taken, remainingHours)
    decreases |ts|
  {
    if ts != [] {
      var t := ts[0];
      assert NonNegativeDurations(ts[1..]);
      if t.Duration <= remainingHours {
        PassTakesFit(ts[1..], remainingHours - t.Duration);
        FitTakeStep(ts, remainingHours);
      } else {
        PassTakesFit(ts[1..], remainingHours);
        FitSkipStep(ts, remainingHours);
      }
    }
  }

  lemma FitTakeStep(ts: seq<Task>, remainingHours: int)
    requires ts != [] && 0 <= ts[0].Duration <= remainingHours
    requires AllFit(DeveloperPass(ts[1..], remainingHours - ts[0].Duration).taken, remainingHours - ts[0].Duration)
    ensures AllFit(DeveloperPass(ts, remainingHours).taken, remainingHours)
  {
    var r := DeveloperPass(ts[1..], remainingHours - ts[0].Duration);
    var q := DeveloperPass(ts, remainingHours);
    assert q.taken == [ts[0]] + r.taken;
    forall k | 0 <= k < |q.taken|
      ensures q.taken[k].Duration <= remainingHours
    {
      if k > 0 {
        assert q.taken[k] == r.taken[k - 1];
      }
    }
  }

  lemma FitSkipStep(ts: seq<Task>, remainingHours: int)
    requires ts != [] && ts[0].Duration > remainingHours
    requires AllFit(DeveloperPass(ts[1..], remainingHours).taken, remainingHours)
    ensures AllFit(DeveloperPass(ts, remainingHours).taken, remainingHours)
  {
    assert DeveloperPass(ts, remainingHours).taken == DeveloperPass(ts[1..], remainingHours).taken;
  }

  /**
   * A developer's turn never takes a task longer than the weekly hours:
   * booked hours never go negative, so no developer has more than the
   * weekly hours left.
   */
  lemma TurnKeepsLong(s: WeekState, d: Developer, weeklyWorkHours: int, t: Task)
    requires LoadsNonNegative(s.loads) && NonNegativeDurations(s.pending)
    requires t.Duration > weeklyWorkHours
    ensures var r := DeveloperTurn(s, d, weeklyWorkHours);
      && LoadsNonNegative(r.loads) && NonNegativeDurations(r.pending)
      && multiset(r.pending)[t] == multiset(s.pending)[t]
  {
    var booked := HoursOf(s.loads, d.ID);
    TurnPending(s, d, weeklyWorkHours);
    if weeklyWorkHours - booked > 0 {
      PassKeepsLong(s.pending, weeklyWorkHours - booked, weeklyWorkHours, t);
    }
    TurnLoadsNonNegative(s, d, weeklyWorkHours);
  }

  /** A developer's turn leaves pending what their pass passes over, or everything when they have no hours left. */
  lemma TurnPending(s: WeekState, d: Developer, weeklyWorkHours: int)
    ensures DeveloperTurn(s, d, weeklyWorkHours).pending
        == if weeklyWorkHours - HoursOf(s.loads, d.ID) > 0
           then DeveloperPass(s.pending, weeklyWorkHours - HoursOf(s.loads, d.ID)).rest else s.pending
  {
  }

  /** A developer's turn adds a bucket holding what their pass took, when it took anything. */
  lemma TurnBuckets(s: WeekState, d: Developer, weeklyWorkHours: int)
    ensures DeveloperTurn(s, d, weeklyWorkHours).buckets
        == if weeklyWorkHours - HoursOf(s.loads, d.ID) > 0 && |DeveloperPass(s.pending, weeklyWorkHours - HoursOf(s.loads, d.ID)).taken| > 0
           then s.buckets + [DeveloperTaskAssignment(d, DeveloperPass(s.pending, weeklyWorkHours - HoursOf(s.loads, d.ID)).taken)]
           else s.buckets
  {
  }

  /** A turn that books a non-negative number of hours keeps every load non-negative. */
  lemma TurnLoadsNonNegative(s: WeekState, d: Developer, weeklyWorkHours: int)
    ensures var booked := HoursOf(s.loads, d.ID);
      (LoadsNonNegative(s.loads) && (weeklyWorkHours - booked > 0 ==> Hours(DeveloperPass(s.pending, weeklyWorkHours - booked).taken) >= 0))
        ==> LoadsNonNegative(DeveloperTurn(s, d, weeklyWorkHours).loads)
  {
  }

  /** A pass with at most the weekly hours takes no copy of a longer task. */
  lemma PassKeepsLong(ts: seq<Task>, remainingHours: int, weeklyWorkHours: int, t: Task)
    requires NonNegativeDurations(ts) && remainingHours <= weeklyWorkHours < t.Duration
    ensures var p := DeveloperPass(ts, remainingHours);
      && multiset(p.rest)[t] == multiset(ts)[t]
      && NonNegativeDurations(p.rest)
      && Hours(p.taken) >= 0
  {
    var p := DeveloperPass(ts, remainingHours);
    PassTakesFit(ts, remainingHours);
    forall k | 0 <= k < |p.taken|
      ensures p.taken[k] != t
    {
    }
    assert t !in p.taken;
    NonNegativeSubsequence(p.taken, ts);
    NonNegativeSubsequence(p.rest, ts);
    HoursNonNegative(p.taken);
  }

  lemma {:induction false} TurnsKeepLong(s: WeekState, devs: seq<Developer>, weeklyWorkHours: int, t: Task)
    requires LoadsNonNegative(s.loads) && NonNegativeDurations(s.pending)
    requires t.Duration > weeklyWorkHours
    ensures var r := DeveloperTurns(s, devs, weeklyWorkHours);
      && LoadsNonNegative(r.loads) && NonNegativeDurations(r.pending)
      && multiset(r.pending)[t] == multiset(s.pending)[t]
    decreases |devs|
  {
    if devs != [] {
      var s1 := DeveloperTurn(s, devs[0], weeklyWorkHours);
      TurnKeepsLong(s, devs[0], weeklyWorkHours, t);
      TurnsKeepLong(s1, devs[1..], weeklyWorkHours, t);
    }
  }

  /** A week leaves every copy of a task longer than the weekly hours pending. */
  lemma WeekKeepsLong(pending: seq<Task>, devs: seq<Developer>, weeklyWorkHours: int, t: Task)
    requires NonNegativeDurations(pending) && t.Duration > weeklyWorkHours
    ensures multiset(Week(pending, devs, weeklyWorkHours).pending)[t] == multiset(pending)[t]
  {
    var start := WeekState([], pending, ZeroLoads(devs));
    TurnsKeepLong(start, devs, weeklyWorkHours, t);
  }

  /** A pending task longer than the weekly hours is never placed: the run strands it. */
  lemma {:induction false} RunStrandsLong(pending: seq<Task>, devs: seq<Developer>, weeklyWorkHours: int, t: Task)
    requires NonNegativeDurations(pending) && t in pending && t.Duration > weeklyWorkHours
    ensures t in RunWeeks(pending, devs, weeklyWorkHours).stranded
    decreases |pending|
  {
    var w := Week(pending, devs, weeklyWorkHours);
    WeekKeepsLong(pending, devs, weeklyWorkHours, t);
    assert t in multiset(w.pending);
    if w.buckets != [] {
      NonNegativeSubsequence(w.pending, pending);
      RunStrandsLong(w.pending, devs, weeklyWorkHours, t);
    }
  }

  // ---------------------------------------------------------------------
  // Properties of ScheduleAssaignments
  // ---------------------------------------------------------------------

  function StrandedOf(r: DurationOutcome): seq<Task> {
    if r.Stalled? then r.stranded else []
  }

  /** Every task appears exactly once, in one bucket of one week or among the stranded tasks. */
  lemma ScheduleAssaignmentsPartition(tasks: seq<Task>, devs: seq<Developer>, weeklyWorkHours: int)
    ensures var r := ScheduleAssaignments(tasks, devs, weeklyWorkHours);
      AllTasks(r.response.Assignments) + multiset(StrandedOf(r)) == multiset(tasks)
  {
    RunPartition(SortDescBy(tasks, TaskDuration), devs, weeklyWorkHours);
  }

  /** Every bucket is non-empty, belongs to a developer of the list, and lists its tasks longest first. */
  lemma ScheduleAssaignmentsBuckets(tasks: seq<Task>, devs: seq<Developer>, weeklyWorkHours: int)
    ensures var r := ScheduleAssaignments(tasks, devs, weeklyWorkHours);
      forall k, m | 0 <= k < |r.response.Assignments| && 0 <= m < |r.response.Assignments[k].DeveloperTasks| ::
        var b := r.response.Assignments[k].DeveloperTasks[m];
        |b.Tasks| > 0 && b.Developer in devs && SortedDescBy(b.Tasks, TaskDuration)
  {
    var sorted := SortDescBy(tasks, TaskDuration);
    var weeks := RunWeeks(sorted, devs, weeklyWorkHours).weeks;
    RunShape(sorted, devs, weeklyWorkHours);
    forall k, m | 0 <= k < |weeks| && 0 <= m < |weeks[k].DeveloperTasks|
      ensures SortedDescBy(weeks[k].DeveloperTasks[m].Tasks, TaskDuration)
    {
      assert WeekBuckets(weeks[k].DeveloperTasks, devs, sorted);
      SubsequenceSorted(weeks[k].DeveloperTasks[m].Tasks, sorted, TaskDuration);
    }
  }

  /** With distinct developer IDs, no developer is booked beyond the weekly hours in any week. */
  lemma ScheduleAssaignmentsBound(tasks: seq<Task>, devs: seq<Developer>, weeklyWorkHours: int)
    requires UniqueIds(devs)
    ensures RunWithin(ScheduleAssaignments(tasks, devs, weeklyWorkHours).response.Assignments, weeklyWorkHours)
  {
    RunBound(SortDescBy(tasks, TaskDuration), devs, weeklyWorkHours);
  }

  /**
   * With positive weekly hours the schedule stalls only without developers
   * or with tasks longer than the weekly hours, all of them from the input.
   */
  lemma ScheduleAssaignmentsStalls(tasks: seq<Task>, devs: seq<Developer>, weeklyWorkHours: int)
    requires weeklyWorkHours > 0
    ensures var r := ScheduleAssaignments(tasks, devs, weeklyWorkHours);
      r.Stalled? ==>
        && multiset(r.stranded) <= multiset(tasks)
        && (|devs| == 0 || AllLonger(r.stranded, weeklyWorkHours))
  {
    RunStranded(SortDescBy(tasks, TaskDuration), devs, weeklyWorkHours);
  }

  /** With a developer and positive weekly hours, tasks that each fit an empty week are all scheduled. */
  lemma ScheduleAssaignmentsCompletes(tasks: seq<Task>, devs: seq<Developer>, weeklyWorkHours: int)
    requires weeklyWorkHours > 0 && |devs| > 0 && AllFit(tasks, weeklyWorkHours)
    ensures ScheduleAssaignments(tasks, devs, weeklyWorkHours).Completed?
  {
    var sorted := SortDescBy(tasks, TaskDuration);
    AllFitSubset(sorted, tasks, weeklyWorkHours);
    RunComplete(sorted, devs, weeklyWorkHours);
  }

  lemma NonNegativePermutation(a: seq<Task>, b: seq<Task>)
    requires multiset(a) == multiset(b) && NonNegativeDurations(b)
    ensures NonNegativeDurations(a)
  {
    forall k | 0 <= k < |a|
      ensures a[k].Duration >= 0
    {
      assert a[k] in multiset(b);
      var m :| 0 <= m < |b| && b[m] == a[k];
    }
  }

  /**
   * With no negative durations, a task longer than the weekly hours is
   * never scheduled: the outcome is `Stalled` and the task is stranded.
   */
  lemma ScheduleAssaignmentsStrandsLong(tasks: seq<Task>, devs: seq<Developer>, weeklyWorkHours: int, t: Task)
    requires NonNegativeDurations(tasks) && t in tasks && t.Duration > weeklyWorkHours
    ensures var r := ScheduleAssaignments(tasks, devs, weeklyWorkHours);
      r.Stalled? && t in r.stranded
  {
    var sorted := SortDescBy(tasks, TaskDuration);
    NonNegativePermutation(sorted, tasks);
    assert t in multiset(sorted);
    RunStrandsLong(sorted, devs, weeklyWorkHours, t);
  }

  /** Without developers nothing is scheduled: every task is stranded. */
  lemma ScheduleAssaignmentsNoDevelopers(tasks: seq<Task>, weeklyWorkHours: int)
    ensures var r := ScheduleAssaignments(tasks, [], weeklyWorkHours);
      tasks != [] ==>
        && r.Stalled?
        && r.response.Assignments == []
        && multiset(r.stranded) == multiset(tasks)
  {
    if tasks != [] {
      var sorted := SortDescBy(tasks, TaskDuration);
      assert |sorted| == |multiset(sorted)| == |tasks|;
      var start := WeekState([], sorted, ZeroLoads([]));
      assert DeveloperTurns(start, [], weeklyWorkHours) == start;
      assert Week(sorted, [], weeklyWorkHours).buckets == [];
      assert RunWeeks(sorted, [], weeklyWorkHours) == DurationRun([], sorted);
    }
  }

  /**
   * With positive weekly hours and no negative durations, the schedule
   * completes exactly when there are no tasks, or there is a developer
   * and every task fits an empty week.
   */
  lemma ScheduleAssaignmentsCompletesIff(tasks: seq<Task>, devs: seq<Developer>, weeklyWorkHours: int)
    requires weeklyWorkHours > 0 && NonNegativeDurations(tasks)
    ensures ScheduleAssaignments(tasks, devs, weeklyWorkHours).Completed? <==>
      tasks == [] || (|devs| > 0 && AllFit(tasks, weeklyWorkHours))
  {
    if tasks != [] {
      if |devs| == 0 {
        ScheduleAssaignmentsNoDevelopers(tasks, weeklyWorkHours);
      } else if AllFit(tasks, weeklyWorkHours) {
        ScheduleAssaignmentsCompletes(tasks, devs, weeklyWorkHours);
      } else {
        var k :| 0 <= k < |tasks| && tasks[k].Duration > weeklyWorkHours;
        ScheduleAssaignmentsStrandsLong(tasks, devs, weeklyWorkHours, tasks[k]);
      }
    }
  }
}

=== FILE: payload.dfy ===
/**
 * The records exchanged by the scheduler and the task importers
 * (backend/internal/pkg/payload/payload.go), with the developer's
 * `Capacity` taken from the database table, where the scheduler reads it.
 * Time stamps are left out: nothing here reads them.
 */
module Payload {

  /** A stored task. `Duration` orders tasks, `Difficulty` drives the effective cost. */
  datatype Task = Task(
    ID: nat,
    ExternalID: nat,
    Name: string,
    Duration: int,
    Difficulty: int,
    Provider: string)

  /** A developer; `Capacity` divides a task's difficulty into an effective cost. */
  datatype Developer = Developer(
    ID: nat,
    FirstName: string,
    LastName: string,
    Email: string,
    Capacity: int)

  /** The tasks one developer received in one week (a "bucket"). */
  datatype DeveloperTaskAssignment = DeveloperTaskAssignment(Developer: Developer, Tasks: seq<Task>)

  /** One week of work: the buckets of the developers who received tasks. */
  datatype Assignment = Assignment(DeveloperTasks: seq<DeveloperTaskAssignment>)

  /** The response of the capacity-based scheduler, with the fields that scheduler fills in. */
  datatype ScheduleAssignmentResponse = ScheduleAssignmentResponse(
    Assignments: seq<Assignment>,
    MinWeek: nat,
    TotalWorkDay: int,
    TotalElapsedWorkHour: int)

  /** The response of the older duration-based scheduler. */
  datatype DurationScheduleResponse = DurationScheduleResponse(
    Assignments: seq<Assignment>,
    MinDuration: nat)

  /** The record an importer submits for storage. */
  datatype CreateTaskRequest = CreateTaskRequest(
    ExternalID: nat,
    Name: string,
    Duration: int,
    Difficulty: int,
    Provider: string)

  /**
   * The `validate:` tags of `CreateTaskRequest`: `required` on an unsigned
   * integer rejects zero, `min`/`max` on a string bound its number of
   * characters, and on an integer bound its value.
   */
  predicate ValidCreateTaskRequest(r: CreateTaskRequest) {
    && r.ExternalID != 0
    && 3 <= |r.Name| <= 100
    && 1 <= r.Duration <= 1000
    && 1 <= r.Difficulty <= 10
    && 3 <= |r.Provider| <= 150
  }
}

=== FILE: prompt.dfy ===
/**
 * The console's interactive prompts, in backend/internal/console/input/prompt.go
 * and, as an identical copy, in backend/internal/console/cmd/start.go.
 *
 * Standard input is a sequence of lines, each what one `ReadString('\n')`
 * returns. Once the lines run out every further read returns the empty
 * string (the end-of-file error is ignored), so a prompt that has read
 * all its input behaves as if the user had pressed return.
 */
module Prompt {
  import opened Wrappers
  import opened Text

  const DbPort: string := "DB_PORT"

  /** `IsValidEnvVar`: a port must parse as a decimal integer; any other value must be non-empty. */
  predicate IsValidEnvVar(key: string, value: string) {
    if key == DbPort then Atoi(value).Some? else |value| > 0
  }

  /** No key accepts the empty value; every key but the port accepts every other value. */
  lemma IsValidEnvVarNonEmpty(key: string, value: string)
    ensures IsValidEnvVar(key, value) ==> |value| > 0
    ensures key != DbPort ==> (IsValidEnvVar(key, value) <==> value != [])
  {
  }

  /**
   * The port rule accepts exactly the decimal renderings of 64-bit
   * integers, signed or not, so a negative port and port zero pass.
   */
  lemma IsValidPort(n: nat)
    requires n <= MaxInt64
    ensures IsValidEnvVar(DbPort, NatToString(n))
    ensures IsValidEnvVar(DbPort, "-" + NatToString(n))
    ensures IsValidEnvVar(DbPort, "+" + NatToString(n))
  {
    AtoiOfNatToString(n);
    AtoiOfNegative(n);
    DigitsValueOfNatToString(n);
    assert ("+" + NatToString(n))[1..] == NatToString(n);
  }

  /** A port with any character that is not a digit, past a leading sign, is refused. */
  lemma InvalidPort(value: string, k: nat)
    requires 0 < k < |value| && !IsDigit(value[k])
    ensures !IsValidEnvVar(DbPort, value)
  {
    AtoiRejectsNonDigit(value, k);
  }

  // ---------------------------------------------------------------------
  // PromptForEnv
  // ---------------------------------------------------------------------

  /** What `PromptForEnv` does with one line of input. */
  datatype EnvAnswer = UseDefault | UseValue(value: string) | AskAgain

  function EnvAnswerOf(key: string, line: string): (a: EnvAnswer)
    ensures a.UseDefault? <==> TrimSpace(line) == []
    ensures a.UseValue? ==> a.value == TrimSpace(line) && a.value != []
    ensures a.AskAgain? <==> TrimSpace(line) != [] && !IsValidEnvVar(key, TrimSpace(line))
  {
    var input := TrimSpace(line);
    if input == [] then UseDefault
    else if IsValidEnvVar(key, input) then UseValue(input)
    else AskAgain
  }

  /**
   * `PromptForEnv`: the default for an empty (trimmed) answer, which is
   * not itself validated; a valid answer as typed, trimmed; otherwise ask
   * again.
   */
  function PromptForEnv(key: string, defaultValue: string, lines: seq<string>): (r: string)
    ensures r == defaultValue || (IsValidEnvVar(key, r) && r != [] && TrimSpace(r) == r)
    decreases |lines|
  {
    if lines == [] then defaultValue
    else
      match EnvAnswerOf(key, lines[0])
      case UseDefault => defaultValue
      case UseValue(v) =>
        TrimSpaceIdempotent(lines[0]);
        v
      case AskAgain => PromptForEnv(key, defaultValue, lines[1..])
  }

  /**
   * The answer `PromptForEnv` settles on is that of the first line that
   * is empty or valid, and the default if every line is refused.
   */
  lemma {:induction false} PromptForEnvFirstAnswer(key: string, defaultValue: string, lines: seq<string>, i: nat)
    requires i <= |lines|
    requires forall k | 0 <= k < i :: EnvAnswerOf(key, lines[k]).AskAgain?
    requires i < |lines| ==> !EnvAnswerOf(key, lines[i]).AskAgain?
    ensures PromptForEnv(key, defaultValue, lines) ==
      if i == |lines| || EnvAnswerOf(key, lines[i]).UseDefault? then defaultValue else TrimSpace(lines[i])
    decreases i
  {
    if i > 0 {
      var rest := lines[1..];
      assert EnvAnswerOf(key, lines[0]).AskAgain?;
      assert PromptForEnv(key, defaultValue, lines) == PromptForEnv(key, defaultValue, rest);
      forall k | 0 <= k < i - 1
        ensures EnvAnswerOf(key, rest[k]).AskAgain?
      {
        assert rest[k] == lines[k + 1];
      }
      assert i - 1 < |rest| ==> rest[i - 1] == lines[i];
      PromptForEnvFirstAnswer(key, defaultValue, rest, i - 1);
    }
  }

  /** The default is returned without validation, whatever it is. */
  lemma PromptForEnvDefaultUnchecked(key: string, defaultValue: string, line: string)
    requires AllSpace(line)
    ensures PromptForEnv(key, defaultValue, [line]) == defaultValue
  {
    TrimSpaceAllSpace(line);
    assert EnvAnswerOf(key, line) == UseDefault;
  }

  // ---------------------------------------------------------------------
  // PromptYesNo
  // ---------------------------------------------------------------------

  /** What `PromptYesNo` does with one line of input. */
  datatype YesNo = Yes | No | Unrecognised

  /** The meaning of a trimmed, lower-cased answer. */
  function Answer(input: string): YesNo {
    if input == "yes" || input == "y" || input == "" then Yes
    else if input == "no" || input == "n" then No
    else Unrecognised
  }

  function YesNoOf(line: string): YesNo {
    Answer(ToLower(TrimSpace(line)))
  }

  /** `PromptYesNo`: the answer of the first recognised line; the end of input reads as an empty answer, which is yes. */
  function PromptYesNo(lines: seq<string>): (r: bool)
    ensures lines == [] ==> r
    ensures lines != [] && YesNoOf(lines[0]) != Unrecognised ==> (r <==> YesNoOf(lines[0]) == Yes)
    decreases |lines|
  {
    if lines == [] then true
    else
      match YesNoOf(lines[0])
      case Yes => true
      case No => false
      case Unrecognised => PromptYesNo(lines[1..])
  }

  lemma AnswerMeansYes(t: string)
    ensures Answer(ToLower(t)) == Yes <==> t == [] || SpelledAs(t, "yes") || SpelledAs(t, "y")
  {
    SpelledAsLower(t, "yes");
    SpelledAsLower(t, "y");
  }

  lemma AnswerMeansNo(t: string)
    ensures Answer(ToLower(t)) == No <==> SpelledAs(t, "no") || SpelledAs(t, "n")
  {
    SpelledAsLower(t, "yes");
    SpelledAsLower(t, "y");
    SpelledAsLower(t, "no");
    SpelledAsLower(t, "n");
  }

  /**
   * The answer is case-insensitive: a line means yes exactly when, trimmed,
   * it is empty or spells "yes" or "y" in any case, and no exactly when it
   * spells "no" or "n".
   */
  lemma YesNoCaseInsensitive(line: string)
    ensures var t := TrimSpace(line);
      && (YesNoOf(line) == Yes <==> t == [] || SpelledAs(t, "yes") || SpelledAs(t, "y"))
      && (YesNoOf(line) == No <==> SpelledAs(t, "no") || SpelledAs(t, "n"))
  {
    var t := TrimSpace(line);
    AnswerMeansYes(t);
    AnswerMeansNo(t);
  }

  /** `PromptYesNo` settles on the first recognised line, and says yes if there is none. */
  lemma {:induction false} PromptYesNoFirstAnswer(lines: seq<string>, i: nat)
    requires i <= |lines|
    requires forall k | 0 <= k < i :: YesNoOf(lines[k]) == Unrecognised
    requires i < |lines| ==> YesNoOf(lines[i]) != Unrecognised
    ensures PromptYesNo(lines) == (i == |lines| || YesNoOf(lines[i]) == Yes)
    decreases i
  {
    if i > 0 {
      var rest := lines[1..];
      assert YesNoOf(lines[0]) == Unrecognised;
      assert PromptYesNo(lines) == PromptYesNo(rest);
      forall k | 0 <= k < i - 1
        ensures YesNoOf(rest[k]) == Unrecognised
      {
        assert rest[k] == lines[k + 1];
      }
      assert i - 1 < |rest| ==> rest[i - 1] == lines[i];
      PromptYesNoFirstAnswer(rest, i - 1);
    }
  }
}

=== FILE: provider.dfy ===
/**
 * The task importers' record normaliser, `mapToTask`, and the loop that
 * submits every record it can map. The same function appears three times
 * in the source: in backend/internal/console/provider/fetch.go and
 * backend/internal/console/cmd/start.go it tags a task with the URL it was
 * fetched from; in backend/cmd/cli/main.go it tags it "provider1" or
 * "provider2" by format. One parameterised definition covers all three.
 *
 * A record is a decoded JSON object. Go's decoder gives every JSON number
 * as a float64; numbers here are integral, and the conversions `uint(x)`
 * and `int(x)` are the identity, except that `uint` of a number outside
 * the unsigned 64-bit range wraps around.
 */
module Provider {
  import opened Wrappers
  import opened Payload
  import opened Text

  /** A decoded JSON value. */
  datatype JsonValue =
    | JNumber(n: int)
    | JString(s: string)
    | JBool(b: bool)
    | JNull
    | JArray(items: seq<JsonValue>)
    | JObject(fields: map<string, JsonValue>)

  /** One task record as the provider sent it. */
  type RawTask = map<string, JsonValue>

  const Provider1Error: string := "type assertion failed for provider1 fields"
  const Provider2Error: string := "type assertion failed for provider2 fields"
  const UnknownFormatError: string := "unknown provider format"

  const TwoTo64: nat := 0x1_0000_0000_0000_0000

  /** `raw[key].(float64)`: the number under `key`, or `None` when the key is missing or holds anything else. */
  function NumberField(raw: RawTask, key: string): (r: Option<int>)
    ensures r.Some? <==> key in raw && raw[key].JNumber?
    ensures r.Some? ==> r.value == raw[key].n
  {
    if key in raw && raw[key].JNumber? then Some(raw[key].n) else None
  }

  /** Go's `uint(x)` on a 64-bit platform, wrapping a number outside the unsigned range. */
  function Uint(x: int): (u: nat)
    ensures u < TwoTo64
    ensures 0 <= x < TwoTo64 ==> u == x
  {
    x % TwoTo64
  }

  /** `fmt.Sprintf("Task %v", id)`. */
  function TaskName(id: nat): string {
    "Task " + NatToString(id)
  }

  /** The request built from a record whose three fields are numbers. */
  function Request(id: int, duration: int, difficulty: int, provider: string): CreateTaskRequest {
    CreateTaskRequest(Uint(id), TaskName(Uint(id)), duration, difficulty, provider)
  }

  /**
   * `mapToTask`, tagging provider-one records with `tag1` and provider-two
   * records with `tag2`. A record with a "zorluk" key is provider-one and
   * needs numbers under "id", "sure" and "zorluk"; failing that it is an
   * error, even when a "value" key would have matched provider-two. A
   * record with a "value" key is provider-two and needs numbers under
   * "id", "estimated_duration" and "value". Any other record is an error.
   */
  function MapToTaskWith(raw: RawTask, tag1: string, tag2: string): (r: Result<CreateTaskRequest, string>)
    ensures r.Ok? ==> r.value.Name == TaskName(r.value.ExternalID)
    ensures r.Err? ==> r.error in {Provider1Error, Provider2Error, UnknownFormatError}
  {
    if "zorluk" in raw then
      var id, sure, zorluk := NumberField(raw, "id"), NumberField(raw, "sure"), NumberField(raw, "zorluk");
      if id.None? || sure.None? || zorluk.None? then Err(Provider1Error)
      else Ok(Request(id.value, sure.value, zorluk.value, tag1))
    else if "value" in raw then
      var id, estimated, value := NumberField(raw, "id"), NumberField(raw, "estimated_duration"), NumberField(raw, "value");
      if id.None? || estimated.None? || value.None? then Err(Provider2Error)
      else Ok(Request(id.value, estimated.value, value.value, tag2))
    else Err(UnknownFormatError)
  }

  /** `mapToTask` of fetch.go and start.go: both formats are tagged with the URL. */
  function MapToTask(raw: RawTask, provider: string): Result<CreateTaskRequest, string> {
    MapToTaskWith(raw, provider, provider)
  }

  /** `mapToTask` of the command-line importer: the tag names the format. */
  function MapToTaskFixedTags(raw: RawTask): Result<CreateTaskRequest, string> {
    MapToTaskWith(raw, "provider1", "provider2")
  }

  /** A number field under `key`. */
  predicate HasNumber(raw: RawTask, key: string) {
    key in raw && raw[key].JNumber?
  }

  /**
   * The provider-one format: with "zorluk" present the record maps exactly
   * when "id", "sure" and "zorluk" are numbers, to the duration under
   * "sure" and the difficulty under "zorluk", tagged `tag1`.
   */
  lemma MapToTaskProviderOne(raw: RawTask, tag1: string, tag2: string)
    requires "zorluk" in raw
    ensures var r := MapToTaskWith(raw, tag1, tag2);
      && (r.Ok? <==> HasNumber(raw, "id") && HasNumber(raw, "sure") && HasNumber(raw, "zorluk"))
      && (r.Ok? ==> && r.value.ExternalID == Uint(raw["id"].n)
                    && r.value.Duration == raw["sure"].n
                    && r.value.Difficulty == raw["zorluk"].n
                    && r.value.Provider == tag1)
      && (r.Err? ==> r.error == Provider1Error)
  {
  }

  /**
   * The provider-two format: without "zorluk" and with "value", the record
   * maps exactly when "id", "estimated_duration" and "value" are numbers,
   * to the duration under "estimated_duration" and the difficulty under
   * "value", tagged `tag2`.
   */
  lemma MapToTaskProviderTwo(raw: RawTask, tag1: string, tag2: string)
    requires "zorluk" !in raw && "value" in raw
    ensures var r := MapToTaskWith(raw, tag1, tag2);
      && (r.Ok? <==> HasNumber(raw, "id") && HasNumber(raw, "estimated_duration") && HasNumber(raw, "value"))
      && (r.Ok? ==> && r.value.ExternalID == Uint(raw["id"].n)
                    && r.value.Duration == raw["estimated_duration"].n
                    && r.value.Difficulty == raw["value"].n
                    && r.value.Provider == tag2)
      && (r.Err? ==> r.error == Provider2Error)
  {
  }

  /** A record with neither key is rejected as an unknown format, and only such a record is. */
  lemma MapToTaskUnknown(raw: RawTask, tag1: string, tag2: string)
    ensures MapToTaskWith(raw, tag1, tag2) == Err(UnknownFormatError) <==> "zorluk" !in raw && "value" !in raw
  {
  }

  /**
   * The generated name carries the ID: it is "Task " followed by the ID in
   * decimal, which parses back to the ID.
   */
  lemma TaskNameRoundTrip(id: nat)
    requires id <= MaxInt64
    ensures TaskName(id)[..5] == "Task " && Atoi(TaskName(id)[5..]) == Some(id)
  {
    assert TaskName(id)[5..] == NatToString(id);
    AtoiOfNatToString(id);
  }

  /**
   * A mapped request always has a valid name; it passes validation
   * exactly when its ID is non-zero and its duration, difficulty and
   * provider tag are within the bounds.
   */
  lemma MapToTaskValidity(raw: RawTask, tag1: string, tag2: string)
    requires MapToTaskWith(raw, tag1, tag2).Ok?
    ensures var t := MapToTaskWith(raw, tag1, tag2).value;
      && 6 <= |t.Name| <= 25
      && (ValidCreateTaskRequest(t) <==>
            t.ExternalID != 0 && 1 <= t.Duration <= 1000 && 1 <= t.Difficulty <= 10 && 3 <= |t.Provider| <= 150)
  {
    var t := MapToTaskWith(raw, tag1, tag2).value;
    assert Pow10(5) == 100_000;
    Pow10Add(5, 5);
    Pow10Add(10, 10);
    NatToStringLength(t.ExternalID, 20);
  }

  /** The command-line importer's tags always pass validation. */
  lemma MapToTaskFixedTagsProvider(raw: RawTask)
    requires MapToTaskFixedTags(raw).Ok?
    ensures 3 <= |MapToTaskFixedTags(raw).value.Provider| <= 150
  {
  }

  // ---------------------------------------------------------------------
  // Submitting the records
  // ---------------------------------------------------------------------

  /** The requests of the records that map, in record order. */
  function Mapped(raws: seq<RawTask>, tag1: string, tag2: string): seq<CreateTaskRequest>
    decreases |raws|
  {
    if raws == [] then []
    else
      var front := Mapped(raws[..|raws| - 1], tag1, tag2);
      match MapToTaskWith(raws[|raws| - 1], tag1, tag2)
      case Ok(t) => front + [t]
      case Err(_) => front
  }

  /** The error of each record that fails to map, in record order. */
  function Errors(raws: seq<RawTask>, tag1: string, tag2: string): seq<string>
    decreases |raws|
  {
    if raws == [] then []
    else
      var front := Errors(raws[..|raws| - 1], tag1, tag2);
      match MapToTaskWith(raws[|raws| - 1], tag1, tag2)
      case Ok(_) => front
      case Err(e) => front + [e]
  }

  /**
   * The loop of `FetchAndProcessTasks` over the decoded records: a record
   * that fails to map has its own error logged and is skipped, every
   * other one is submitted, in record order.
   */
  method ProcessTasks(raws: seq<RawTask>, tag1: string, tag2: string) returns (submitted: seq<CreateTaskRequest>, logged: seq<string>)
    ensures submitted == Mapped(raws, tag1, tag2)
    ensures logged == Errors(raws, tag1, tag2)
    ensures |submitted| + |logged| == |raws|
    ensures forall k | 0 <= k < |logged| :: logged[k] in {Provider1Error, Provider2Error, UnknownFormatError}
  {
    submitted, logged := [], [];
    for i := 0 to |raws|
      invariant submitted == Mapped(raws[..i], tag1, tag2)
      invariant logged == Errors(raws[..i], tag1, tag2)
      invariant |submitted| + |logged| == i
      invariant forall k | 0 <= k < |logged| :: logged[k] in {Provider1Error, Provider2Error, UnknownFormatError}
    {
      assert raws[..i + 1][..i] == raws[..i];
      match MapToTaskWith(raws[i], tag1, tag2)
      case Ok(t) =>
        submitted := submitted + [t];
      case Err(e) =>
        logged := logged + [e];
    }
    assert raws[..|raws|] == raws;
  }

  /** `e` is the error some record fails with. */
  predicate FailedWith(raws: seq<RawTask>, tag1: string, tag2: string, e: string) {
    exists j | 0 <= j < |raws| :: MapToTaskWith(raws[j], tag1, tag2) == Err(e)
  }

  /**
   * Every logged error is the error of some record, and every record is
   * either submitted or logged.
   */
  lemma {:induction false} ErrorsSound(raws: seq<RawTask>, tag1: string, tag2: string)
    ensures forall k | 0 <= k < |Errors(raws, tag1, tag2)| :: FailedWith(raws, tag1, tag2, Errors(raws, tag1, tag2)[k])
    ensures |Mapped(raws, tag1, tag2)| + |Errors(raws, tag1, tag2)| == |raws|
    decreases |raws|
  {
    if raws != [] {
      var n := |raws|;
      var front := raws[..n - 1];
      ErrorsSound(front, tag1, tag2);
      var es := Errors(raws, tag1, tag2);
      var ef := Errors(front, tag1, tag2);
      forall k | 0 <= k < |es|
        ensures FailedWith(raws, tag1, tag2, es[k])
      {
        if k < |ef| {
          assert es[k] == ef[k];
          assert FailedWith(front, tag1, tag2, ef[k]);
          var j :| 0 <= j < |front| && MapToTaskWith(front[j], tag1, tag2) == Err(ef[k]);
          assert front[j] == raws[j];
        } else {
          assert es == ef + [es[k]];
          assert MapToTaskWith(raws[n - 1], tag1, tag2) == Err(es[k]);
        }
      }
    }
  }

  /** `t` is what some record maps to. */
  predicate MappedFrom(raws: seq<RawTask>, tag1: string, tag2: string, t: CreateTaskRequest) {
    exists j | 0 <= j < |raws| :: MapToTaskWith(raws[j], tag1, tag2) == Ok(t)
  }

  /** Every submitted request is the mapping of some record, and records that all map are all submitted. */
  lemma {:induction false} MappedSound(raws: seq<RawTask>, tag1: string, tag2: string)
    ensures forall k | 0 <= k < |Mapped(raws, tag1, tag2)| :: MappedFrom(raws, tag1, tag2, Mapped(raws, tag1, tag2)[k])
    ensures (forall j | 0 <= j < |raws| :: MapToTaskWith(raws[j], tag1, tag2).Ok?) ==>
      |Mapped(raws, tag1, tag2)| == |raws|
    decreases |raws|
  {
    if raws != [] {
      var n := |raws|;
      var front := raws[..n - 1];
      MappedSound(front, tag1, tag2);
      var m := Mapped(raws, tag1, tag2);
      var mf := Mapped(front, tag1, tag2);
      forall k | 0 <= k < |m|
        ensures MappedFrom(raws, tag1, tag2, m[k])
      {
        if k < |mf| {
          assert m[k] == mf[k];
          assert MappedFrom(front, tag1, tag2, mf[k]);
          var j :| 0 <= j < |front| && MapToTaskWith(front[j], tag1, tag2) == Ok(mf[k]);
          assert front[j] == raws[j];
        } else {
          assert m == mf + [m[k]];
          assert MapToTaskWith(raws[n - 1], tag1, tag2) == Ok(m[k]);
        }
      }
      if forall j | 0 <= j < n :: MapToTaskWith(raws[j], tag1, tag2).Ok? {
        assert forall j | 0 <= j < |front| :: front[j] == raws[j];
      }
    }
  }
}

=== FILE: schedule.dfy ===
/**
 * The capacity-based weekly scheduler (backend/internal/task/service/schedule.go).
 *
 * Tasks are sorted once by descending duration. Each week starts with every
 * developer's workload at zero; each pending task goes to the first
 * developer, in list order, whose workload plus the task's effective cost
 * (difficulty divided by the developer's capacity) stays within the weekly
 * hours; a task that fits nobody waits for the next week. After each week
 * the developers' buckets are reordered by task count. The source repeats
 * weeks until no task is pending, which never ends when a task fits nobody;
 * this model stops at the first week that places nothing and reports the
 * tasks left over.
 */
module Schedule {
  import opened Wrappers
  import opened Payload
  import opened Sequences

  type Bucket = DeveloperTaskAssignment

  /** Per-developer hours used this week, keyed by developer ID. */
  type Workloads = map<nat, real>

  // ---------------------------------------------------------------------
  // Developers and effective cost
  // ---------------------------------------------------------------------

  predicate PositiveCapacities(devs: seq<Developer>) {
    forall i | 0 <= i < |devs| :: devs[i].Capacity > 0
  }

  /** Developer IDs are primary keys in storage, hence pairwise distinct. */
  predicate UniqueIds(devs: seq<Developer>) {
    forall i, j | 0 <= i < j < |devs| :: devs[i].ID != devs[j].ID
  }

  /** The hours a task costs a developer: difficulty divided by capacity. */
  function EffectiveCost(t: Task, d: Developer): real
    requires d.Capacity > 0
  {
    t.Difficulty as real / d.Capacity as real
  }

  /** A Go map lookup: an absent key reads as zero. */
  function Load(w: Workloads, id: nat): real {
    if id in w then w[id] else 0.0
  }

  function DeveloperIds(devs: seq<Developer>): set<nat> {
    set d | d in devs :: d.ID
  }

  /** The workloads at the start of a week: zero for every developer. */
  function InitialWorkloads(devs: seq<Developer>): (w: Workloads)
    ensures forall id :: Load(w, id) == 0.0
  {
    map id | id in DeveloperIds(devs) :: 0.0
  }

  /** Developer `d` can still take task `t` this week; a task that exactly fills the week fits. */
  predicate Fits(w: Workloads, t: Task, d: Developer, weeklyWorkHours: int)
    requires d.Capacity > 0
  {
    Load(w, d.ID) + EffectiveCost(t, d) <= weeklyWorkHours as real
  }

  function FirstFitFrom(t: Task, devs: seq<Developer>, w: Workloads, weeklyWorkHours: int, k: nat): (r: Option<nat>)
    requires PositiveCapacities(devs) && k <= |devs|
    ensures r.Some? ==> k <= r.value < |devs| && Fits(w, t, devs[r.value], weeklyWorkHours)
    ensures forall j | k <= j < (if r.Some? then r.value else |devs|) :: !Fits(w, t, devs[j], weeklyWorkHours)
    decreases |devs| - k
  {
    if k == |devs| then None
    else if Fits(w, t, devs[k], weeklyWorkHours) then Some(k)
    else FirstFitFrom(t, devs, w, weeklyWorkHours, k + 1)
  }

  /**
   * The index of the first developer, in list order, who can take `t`;
   * every developer before it lacks room, and `None` means nobody has room.
   */
  function FirstFit(t: Task, devs: seq<Developer>, w: Workloads, weeklyWorkHours: int): (r: Option<nat>)
    requires PositiveCapacities(devs)
    ensures r.Some? ==> r.value < |devs| && Fits(w, t, devs[r.value], weeklyWorkHours)
    ensures r.Some? ==> forall j | 0 <= j < r.value :: !Fits(w, t, devs[j], weeklyWorkHours)
    ensures r.None? <==> forall j | 0 <= j < |devs| :: !Fits(w, t, devs[j], weeklyWorkHours)
  {
    FirstFitFrom(t, devs, w, weeklyWorkHours, 0)
  }

  // ---------------------------------------------------------------------
  // Buckets
  // ---------------------------------------------------------------------

  function TaskCount(b: Bucket): int {
    |b.Tasks|
  }

  predicate NoEmptyBucket(b: seq<Bucket>) {
    forall k | 0 <= k < |b| :: |b[k].Tasks| > 0
  }

  predicate UniqueBucketIds(b: seq<Bucket>) {
    forall i, j | 0 <= i < j < |b| :: b[i].Developer.ID != b[j].Developer.ID
  }

  /** Every bucket belongs to one of `devs`. */
  predicate StaffedFrom(b: seq<Bucket>, devs: seq<Developer>) {
    forall k | 0 <= k < |b| :: b[k].Developer in devs
  }

  predicate Staffed(b: seq<Bucket>) {
    forall k | 0 <= k < |b| :: b[k].Developer.Capacity > 0
  }

  /** The first bucket of developer `id`, if any. */
  function FindBucket(b: seq<Bucket>, id: nat): (r: Option<nat>)
    ensures r.Some? ==> r.value < |b| && b[r.value].Developer.ID == id
    ensures r.Some? ==> forall k | 0 <= k < r.value :: b[k].Developer.ID != id
    ensures r.None? ==> forall k | 0 <= k < |b| :: b[k].Developer.ID != id
    decreases |b|
  {
    if b == [] then None
    else if b[0].Developer.ID == id then Some(0)
    else match FindBucket(b[1..], id)
      case None => None
      case Some(i) => Some(i + 1)
  }

  /**
   * Adds `task` to the bucket of `dev`'s ID, or opens a new bucket holding
   * only `task` at the end; the buckets together gain exactly `task`.
   */
  function AssignTaskToDeveloper(dev: Developer, task: Task, b: seq<Bucket>): (r: seq<Bucket>)
    ensures |r| > 0 && |b| <= |r| <= |b| + 1
    ensures BucketTasks(r) == BucketTasks(b) + multiset{task}
  {
    match FindBucket(b, dev.ID)
    case Some(i) =>
      var x := b[i].(Tasks := b[i].Tasks + [task]);
      BucketsUpdateTasks(b, i, x);
      assert multiset(x.Tasks) == multiset(b[i].Tasks) + multiset{task};
      MultisetCancel(BucketTasks(b[i := x]), BucketTasks(b) + multiset{task}, multiset(b[i].Tasks));
      b[i := x]
    case None =>
      var r := b + [DeveloperTaskAssignment(dev, [task])];
      assert r[..|b|] == b;
      assert multiset(r[|b|].Tasks) == multiset{task};
      r
  }

  /**
   * Where `AssignTaskToDeveloper` puts the task: into the first bucket with
   * the developer's ID, leaving every other bucket as it was, or into a new
   * last bucket when the developer has none. It never empties a bucket and
   * never gives an ID a second bucket.
   */
  lemma AssignTaskToDeveloperPlacement(dev: Developer, task: Task, b: seq<Bucket>)
    ensures (forall k | 0 <= k < |b| :: b[k].Developer.ID != dev.ID) ==>
      AssignTaskToDeveloper(dev, task, b) == b + [DeveloperTaskAssignment(dev, [task])]
    ensures forall i | 0 <= i < |b| && b[i].Developer.ID == dev.ID
                       && (forall k | 0 <= k < i :: b[k].Developer.ID != dev.ID) ::
      AssignTaskToDeveloper(dev, task, b) == b[i := b[i].(Tasks := b[i].Tasks + [task])]
    ensures NoEmptyBucket(b) ==> NoEmptyBucket(AssignTaskToDeveloper(dev, task, b))
    ensures UniqueBucketIds(b) ==> UniqueBucketIds(AssignTaskToDeveloper(dev, task, b))
  {
  }

  // ---------------------------------------------------------------------
  // Sums over buckets
  // ---------------------------------------------------------------------

  /** The tasks held by all buckets together. */
  function BucketTasks(b: seq<Bucket>): multiset<Task>
    decreases |b|
  {
    if b == [] then multiset{} else BucketTasks(b[..|b| - 1]) + multiset(b[|b| - 1].Tasks)
  }

  /** The effective cost of `ts` for developer `d`. */
  function CostSum(ts: seq<Task>, d: Developer): real
    requires d.Capacity > 0
    decreases |ts|
  {
    if ts == [] then 0.0 else CostSum(ts[..|ts| - 1], d) + EffectiveCost(ts[|ts| - 1], d)
  }

  function BucketCost(x: Bucket): real
    requires x.Developer.Capacity > 0
  {
    CostSum(x.Tasks, x.Developer)
  }

  /** The effective cost of all buckets together. */
  function BucketsCost(b: seq<Bucket>): real
    requires Staffed(b)
    decreases |b|
  {
    if b == [] then 0.0 else BucketsCost(b[..|b| - 1]) + BucketCost(b[|b| - 1])
  }

  lemma CostSumAppend(ts: seq<Task>, t: Task, d: Developer)
    requires d.Capacity > 0
    ensures CostSum(ts + [t], d) == CostSum(ts, d) + EffectiveCost(t, d)
  {
    assert (ts + [t])[..|ts|] == ts;
  }

  /** Replacing one bucket changes the tasks held by the difference between the old and the new bucket. */
  lemma {:induction false} BucketsUpdateTasks(b: seq<Bucket>, i: nat, x: Bucket)
    requires i < |b|
    ensures BucketTasks(b[i := x]) + multiset(b[i].Tasks) == BucketTasks(b) + multiset(x.Tasks)
    decreases |b|
  {
    var n := |b|;
    var c := b[i := x];
    if i == n - 1 {
      assert c[..n - 1] == b[..n - 1];
    } else {
      assert c[..n - 1] == b[..n - 1][i := x];
      assert c[n - 1] == b[n - 1];
      BucketsUpdateTasks(b[..n - 1], i, x);
      var last := multiset(b[n - 1].Tasks);
      calc {
        BucketTasks(c) + multiset(b[i].Tasks);
        BucketTasks(b[..n - 1][i := x]) + last + multiset(b[i].Tasks);
        BucketTasks(b[..n - 1]) + multiset(x.Tasks) + last;
        BucketTasks(b) + multiset(x.Tasks);
      }
    }
  }

  /** Replacing one bucket changes the cost by the difference between the old and the new bucket. */
  lemma {:induction false} BucketsUpdateCost(b: seq<Bucket>, i: nat, x: Bucket)
    requires i < |b| && Staffed(b) && x.Developer.Capacity > 0
    ensures Staffed(b[i := x])
    ensures BucketsCost(b[i := x]) == BucketsCost(b) - BucketCost(b[i]) + BucketCost(x)
    decreases |b|
  {
    var n := |b|;
    var c := b[i := x];
    if i == n - 1 {
      assert c[..n - 1] == b[..n - 1];
    } else {
      assert c[..n - 1] == b[..n - 1][i := x];
      assert c[n - 1] == b[n - 1];
      BucketsUpdateCost(b[..n - 1], i, x);
    }
  }

  lemma {:induction false} BucketsConcat(u: seq<Bucket>, v: seq<Bucket>)
    ensures BucketTasks(u + v) == BucketTasks(u) + BucketTasks(v)
    decreases |v|
  {
    if v != [] {
      assert (u + v)[..|u + v| - 1] == u + v[..|v| - 1];
      BucketsConcat(u, v[..|v| - 1]);
    } else {
      assert u + v == u;
    }
  }

  lemma {:induction false} BucketsConcatCost(u: seq<Bucket>, v: seq<Bucket>)
    requires Staffed(u) && Staffed(v)
    ensures Staffed(u + v) && BucketsCost(u + v) == BucketsCost(u) + BucketsCost(v)
    decreases |v|
  {
    if v != [] {
      assert (u + v)[..|u + v| - 1] == u + v[..|v| - 1];
      BucketsConcatCost(u, v[..|v| - 1]);
    } else {
      assert u + v == u;
    }
  }

  /** The tasks of `b` split around the bucket at `i`. */
  lemma BucketsSplitTasks(b: seq<Bucket>, i: nat)
    requires i < |b|
    ensures BucketTasks(b) == (BucketTasks(b[..i]) + multiset(b[i].Tasks)) + BucketTasks(b[i + 1..])
  {
    var w := b[..i + 1];
    assert w[..|w| - 1] == b[..i];
    assert b == w + b[i + 1..];
    BucketsConcat(w, b[i + 1..]);
  }

  /** The cost of `b` splits around the bucket at `i`. */
  lemma BucketsSplitCost(b: seq<Bucket>, i: nat)
    requires i < |b| && Staffed(b)
    ensures BucketsCost(b) == (BucketsCost(b[..i]) + BucketCost(b[i])) + BucketsCost(b[i + 1..])
  {
    var w := b[..i + 1];
    assert w[..|w| - 1] == b[..i];
    assert b == w + b[i + 1..];
    BucketsConcatCost(w, b[i + 1..]);
  }

  /** Removing the bucket at `i` removes that bucket's tasks from the sum. */
  lemma BucketsRemoveTasks(b: seq<Bucket>, i: nat)
    requires i < |b|
    ensures BucketTasks(b) == BucketTasks(b[..i] + b[i + 1..]) + multiset(b[i].Tasks)
  {
    var u, v := b[..i], b[i + 1..];
    BucketsSplitTasks(b, i);
    BucketsConcat(u, v);
    var m := multiset(b[i].Tasks);
    assert forall y :: ((BucketTasks(u) + m) + BucketTasks(v))[y] == ((BucketTasks(u) + BucketTasks(v)) + m)[y];
  }

  /** Removing the bucket at `i` removes that bucket's cost from the sum. */
  lemma BucketsRemoveCost(b: seq<Bucket>, i: nat)
    requires i < |b| && Staffed(b)
    ensures BucketsCost(b) == BucketsCost(b[..i] + b[i + 1..]) + BucketCost(b[i])
  {
    BucketsSplitCost(b, i);
    BucketsConcatCost(b[..i], b[i + 1..]);
  }

  /** A reordering of `a` with `x` taken out of one position. */
  lemma PermutationRemove(a: seq<Bucket>, b: seq<Bucket>) returns (i: nat)
    requires |a| > 0 && multiset(a) == multiset(b)
    ensures i < |b| && b[i] == a[|a| - 1]
    ensures multiset(a[..|a| - 1]) == multiset(b[..i] + b[i + 1..])
  {
    var n := |a|;
    var x := a[n - 1];
    assert a == a[..n - 1] + [x];
    assert x in multiset(b);
    i :| 0 <= i < |b| && b[i] == x;
    var rest := b[..i] + b[i + 1..];
    assert b == b[..i] + [x] + b[i + 1..];
    calc {
      multiset(a[..n - 1]) + multiset{x};
      multiset(a);
      multiset(b);
      multiset(b[..i]) + multiset([x]) + multiset(b[i + 1..]);
      multiset(rest) + multiset{x};
    }
    MultisetCancel(multiset(a[..n - 1]), multiset(rest), multiset{x});
  }

  lemma StaffedPermutation(a: seq<Bucket>, b: seq<Bucket>)
    requires multiset(a) == multiset(b) && Staffed(a)
    ensures Staffed(b)
  {
    assert forall k | 0 <= k < |b| :: b[k] in multiset(a);
  }

  /** Reordering the buckets does not change the tasks they hold. */
  lemma {:induction false} BucketsPermutationTasks(a: seq<Bucket>, b: seq<Bucket>)
    requires multiset(a) == multiset(b)
    ensures BucketTasks(a) == BucketTasks(b)
    decreases |a|
  {
    if a == [] {
      assert |b| == |multiset(b)| == 0;
    } else {
      var i := PermutationRemove(a, b);
      BucketsPermutationTasks(a[..|a| - 1], b[..i] + b[i + 1..]);
      BucketsRemoveTasks(b, i);
      assert a == a[..|a| - 1] + [a[|a| - 1]];
    }
  }

  /** Reordering the buckets does not change their cost. */
  lemma {:induction false} BucketsPermutationCost(a: seq<Bucket>, b: seq<Bucket>)
    requires multiset(a) == multiset(b) && Staffed(a)
    ensures Staffed(b) && BucketsCost(a) == BucketsCost(b)
    decreases |a|
  {
    StaffedPermutation(a, b);
    if a == [] {
      assert |b| == |multiset(b)| == 0;
    } else {
      var i := PermutationRemove(a, b);
      BucketsPermutationCost(a[..|a| - 1], b[..i] + b[i + 1..]);
      BucketsRemoveCost(b, i);
    }
  }

  /** Two partition steps compose: `y` gains `t`, then `rest`. */
  lemma MultisetChain<T>(x: multiset<T>, y: multiset<T>, before: multiset<T>, t: multiset<T>, rest: multiset<T>, all: multiset<T>)
    requires x == y + rest && y == before + t && all == t + rest
    ensures x == before + all
  {
    assert forall e :: x[e] == (before + all)[e];
  }

  lemma MultisetCancel<T>(a: multiset<T>, b: multiset<T>, c: multiset<T>)
    requires a + c == b + c
    ensures a == b
  {
    assert forall y :: a[y] == (a + c)[y] - c[y] && b[y] == (b + c)[y] - c[y];
  }

  /** Non-empty buckets hold at least one task per bucket. */
  lemma {:induction false} BucketTasksCount(b: seq<Bucket>)
    requires NoEmptyBucket(b)
    ensures |BucketTasks(b)| >= |b|
    decreases |b|
  {
    if b != [] {
      BucketTasksCount(b[..|b| - 1]);
    }
  }

  lemma StaffedFromPositive(b: seq<Bucket>, devs: seq<Developer>)
    requires StaffedFrom(b, devs) && PositiveCapacities(devs)
    ensures Staffed(b)
  {
    forall k | 0 <= k < |b|
      ensures b[k].Developer.Capacity > 0
    {
      var m :| 0 <= m < |devs| && devs[m] == b[k].Developer;
    }
  }

  // ---------------------------------------------------------------------
  // One week: first-fit placement
  // ---------------------------------------------------------------------

  /** The loop state of `assignTasksToDevelopers` part way through the pending tasks. */
  datatype PeriodState = PeriodState(
    buckets: seq<Bucket>,
    carry: seq<Task>,
    workloads: Workloads,
    total: real)

  /** One iteration of the task loop of `assignTasksToDevelopers`. */
  function PlaceTask(s: PeriodState, t: Task, devs: seq<Developer>, weeklyWorkHours: int): PeriodState
    requires PositiveCapacities(devs)
  {
    match FirstFit(t, devs, s.workloads, weeklyWorkHours)
    case None => s.(carry := s.carry + [t])
    case Some(i) =>
      var d := devs[i];
      var c := EffectiveCost(t, d);
      PeriodState(AssignTaskToDeveloper(d, t, s.buckets), s.carry, s.workloads[d.ID := Load(s.workloads, d.ID) + c], s.total + c)
  }

  /**
   * First fit: when developer `i` is the first, in list order, with room
   * for the task, the task goes into `i`'s bucket and `i`'s workload and
   * the running total grow by its effective cost.
   */
  lemma PlaceTaskFirstFit(s: PeriodState, t: Task, devs: seq<Developer>, weeklyWorkHours: int, i: nat)
    requires PositiveCapacities(devs)
    requires i < |devs| && Fits(s.workloads, t, devs[i], weeklyWorkHours)
    requires forall j | 0 <= j < i :: !Fits(s.workloads, t, devs[j], weeklyWorkHours)
    ensures PlaceTask(s, t, devs, weeklyWorkHours) == PeriodState(
        AssignTaskToDeveloper(devs[i], t, s.buckets),
        s.carry,
        s.workloads[devs[i].ID := Load(s.workloads, devs[i].ID) + EffectiveCost(t, devs[i])],
        s.total + EffectiveCost(t, devs[i]))
  {
    assert FirstFit(t, devs, s.workloads, weeklyWorkHours) == Some(i);
  }

  /** A task no developer has room for is carried over, and nothing else changes. */
  lemma PlaceTaskNoRoom(s: PeriodState, t: Task, devs: seq<Developer>, weeklyWorkHours: int)
    requires PositiveCapacities(devs)
    requires forall j | 0 <= j < |devs| :: !Fits(s.workloads, t, devs[j], weeklyWorkHours)
    ensures PlaceTask(s, t, devs, weeklyWorkHours) == s.(carry := s.carry + [t])
  {
  }

  /** The task loop of `assignTasksToDevelopers` over `ts`, in order. */
  function PlaceAll(s: PeriodState, ts: seq<Task>, devs: seq<Developer>, weeklyWorkHours: int): PeriodState
    requires PositiveCapacities(devs)
    decreases |ts|
  {
    if ts == [] then s else PlaceAll(PlaceTask(s, ts[0], devs, weeklyWorkHours), ts[1..], devs, weeklyWorkHours)
  }

  /** The bucket invariants every step keeps. */
  predicate WellFormed(b: seq<Bucket>, devs: seq<Developer>) {
    NoEmptyBucket(b) && UniqueBucketIds(b) && StaffedFrom(b, devs)
  }

  lemma PlaceTaskShape(s: PeriodState, t: Task, devs: seq<Developer>, weeklyWorkHours: int)
    requires PositiveCapacities(devs) && WellFormed(s.buckets, devs)
    ensures var r := PlaceTask(s, t, devs, weeklyWorkHours);
      && WellFormed(r.buckets, devs)
      && |r.buckets| >= |s.buckets|
      && (r.carry == s.carry || r.carry == s.carry + [t])
      && (r.carry == s.carry ==> |r.buckets| > 0)
  {
    var r := PlaceTask(s, t, devs, weeklyWorkHours);
    match FirstFit(t, devs, s.workloads, weeklyWorkHours)
    case None =>
      assert r == s.(carry := s.carry + [t]);
    case Some(i) =>
      var d := devs[i];
      AssignTaskToDeveloperPlacement(d, t, s.buckets);
      assert r.buckets == AssignTaskToDeveloper(d, t, s.buckets);
      match FindBucket(s.buckets, d.ID)
      case Some(k) =>
      case None =>
        assert r.buckets[|s.buckets|].Developer == d;
  }

  /** The task loop over `ts` keeps the buckets well formed and never removes one. */
  lemma {:induction false} PlaceAllWellFormed(s: PeriodState, ts: seq<Task>, devs: seq<Developer>, weeklyWorkHours: int)
    requires PositiveCapacities(devs) && WellFormed(s.buckets, devs)
    ensures var r := PlaceAll(s, ts, devs, weeklyWorkHours);
      WellFormed(r.buckets, devs) && |r.buckets| >= |s.buckets|
    decreases |ts|
  {
    if ts != [] {
      PlaceTaskShape(s, ts[0], devs, weeklyWorkHours);
      PlaceAllWellFormed(PlaceTask(s, ts[0], devs, weeklyWorkHours), ts[1..], devs, weeklyWorkHours);
    }
  }

  lemma PlaceTaskPartition(s: PeriodState, t: Task, devs: seq<Developer>, weeklyWorkHours: int)
    requires PositiveCapacities(devs)
    ensures var r := PlaceTask(s, t, devs, weeklyWorkHours);
      BucketTasks(r.buckets) + multiset(r.carry) == BucketTasks(s.buckets) + multiset(s.carry) + multiset{t}
  {
    match FirstFit(t, devs, s.workloads, weeklyWorkHours)
    case None =>
      assert multiset(s.carry + [t]) == multiset(s.carry) + multiset{t};
    case Some(i) =>
  }

  /** Every task the loop sees lands either in a bucket or in the carry-over, exactly once. */
  lemma {:induction false} PlaceAllPartition(s: PeriodState, ts: seq<Task>, devs: seq<Developer>, weeklyWorkHours: int)
    requires PositiveCapacities(devs)
    ensures var r := PlaceAll(s, ts, devs, weeklyWorkHours);
      BucketTasks(r.buckets) + multiset(r.carry) == BucketTasks(s.buckets) + multiset(s.carry) + multiset(ts)
    decreases |ts|
  {
    if ts != [] {
      var s1 := PlaceTask(s, ts[0], devs, weeklyWorkHours);
      PlaceTaskPartition(s, ts[0], devs, weeklyWorkHours);
      PlaceAllPartition(s1, ts[1..], devs, weeklyWorkHours);
      var r := PlaceAll(s, ts, devs, weeklyWorkHours);
      assert ts == [ts[0]] + ts[1..];
      assert multiset(ts) == multiset{ts[0]} + multiset(ts[1..]);
      MultisetChain(BucketTasks(r.buckets) + multiset(r.carry), BucketTasks(s1.buckets) + multiset(s1.carry),
        BucketTasks(s.buckets) + multiset(s.carry), multiset{ts[0]}, multiset(ts[1..]), multiset(ts));
    }
  }

  /** The carried-over tasks are appended in the order the loop met them. */
  lemma {:induction false} PlaceAllCarryOrder(s: PeriodState, ts: seq<Task>, devs: seq<Developer>, weeklyWorkHours: int)
    requires PositiveCapacities(devs)
    ensures var r := PlaceAll(s, ts, devs, weeklyWorkHours);
      && |s.carry| <= |r.carry| && r.carry[..|s.carry|] == s.carry
      && IsSubsequence(r.carry[|s.carry|..], ts)
    decreases |ts|
  {
    if ts != [] {
      var s1 := PlaceTask(s, ts[0], devs, weeklyWorkHours);
      assert s1.carry == s.carry || s1.carry == s.carry + [ts[0]] by {
        match FirstFit(ts[0], devs, s.workloads, weeklyWorkHours)
        case None =>
        case Some(i) =>
      }
      PlaceAllCarryOrder(s1, ts[1..], devs, weeklyWorkHours);
      var r := PlaceAll(s, ts, devs, weeklyWorkHours);
      var tail := r.carry[|s.carry|..];
      if s1.carry == s.carry {
        assert tail == r.carry[|s1.carry|..];
      } else {
        assert r.carry[..|s1.carry|] == s1.carry;
        assert tail[0] == ts[0] && tail[1..] == r.carry[|s1.carry|..];
      }
    }
  }

  /** The workload of every developer stays within the weekly hours. */
  predicate WithinCapacity(w: Workloads, weeklyWorkHours: int) {
    forall id | id in w :: w[id] <= weeklyWorkHours as real
  }

  /** No step lets a developer's workload exceed the weekly hours. */
  lemma {:induction false} PlaceAllWithinCapacity(s: PeriodState, ts: seq<Task>, devs: seq<Developer>, weeklyWorkHours: int)
    requires PositiveCapacities(devs) && WithinCapacity(s.workloads, weeklyWorkHours)
    ensures WithinCapacity(PlaceAll(s, ts, devs, weeklyWorkHours).workloads, weeklyWorkHours)
    decreases |ts|
  {
    if ts != [] {
      var s1 := PlaceTask(s, ts[0], devs, weeklyWorkHours);
      assert WithinCapacity(s1.workloads, weeklyWorkHours) by {
        match FirstFit(ts[0], devs, s.workloads, weeklyWorkHours)
        case None =>
        case Some(i) =>
      }
      PlaceAllWithinCapacity(s1, ts[1..], devs, weeklyWorkHours);
    }
  }

  /**
   * The workloads agree with the buckets: a developer's workload is the
   * effective cost of their bucket, or zero if they have none.
   */
  predicate Consistent(s: PeriodState, devs: seq<Developer>) {
    && Staffed(s.buckets)
    && (forall k | 0 <= k < |s.buckets| :: Load(s.workloads, s.buckets[k].Developer.ID) == BucketCost(s.buckets[k]))
    && (forall j | 0 <= j < |devs| ::
          (forall k | 0 <= k < |s.buckets| :: s.buckets[k].Developer.ID != devs[j].ID) ==>
          Load(s.workloads, devs[j].ID) == 0.0)
  }

  lemma SameIdSameDeveloper(devs: seq<Developer>, a: Developer, b: Developer)
    requires UniqueIds(devs) && a in devs && b in devs && a.ID == b.ID
    ensures a == b
  {
  }

  /** Placing `t` with developer `d`, who already has the bucket at `k`, keeps the books consistent. */
  lemma PlaceIntoBucketCosts(s: PeriodState, r: PeriodState, t: Task, devs: seq<Developer>, d: Developer, k: nat)
    requires PositiveCapacities(devs) && UniqueIds(devs) && d in devs && d.Capacity > 0
    requires UniqueBucketIds(s.buckets) && StaffedFrom(s.buckets, devs) && Consistent(s, devs)
    requires k < |s.buckets| && s.buckets[k].Developer.ID == d.ID
    requires r.buckets == s.buckets[k := s.buckets[k].(Tasks := s.buckets[k].Tasks + [t])]
    requires r.workloads == s.workloads[d.ID := Load(s.workloads, d.ID) + EffectiveCost(t, d)]
    requires r.total == s.total + EffectiveCost(t, d)
    ensures Consistent(r, devs) && r.total - BucketsCost(r.buckets) == s.total - BucketsCost(s.buckets)
  {
    var b := s.buckets;
    var w := s.workloads;
    SameIdSameDeveloper(devs, b[k].Developer, d);
    var x := b[k].(Tasks := b[k].Tasks + [t]);
    CostSumAppend(b[k].Tasks, t, d);
    BucketsUpdateCost(b, k, x);
    var b' := r.buckets;
    var w' := r.workloads;
    forall m | 0 <= m < |b'|
      ensures Load(w', b'[m].Developer.ID) == BucketCost(b'[m])
    {
      if m != k {
        assert b'[m] == b[m] && b[m].Developer.ID != d.ID;
      }
    }
    forall j | 0 <= j < |devs| && (forall m | 0 <= m < |b'| :: b'[m].Developer.ID != devs[j].ID)
      ensures Load(w', devs[j].ID) == 0.0
    {
      assert b'[k].Developer.ID == d.ID;
      forall m | 0 <= m < |b|
        ensures b[m].Developer.ID != devs[j].ID
      {
        assert b'[m].Developer.ID == b[m].Developer.ID;
      }
    }
  }

  /** Placing `t` with developer `d`, who has no bucket yet, keeps the books consistent. */
  lemma PlaceIntoNewBucketCosts(s: PeriodState, r: PeriodState, t: Task, devs: seq<Developer>, d: Developer)
    requires PositiveCapacities(devs) && d in devs && d.Capacity > 0
    requires Consistent(s, devs)
    requires forall k | 0 <= k < |s.buckets| :: s.buckets[k].Developer.ID != d.ID
    requires r.buckets == s.buckets + [DeveloperTaskAssignment(d, [t])]
    requires r.workloads == s.workloads[d.ID := Load(s.workloads, d.ID) + EffectiveCost(t, d)]
    requires r.total == s.total + EffectiveCost(t, d)
    ensures Consistent(r, devs) && r.total - BucketsCost(r.buckets) == s.total - BucketsCost(s.buckets)
  {
    var b := s.buckets;
    var x := DeveloperTaskAssignment(d, [t]);
    var c := EffectiveCost(t, d);
    assert (b + [x])[..|b|] == b;
    assert [t][..0] == [];
    var i :| 0 <= i < |devs| && devs[i] == d;
    assert Load(s.workloads, d.ID) == 0.0;
    var w' := r.workloads;
    var b' := r.buckets;
    forall m | 0 <= m < |b'|
      ensures Load(w', b'[m].Developer.ID) == BucketCost(b'[m])
    {
      if m < |b| {
        assert b'[m] == b[m] && b[m].Developer.ID != d.ID;
      } else {
        assert b'[m] == x;
        assert CostSum([t], d) == CostSum([], d) + c;
      }
    }
    forall j | 0 <= j < |devs| && (forall m | 0 <= m < |b'| :: b'[m].Developer.ID != devs[j].ID)
      ensures Load(w', devs[j].ID) == 0.0
    {
      assert b'[|b|].Developer.ID == d.ID;
      forall m | 0 <= m < |b|
        ensures b[m].Developer.ID != devs[j].ID
      {
        assert b'[m] == b[m];
      }
    }
  }

  lemma PlaceTaskCosts(s: PeriodState, t: Task, devs: seq<Developer>, weeklyWorkHours: int)
    requires PositiveCapacities(devs) && UniqueIds(devs)
    requires UniqueBucketIds(s.buckets) && StaffedFrom(s.buckets, devs) && Consistent(s, devs)
    ensures var r := PlaceTask(s, t, devs, weeklyWorkHours);
      Consistent(r, devs) && r.total - BucketsCost(r.buckets) == s.total - BucketsCost(s.buckets)
  {
    var r := PlaceTask(s, t, devs, weeklyWorkHours);
    match FirstFit(t, devs, s.workloads, weeklyWorkHours)
    case None =>
    case Some(i) =>
      var d := devs[i];
      assert r.buckets == AssignTaskToDeveloper(d, t, s.buckets);
      match FindBucket(s.buckets, d.ID)
      case Some(k) =>
        PlaceIntoBucketCosts(s, r, t, devs, d, k);
      case None =>
        PlaceIntoNewBucketCosts(s, r, t, devs, d);
  }

  /** The workloads track the buckets, and the running total grows by exactly the cost placed. */
  lemma {:induction false} PlaceAllCosts(s: PeriodState, ts: seq<Task>, devs: seq<Developer>, weeklyWorkHours: int)
    requires PositiveCapacities(devs) && UniqueIds(devs)
    requires WellFormed(s.buckets, devs) && Consistent(s, devs)
    ensures var r := PlaceAll(s, ts, devs, weeklyWorkHours);
      Consistent(r, devs) && r.total - BucketsCost(r.buckets) == s.total - BucketsCost(s.buckets)
    decreases |ts|
  {
    if ts != [] {
      var s1 := PlaceTask(s, ts[0], devs, weeklyWorkHours);
      PlaceTaskCosts(s, ts[0], devs, weeklyWorkHours);
      PlaceTaskShape(s, ts[0], devs, weeklyWorkHours);
      PlaceAllCosts(s1, ts[1..], devs, weeklyWorkHours);
    }
  }

  /**
   * A pass that opens no bucket carries every task over, leaves the
   * workloads and the total alone, and every task it saw fitted nobody.
   */
  lemma {:induction false} PlaceAllStall(s: PeriodState, ts: seq<Task>, devs: seq<Developer>, weeklyWorkHours: int)
    requires PositiveCapacities(devs)
    ensures var r := PlaceAll(s, ts, devs, weeklyWorkHours);
      r.buckets == [] ==>
        && s.buckets == []
        && r.carry == s.carry + ts
        && r.workloads == s.workloads
        && r.total == s.total
        && forall k, j | 0 <= k < |ts| && 0 <= j < |devs| :: !Fits(s.workloads, ts[k], devs[j], weeklyWorkHours)
    decreases |ts|
  {
    if ts != [] {
      var s1 := PlaceTask(s, ts[0], devs, weeklyWorkHours);
      PlaceAllStall(s1, ts[1..], devs, weeklyWorkHours);
      PlaceAllGrows(s1, ts[1..], devs, weeklyWorkHours);
      var r := PlaceAll(s, ts, devs, weeklyWorkHours);
      if r.buckets == [] {
        match FirstFit(ts[0], devs, s.workloads, weeklyWorkHours)
        case None =>
          assert s1 == s.(carry := s.carry + [ts[0]]);
          assert ts == [ts[0]] + ts[1..];
          forall k, j | 0 <= k < |ts| && 0 <= j < |devs|
            ensures !Fits(s.workloads, ts[k], devs[j], weeklyWorkHours)
          {
            if k > 0 {
              assert ts[k] == ts[1..][k - 1];
            }
          }
        case Some(i) =>
      }
    }
  }

  lemma {:induction false} PlaceAllGrows(s: PeriodState, ts: seq<Task>, devs: seq<Developer>, weeklyWorkHours: int)
    requires PositiveCapacities(devs)
    ensures |PlaceAll(s, ts, devs, weeklyWorkHours).buckets| >= |s.buckets|
    decreases |ts|
  {
    if ts != [] {
      var s1 := PlaceTask(s, ts[0], devs, weeklyWorkHours);
      assert |s1.buckets| >= |s.buckets| by {
        match FirstFit(ts[0], devs, s.workloads, weeklyWorkHours)
        case None =>
        case Some(i) =>
      }
      PlaceAllGrows(s1, ts[1..], devs, weeklyWorkHours);
    }
  }

  /** With no room for any of `ts`, the task loop only carries them over. */
  lemma {:induction false} PlaceAllNoRoom(s: PeriodState, ts: seq<Task>, devs: seq<Developer>, weeklyWorkHours: int)
    requires PositiveCapacities(devs)
    requires forall k, j | 0 <= k < |ts| && 0 <= j < |devs| :: !Fits(s.workloads, ts[k], devs[j], weeklyWorkHours)
    ensures PlaceAll(s, ts, devs, weeklyWorkHours) == s.(carry := s.carry + ts)
    decreases |ts|
  {
    if ts != [] {
      assert forall j | 0 <= j < |devs| :: !Fits(s.workloads, ts[0], devs[j], weeklyWorkHours);
      PlaceTaskNoRoom(s, ts[0], devs, weeklyWorkHours);
      var s1 := s.(carry := s.carry + [ts[0]]);
      assert forall k | 0 <= k < |ts[1..]| :: ts[1..][k] == ts[k + 1];
      PlaceAllNoRoom(s1, ts[1..], devs, weeklyWorkHours);
      assert s.carry + [ts[0]] + ts[1..] == s.carry + ts;
    }
  }

  // ---------------------------------------------------------------------
  // Rebalancing
  // ---------------------------------------------------------------------

  /**
   * One move of `rebalanceWorkload`: the last task of bucket `i` becomes
   * the only task of the empty bucket `j`, every other bucket is left as
   * it was, and the workloads follow the task: `j`'s developer gains its
   * effective cost, `i`'s developer loses it, nobody else changes. The
   * buckets keep their developers and, together, their tasks.
   */
  function MoveLastTask(b: seq<Bucket>, w: Workloads, i: nat, j: nat): (r: (seq<Bucket>, Workloads))
    requires i < |b| && j < |b| && |b[i].Tasks| > 1 && |b[j].Tasks| == 0 && Staffed(b)
    ensures |r.0| == |b| && forall k | 0 <= k < |b| :: r.0[k].Developer == b[k].Developer
    ensures BucketTasks(r.0) == BucketTasks(b)
    ensures r.0[j].Tasks == [b[i].Tasks[|b[i].Tasks| - 1]]
    ensures r.0[i].Tasks == b[i].Tasks[..|b[i].Tasks| - 1]
    ensures forall k | 0 <= k < |b| && k != i && k != j :: r.0[k] == b[k]
    ensures var t, di, dj := b[i].Tasks[|b[i].Tasks| - 1], b[i].Developer, b[j].Developer;
      di.ID != dj.ID ==>
        && Load(r.1, dj.ID) == Load(w, dj.ID) + EffectiveCost(t, dj)
        && Load(r.1, di.ID) == Load(w, di.ID) - EffectiveCost(t, di)
    ensures forall id | id != b[i].Developer.ID && id != b[j].Developer.ID :: Load(r.1, id) == Load(w, id)
  {
    var n := |b[i].Tasks|;
    var t := b[i].Tasks[n - 1];
    var bj := b[j].(Tasks := b[j].Tasks + [t]);
    var b1 := b[j := bj];
    var bi := b[i].(Tasks := b[i].Tasks[..n - 1]);
    var b2 := b1[i := bi];
    var dj, di := b[j].Developer, b[i].Developer;
    var w1 := w[dj.ID := Load(w, dj.ID) + EffectiveCost(t, dj)];
    var w2 := w1[di.ID := Load(w1, di.ID) - EffectiveCost(t, di)];
    MoveLastTaskTasks(b, i, j, b1, b2);
    MoveLastTaskShape(b, i, j, b1, b2);
    MoveLoads(w, t, di, dj);
    (b2, w2)
  }

  /** Where the move leaves each bucket. */
  lemma MoveLastTaskShape(b: seq<Bucket>, i: nat, j: nat, b1: seq<Bucket>, b2: seq<Bucket>)
    requires i < |b| && j < |b| && |b[i].Tasks| > 1 && |b[j].Tasks| == 0
    requires b1 == b[j := b[j].(Tasks := b[j].Tasks + [b[i].Tasks[|b[i].Tasks| - 1]])]
    requires b2 == b1[i := b[i].(Tasks := b[i].Tasks[..|b[i].Tasks| - 1])]
    ensures |b2| == |b| && forall k | 0 <= k < |b| :: b2[k].Developer == b[k].Developer
    ensures b2[j].Tasks == [b[i].Tasks[|b[i].Tasks| - 1]]
    ensures b2[i].Tasks == b[i].Tasks[..|b[i].Tasks| - 1]
    ensures forall k | 0 <= k < |b| && k != i && k != j :: b2[k] == b[k]
  {
    assert i != j;
  }

  /** The workloads follow the moved task: the target gains its cost, the source loses it, nobody else changes. */
  lemma MoveLoads(w: Workloads, t: Task, di: Developer, dj: Developer)
    requires di.Capacity > 0 && dj.Capacity > 0
    ensures var w1 := w[dj.ID := Load(w, dj.ID) + EffectiveCost(t, dj)];
      var w2 := w1[di.ID := Load(w1, di.ID) - EffectiveCost(t, di)];
      && (di.ID != dj.ID ==>
            && Load(w2, dj.ID) == Load(w, dj.ID) + EffectiveCost(t, dj)
            && Load(w2, di.ID) == Load(w, di.ID) - EffectiveCost(t, di))
      && forall id | id != di.ID && id != dj.ID :: Load(w2, id) == Load(w, id)
  {
  }

  /** Moving the last task of bucket `i` into the empty bucket `j` keeps the tasks held. */
  lemma MoveLastTaskTasks(b: seq<Bucket>, i: nat, j: nat, b1: seq<Bucket>, b2: seq<Bucket>)
    requires i < |b| && j < |b| && |b[i].Tasks| > 1 && |b[j].Tasks| == 0
    requires b1 == b[j := b[j].(Tasks := b[j].Tasks + [b[i].Tasks[|b[i].Tasks| - 1]])]
    requires b2 == b1[i := b[i].(Tasks := b[i].Tasks[..|b[i].Tasks| - 1])]
    ensures BucketTasks(b2) == BucketTasks(b)
  {
    var t := b[i].Tasks[|b[i].Tasks| - 1];
    MoveSteps(b, i, j, b1, b2);
    BucketsUpdateTasks(b, j, b1[j]);
    BucketsUpdateTasks(b1, i, b2[i]);
    MoveCancels(BucketTasks(b), BucketTasks(b1), BucketTasks(b2), b[j].Tasks, b1[j].Tasks, b2[i].Tasks, b1[i].Tasks, t);
  }

  lemma MoveSteps(b: seq<Bucket>, i: nat, j: nat, b1: seq<Bucket>, b2: seq<Bucket>)
    requires i < |b| && j < |b| && |b[i].Tasks| > 1 && |b[j].Tasks| == 0
    requires b1 == b[j := b[j].(Tasks := b[j].Tasks + [b[i].Tasks[|b[i].Tasks| - 1]])]
    requires b2 == b1[i := b[i].(Tasks := b[i].Tasks[..|b[i].Tasks| - 1])]
    ensures var t := b[i].Tasks[|b[i].Tasks| - 1];
      && b[j].Tasks == [] && b1[j].Tasks == [t]
      && b1[i] == b[i] && b1[i].Tasks == b2[i].Tasks + [t]
  {
    assert i != j;
  }

  /** Taking `t` out of one bucket after adding it to an empty one leaves the whole unchanged. */
  lemma MoveCancels<T>(all: multiset<T>, added: multiset<T>, moved: multiset<T>,
                       emptied: seq<T>, single: seq<T>, kept: seq<T>, source: seq<T>, t: T)
    requires emptied == [] && single == [t] && source == kept + [t]
    requires added + multiset(emptied) == all + multiset(single)
    requires moved + multiset(source) == added + multiset(kept)
    ensures moved == all
  {
    assert multiset(source) == multiset(kept) + multiset{t};
    assert forall y :: moved[y] == all[y] by {
      forall y
        ensures moved[y] == all[y]
      {
        assert (moved + multiset(source))[y] == (added + multiset(kept))[y];
        assert (added + multiset(emptied))[y] == (all + multiset(single))[y];
      }
    }
  }

  /** The inner loop of `rebalanceWorkload` for bucket `i`, from bucket `j` on: at most one move, then `break`. */
  function RebalanceInner(b: seq<Bucket>, w: Workloads, i: nat, j: nat): (r: (seq<Bucket>, Workloads))
    requires i < |b| && Staffed(b)
    ensures |r.0| == |b| && forall k | 0 <= k < |b| :: r.0[k].Developer == b[k].Developer
    ensures BucketTasks(r.0) == BucketTasks(b)
    ensures NoEmptyBucket(b) ==> r == (b, w)
    decreases |b| - j
  {
    if j >= |b| then (b, w)
    else if |b[i].Tasks| > 1 && |b[j].Tasks| == 0 then MoveLastTask(b, w, i, j)
    else RebalanceInner(b, w, i, j + 1)
  }

  /** The outer loop of `rebalanceWorkload`, from bucket `i` on. */
  function RebalanceFrom(b: seq<Bucket>, w: Workloads, i: nat): (r: (seq<Bucket>, Workloads))
    requires Staffed(b)
    ensures |r.0| == |b| && forall k | 0 <= k < |b| :: r.0[k].Developer == b[k].Developer
    ensures BucketTasks(r.0) == BucketTasks(b)
    ensures NoEmptyBucket(b) ==> r == (b, w)
    decreases |b| - i
  {
    if i >= |b| then (b, w)
    else
      var step := RebalanceInner(b, w, i, 0);
      RebalanceFrom(step.0, step.1, i + 1)
  }

  lemma NoEmptyPermutation(a: seq<Bucket>, b: seq<Bucket>)
    requires multiset(a) == multiset(b) && NoEmptyBucket(a)
    ensures NoEmptyBucket(b)
  {
    assert forall k | 0 <= k < |b| :: b[k] in multiset(a);
  }

  /**
   * `rebalanceWorkload`: the buckets are sorted by descending task count,
   * then every bucket with more than one task hands its last task to an
   * empty bucket. The tasks held never change; since every bucket the
   * week opens holds a task, no move ever happens and the result is the
   * buckets reordered by task count, with the workloads untouched.
   */
  function RebalanceWorkload(b: seq<Bucket>, w: Workloads): (r: (seq<Bucket>, Workloads))
    requires Staffed(b)
    ensures |r.0| == |b| && BucketTasks(r.0) == BucketTasks(b)
    ensures NoEmptyBucket(b) ==> multiset(r.0) == multiset(b) && SortedDescBy(r.0, TaskCount) && r.1 == w
  {
    var sorted := SortDescBy(b, TaskCount);
    StaffedPermutation(b, sorted);
    BucketsPermutationTasks(b, sorted);
    assert |sorted| == |multiset(sorted)| == |multiset(b)| == |b|;
    if NoEmptyBucket(b) then NoEmptyPermutation(b, sorted); RebalanceFrom(sorted, w, 0)
    else RebalanceFrom(sorted, w, 0)
  }

  /** A sequence without two equal elements counts each value at most once. */
  lemma {:induction false} UniqueCount(a: seq<Bucket>, x: Bucket)
    requires UniqueBucketIds(a)
    ensures multiset(a)[x] <= 1
    decreases |a|
  {
    if a != [] {
      var n := |a|;
      assert a == a[..n - 1] + [a[n - 1]];
      UniqueCount(a[..n - 1], x);
      if x == a[n - 1] {
        assert x !in a[..n - 1];
      }
    }
  }

  lemma UniqueBucketIdsPermutation(a: seq<Bucket>, b: seq<Bucket>)
    requires multiset(a) == multiset(b) && UniqueBucketIds(a)
    ensures UniqueBucketIds(b)
  {
    forall i, j | 0 <= i < j < |b|
      ensures b[i].Developer.ID != b[j].Developer.ID
    {
      if b[i].Developer.ID == b[j].Developer.ID {
        assert b[i] in multiset(a) && b[j] in multiset(a);
        var p :| 0 <= p < |a| && a[p] == b[i];
        var q :| 0 <= q < |a| && a[q] == b[j];
        if b[i] == b[j] {
          assert b == b[..j] + [b[j]] + b[j + 1..];
          assert b[i] in b[..j];
          assert multiset(b)[b[i]] >= 2;
          UniqueCount(a, b[i]);
        }
      }
    }
  }

  lemma WellFormedPermutation(a: seq<Bucket>, b: seq<Bucket>, devs: seq<Developer>)
    requires multiset(a) == multiset(b) && WellFormed(a, devs)
    ensures WellFormed(b, devs)
  {
    NoEmptyPermutation(a, b);
    UniqueBucketIdsPermutation(a, b);
    assert forall k | 0 <= k < |b| :: b[k] in multiset(a);
  }

  /** Every bucket holds a subsequence of `ts`: tasks from `ts`, in the order `ts` lists them. */
  predicate BucketsFrom(b: seq<Bucket>, ts: seq<Task>) {
    forall k | 0 <= k < |b| :: IsSubsequence(b[k].Tasks, ts)
  }

  lemma BucketsFromExtend(b: seq<Bucket>, seen: seq<Task>, t: Task)
    requires BucketsFrom(b, seen)
    ensures BucketsFrom(b, seen + [t])
  {
    forall k | 0 <= k < |b|
      ensures IsSubsequence(b[k].Tasks, seen + [t])
    {
      SubsequenceExtend(b[k].Tasks, seen, t);
    }
  }

  lemma BucketsFromUpdate(b: seq<Bucket>, k: nat, x: Bucket, ts: seq<Task>)
    requires k < |b| && BucketsFrom(b, ts) && IsSubsequence(x.Tasks, ts)
    ensures BucketsFrom(b[k := x], ts)
  {
  }

  lemma BucketsFromAppend(b: seq<Bucket>, x: Bucket, ts: seq<Task>)
    requires BucketsFrom(b, ts) && IsSubsequence(x.Tasks, ts)
    ensures BucketsFrom(b + [x], ts)
  {
    assert forall k | 0 <= k < |b| :: (b + [x])[k] == b[k];
  }

  /**
   * Giving `t`, met after the tasks `seen`, to a developer keeps every
   * bucket a subsequence of what has been seen: the task is appended to a
   * bucket or opens one.
   */
  lemma AssignTaskFrom(dev: Developer, t: Task, b: seq<Bucket>, seen: seq<Task>)
    requires BucketsFrom(b, seen)
    ensures BucketsFrom(AssignTaskToDeveloper(dev, t, b), seen + [t])
  {
    BucketsFromExtend(b, seen, t);
    match FindBucket(b, dev.ID)
    case Some(k) =>
      var x := b[k].(Tasks := b[k].Tasks + [t]);
      SubsequenceSnoc(b[k].Tasks, seen, t);
      BucketsFromUpdate(b, k, x, seen + [t]);
    case None =>
      SubsequenceSnoc([], seen, t);
      assert [] + [t] == [t];
      BucketsFromAppend(b, DeveloperTaskAssignment(dev, [t]), seen + [t]);
  }

  /** One step of the task loop keeps every bucket a subsequence of the tasks seen so far. */
  lemma PlaceTaskFrom(s: PeriodState, t: Task, devs: seq<Developer>, weeklyWorkHours: int, seen: seq<Task>)
    requires PositiveCapacities(devs) && BucketsFrom(s.buckets, seen)
    ensures BucketsFrom(PlaceTask(s, t, devs, weeklyWorkHours).buckets, seen + [t])
  {
    match FirstFit(t, devs, s.workloads, weeklyWorkHours)
    case None =>
      BucketsFromExtend(s.buckets, seen, t);
    case Some(i) =>
      AssignTaskFrom(devs[i], t, s.buckets, seen);
  }

  /** The task loop over `ts` keeps every bucket a subsequence of the tasks seen so far. */
  lemma {:induction false} PlaceAllFrom(s: PeriodState, ts: seq<Task>, devs: seq<Developer>, weeklyWorkHours: int, seen: seq<Task>)
    requires PositiveCapacities(devs) && BucketsFrom(s.buckets, seen)
    ensures BucketsFrom(PlaceAll(s, ts, devs, weeklyWorkHours).buckets, seen + ts)
    decreases |ts|
  {
    if ts == [] {
      assert seen + ts == seen;
    } else {
      PlaceTaskFrom(s, ts[0], devs, weeklyWorkHours, seen);
      PlaceAllFrom(PlaceTask(s, ts[0], devs, weeklyWorkHours), ts[1..], devs, weeklyWorkHours, seen + [ts[0]]);
      assert seen + [ts[0]] + ts[1..] == seen + ts;
    }
  }

  lemma BucketsFromPermutation(a: seq<Bucket>, b: seq<Bucket>, ts: seq<Task>)
    requires multiset(a) == multiset(b) && BucketsFrom(a, ts)
    ensures BucketsFrom(b, ts)
  {
    forall k | 0 <= k < |b|
      ensures IsSubsequence(b[k].Tasks, ts)
    {
      assert b[k] in multiset(a);
      var m :| 0 <= m < |a| && a[m] == b[k];
    }
  }

  lemma BucketsFromWiden(b: seq<Bucket>, p1: seq<Task>, p2: seq<Task>)
    requires BucketsFrom(b, p1) && IsSubsequence(p1, p2)
    ensures BucketsFrom(b, p2)
  {
    forall k | 0 <= k < |b|
      ensures IsSubsequence(b[k].Tasks, p2)
    {
      SubsequenceTransitive(b[k].Tasks, p1, p2);
    }
  }

  // ---------------------------------------------------------------------
  // One week
  // ---------------------------------------------------------------------

  /** What `assignTasksToDevelopers` returns: the week's assignment, the tasks left for later weeks, and the running total of hours. */
  datatype PeriodResult = PeriodResult(assignment: Assignment, remaining: seq<Task>, total: real)

  /** The loop state at the start of a week: no bucket, nothing carried, every workload zero. */
  function StartOfWeek(devs: seq<Developer>, total: real): PeriodState {
    PeriodState([], [], InitialWorkloads(devs), total)
  }

  /**
   * `assignTasksToDevelopers`: one week of first-fit placement followed by
   * the rebalancing. Every pending task ends up either in exactly one
   * bucket or among the remaining tasks, which keep their order; each
   * developer of the list has at most one non-empty bucket; the week makes
   * progress exactly when it opens a bucket.
   */
  function AssignTasksToDevelopers(pending: seq<Task>, devs: seq<Developer>, weeklyWorkHours: int, total: real): (r: PeriodResult)
    requires PositiveCapacities(devs)
    ensures BucketTasks(r.assignment.DeveloperTasks) + multiset(r.remaining) == multiset(pending)
    ensures IsSubsequence(r.remaining, pending)
    ensures WellFormed(r.assignment.DeveloperTasks, devs) && Staffed(r.assignment.DeveloperTasks)
    ensures SortedDescBy(r.assignment.DeveloperTasks, TaskCount)
    ensures |r.assignment.DeveloperTasks| > 0 <==> |r.remaining| < |pending|
  {
    var start := StartOfWeek(devs, total);
    var s := PlaceAll(start, pending, devs, weeklyWorkHours);
    PlaceAllWellFormed(start, pending, devs, weeklyWorkHours);
    PlaceAllPartition(start, pending, devs, weeklyWorkHours);
    PlaceAllCarryOrder(start, pending, devs, weeklyWorkHours);
    assert s.carry[0..] == s.carry;
    StaffedFromPositive(s.buckets, devs);
    var balanced := RebalanceWorkload(s.buckets, s.workloads).0;
    WellFormedPermutation(s.buckets, balanced, devs);
    StaffedPermutation(s.buckets, balanced);
    BucketTasksCount(balanced);
    PeriodResult(Assignment(balanced), s.carry, s.total)
  }

  /**
   * Within one week no developer's bucket costs more than the weekly
   * hours, and the running total grows by exactly the cost of the week's
   * buckets.
   */
  lemma PeriodCost(pending: seq<Task>, devs: seq<Developer>, weeklyWorkHours: int, total: real)
    requires PositiveCapacities(devs) && UniqueIds(devs) && weeklyWorkHours >= 0
    ensures var r := AssignTasksToDevelopers(pending, devs, weeklyWorkHours, total);
      && BucketsWithinHours(r.assignment.DeveloperTasks, weeklyWorkHours)
      && r.total == total + BucketsCost(r.assignment.DeveloperTasks)
  {
    var r := AssignTasksToDevelopers(pending, devs, weeklyWorkHours, total);
    var start := StartOfWeek(devs, total);
    var s := PlaceAll(start, pending, devs, weeklyWorkHours);
    PlaceAllWellFormed(start, pending, devs, weeklyWorkHours);
    PlaceAllWithinCapacity(start, pending, devs, weeklyWorkHours);
    PlaceAllCosts(start, pending, devs, weeklyWorkHours);
    StaffedFromPositive(s.buckets, devs);
    var b := r.assignment.DeveloperTasks;
    assert b == RebalanceWorkload(s.buckets, s.workloads).0;
    assert multiset(b) == multiset(s.buckets);
    ConsistentWithin(s, devs, weeklyWorkHours);
    BucketsWithinPermutation(s.buckets, b, weeklyWorkHours);
    BucketsPermutationCost(s.buckets, b);
  }

  /**
   * Every bucket of the week lists pending tasks in their pending order:
   * `assignTaskToDeveloper` only appends, and the rebalancing only
   * reorders whole buckets.
   */
  lemma PeriodBucketsFrom(pending: seq<Task>, devs: seq<Developer>, weeklyWorkHours: int, total: real)
    requires PositiveCapacities(devs)
    ensures BucketsFrom(AssignTasksToDevelopers(pending, devs, weeklyWorkHours, total).assignment.DeveloperTasks, pending)
  {
    var start := StartOfWeek(devs, total);
    var s := PlaceAll(start, pending, devs, weeklyWorkHours);
    PlaceAllFrom(start, pending, devs, weeklyWorkHours, []);
    assert [] + pending == pending;
    PlaceAllWellFormed(start, pending, devs, weeklyWorkHours);
    StaffedFromPositive(s.buckets, devs);
    var b := AssignTasksToDevelopers(pending, devs, weeklyWorkHours, total).assignment.DeveloperTasks;
    assert b == RebalanceWorkload(s.buckets, s.workloads).0;
    BucketsFromPermutation(s.buckets, b, pending);
  }

  /** Workloads that match the buckets and stay within the hours keep every bucket within them. */
  lemma ConsistentWithin(s: PeriodState, devs: seq<Developer>, weeklyWorkHours: int)
    requires Consistent(s, devs) && WithinCapacity(s.workloads, weeklyWorkHours) && weeklyWorkHours >= 0
    ensures BucketsWithinHours(s.buckets, weeklyWorkHours)
  {
    forall k | 0 <= k < |s.buckets|
      ensures BucketCost(s.buckets[k]) <= weeklyWorkHours as real
    {
      assert Load(s.workloads, s.buckets[k].Developer.ID) == BucketCost(s.buckets[k]);
    }
  }

  /** Reordering the buckets keeps each within the hours. */
  lemma BucketsWithinPermutation(a: seq<Bucket>, b: seq<Bucket>, hours: int)
    requires Staffed(a) && multiset(a) == multiset(b) && BucketsWithinHours(a, hours)
    ensures Staffed(b) && BucketsWithinHours(b, hours)
  {
    forall k | 0 <= k < |b|
      ensures b[k].Developer.Capacity > 0 && BucketCost(b[k]) <= hours as real
    {
      assert b[k] in multiset(a);
      var m :| 0 <= m < |a| && a[m] == b[k];
    }
  }

  /** No bucket costs its developer more than `hours`. */
  predicate BucketsWithinHours(b: seq<Bucket>, hours: int)
    requires Staffed(b)
  {
    forall k | 0 <= k < |b| :: BucketCost(b[k]) <= hours as real
  }

  /** No task of `ts` fits any developer, even in an otherwise empty week. */
  predicate Unfit(ts: seq<Task>, devs: seq<Developer>, weeklyWorkHours: int)
    requires PositiveCapacities(devs)
  {
    forall k, j | 0 <= k < |ts| && 0 <= j < |devs| :: EffectiveCost(ts[k], devs[j]) > weeklyWorkHours as real
  }

  /**
   * A week opens no bucket exactly when no pending task fits any developer
   * on an empty week: its effective cost exceeds the weekly hours for
   * everyone. Such a week leaves the pending tasks and the total as they were.
   */
  lemma PeriodStall(pending: seq<Task>, devs: seq<Developer>, weeklyWorkHours: int, total: real)
    requires PositiveCapacities(devs)
    ensures var r := AssignTasksToDevelopers(pending, devs, weeklyWorkHours, total);
      && (|r.assignment.DeveloperTasks| == 0 <==> Unfit(pending, devs, weeklyWorkHours))
      && (|r.assignment.DeveloperTasks| == 0 ==> r.remaining == pending && r.total == total)
  {
    var r := AssignTasksToDevelopers(pending, devs, weeklyWorkHours, total);
    var start := StartOfWeek(devs, total);
    var s := PlaceAll(start, pending, devs, weeklyWorkHours);
    PlaceAllWellFormed(start, pending, devs, weeklyWorkHours);
    StaffedFromPositive(s.buckets, devs);
    assert |r.assignment.DeveloperTasks| == |s.buckets|;
    assert forall id :: Load(start.workloads, id) == 0.0;
    if |s.buckets| == 0 {
      PlaceAllStall(start, pending, devs, weeklyWorkHours);
    }
    if Unfit(pending, devs, weeklyWorkHours) {
      PlaceAllNoRoom(start, pending, devs, weeklyWorkHours);
    }
  }

  /**
   * A task nobody can take in an empty week stalls the week: with the
   * source's 4 weekly hours, a developer of capacity 1 and a task of
   * difficulty 5, the week opens no bucket and hands the task back
   * unchanged, so the source's week loop, which repeats while tasks are
   * pending, would repeat this week forever.
   */
  lemma PeriodStallExample(d: Developer, t: Task)
    requires d.Capacity == 1 && t.Difficulty == 5
    ensures var r := AssignTasksToDevelopers([t], [d], WeeklyWorkHours, 0.0);
      r.assignment.DeveloperTasks == [] && r.remaining == [t] && r.total == 0.0
  {
    assert EffectiveCost(t, d) == 5.0;
    assert Unfit([t], [d], WeeklyWorkHours);
    PeriodStall([t], [d], WeeklyWorkHours, 0.0);
  }

  // ---------------------------------------------------------------------
  // The whole schedule
  // ---------------------------------------------------------------------

  /** The hours per week and the working days per week the service builds the scheduler with. */
  const WeeklyWorkHours: int := 4
  const WorkDaysInWeek: nat := 5

  /** The weeks the loop of `ScheduleAssignments` produced, the tasks it could never place, and the running total. */
  datatype WeeksResult = WeeksResult(weeks: seq<Assignment>, stranded: seq<Task>, total: real)

  /**
   * A week as the scheduler emits it: at least one bucket, no empty
   * bucket, one bucket per developer, every bucket's developer from the
   * list, buckets ordered by descending task count.
   */
  predicate GoodWeek(a: Assignment, devs: seq<Developer>) {
    && |a.DeveloperTasks| > 0
    && WellFormed(a.DeveloperTasks, devs)
    && Staffed(a.DeveloperTasks)
    && SortedDescBy(a.DeveloperTasks, TaskCount)
  }

  /** The tasks held by all weeks together. */
  function AllTasks(weeks: seq<Assignment>): multiset<Task>
    decreases |weeks|
  {
    if weeks == [] then multiset{} else BucketTasks(weeks[0].DeveloperTasks) + AllTasks(weeks[1..])
  }

  lemma AllTasksCons(a: Assignment, weeks: seq<Assignment>)
    ensures AllTasks([a] + weeks) == BucketTasks(a.DeveloperTasks) + AllTasks(weeks)
  {
    assert ([a] + weeks)[1..] == weeks;
  }

  lemma GoodWeeksCons(a: Assignment, weeks: seq<Assignment>, devs: seq<Developer>)
    requires GoodWeek(a, devs) && forall k | 0 <= k < |weeks| :: GoodWeek(weeks[k], devs)
    ensures forall k | 0 <= k < |[a] + weeks| :: GoodWeek(([a] + weeks)[k], devs)
  {
  }

  /**
   * The week loop of `ScheduleAssignments`. The source repeats weeks while
   * any task is pending; a week that places nothing would repeat forever,
   * so the loop here stops there and reports the pending tasks as stranded.
   */
  function ScheduleWeeks(pending: seq<Task>, devs: seq<Developer>, weeklyWorkHours: int, total: real): (r: WeeksResult)
    requires PositiveCapacities(devs)
    ensures |r.weeks| <= |pending|
    ensures forall k | 0 <= k < |r.weeks| :: GoodWeek(r.weeks[k], devs)
    decreases |pending|
  {
    if pending == [] then WeeksResult([], [], total)
    else
      var p := AssignTasksToDevelopers(pending, devs, weeklyWorkHours, total);
      if |p.assignment.DeveloperTasks| == 0 then WeeksResult([], pending, total)
      else
        var rest := ScheduleWeeks(p.remaining, devs, weeklyWorkHours, p.total);
        GoodWeeksCons(p.assignment, rest.weeks, devs);
        WeeksResult([p.assignment] + rest.weeks, rest.stranded, rest.total)
  }

  /**
   * Go's conversion of a non-negative float64 to an unsigned integer: the
   * fraction is dropped. Go leaves the conversion of a negative value
   * implementation-defined; the negative branch here is only a stand-in,
   * reachable only through negative difficulties, which validation rejects.
   */
  function TruncateHours(x: real): (n: int)
    ensures x >= 0.0 ==> 0 <= n && n as real <= x < n as real + 1.0
  {
    if x >= 0.0 then x.Floor else -((-x).Floor)
  }

  function TaskDuration(t: Task): int {
    t.Duration
  }

  /**
   * What `ScheduleAssignments` makes of the stored tasks and developers:
   * nothing when either list is empty; otherwise the tasks, sorted by
   * descending duration, are scheduled week by week. `Unschedulable`
   * reports the schedule so far and the tasks no developer could ever take,
   * where the source would loop forever.
   */
  datatype ScheduleOutcome =
    | Scheduled(response: ScheduleAssignmentResponse)
    | Unschedulable(response: ScheduleAssignmentResponse, stranded: seq<Task>)

  function ScheduleAssignments(tasks: seq<Task>, devs: seq<Developer>, weeklyWorkHours: int, workDaysInWeek: nat): (r: ScheduleOutcome)
    requires PositiveCapacities(devs)
    ensures r.response.MinWeek == |r.response.Assignments| <= |tasks|
    ensures r.response.TotalWorkDay == r.response.MinWeek * workDaysInWeek
    ensures |tasks| == 0 || |devs| == 0 ==> r == Scheduled(ScheduleAssignmentResponse([], 0, 0, 0))
    ensures r.Unschedulable? ==> |r.stranded| > 0
  {
    if |tasks| == 0 || |devs| == 0 then Scheduled(ScheduleAssignmentResponse([], 0, 0, 0))
    else
      var sorted := SortDescBy(tasks, TaskDuration);
      assert |sorted| == |multiset(sorted)| == |tasks|;
      var run := ScheduleWeeks(sorted, devs, weeklyWorkHours, 0.0);
      var weeks := |run.weeks|;
      var response := ScheduleAssignmentResponse(run.weeks, weeks, weeks * workDaysInWeek, TruncateHours(run.total));
      if run.stranded == [] then Scheduled(response) else Unschedulable(response, run.stranded)
  }

  /** What `ScheduleAssignments` reports for non-empty input: the weeks and the truncated total of the run over the sorted tasks. */
  lemma ScheduleAssignmentsRun(tasks: seq<Task>, devs: seq<Developer>, weeklyWorkHours: int, workDaysInWeek: nat)
    requires PositiveCapacities(devs) && |tasks| > 0 && |devs| > 0
    ensures var run := ScheduleWeeks(SortDescBy(tasks, TaskDuration), devs, weeklyWorkHours, 0.0);
      var r := ScheduleAssignments(tasks, devs, weeklyWorkHours, workDaysInWeek);
      && r.response.Assignments == run.weeks
      && r.response.TotalElapsedWorkHour == TruncateHours(run.total)
  {
  }
}

=== FILE: schedule_properties.dfy ===
/**
 * Properties of the whole capacity-based schedule: every task is scheduled
 * exactly once or reported as stranded, every week is well formed, no
 * developer is booked beyond the weekly hours, the reported hours are the
 * effective cost of the schedule, and a task is stranded only when no
 * developer could take it even in an empty week.
 */
module ScheduleProperties {
  import opened Payload
  import opened Sequences
  import opened Schedule

  predicate AllStaffed(weeks: seq<Assignment>) {
    forall k | 0 <= k < |weeks| :: Staffed(weeks[k].DeveloperTasks)
  }

  /** The effective cost of all weeks together. */
  function WeeksCost(weeks: seq<Assignment>): real
    requires AllStaffed(weeks)
    decreases |weeks|
  {
    if weeks == [] then 0.0 else BucketsCost(weeks[0].DeveloperTasks) + WeeksCost(weeks[1..])
  }

  /** Every pending task lands in exactly one week or among the stranded tasks. */
  lemma {:induction false} WeeksPartition(pending: seq<Task>, devs: seq<Developer>, weeklyWorkHours: int, total: real)
    requires PositiveCapacities(devs)
    ensures var r := ScheduleWeeks(pending, devs, weeklyWorkHours, total);
      AllTasks(r.weeks) + multiset(r.stranded) == multiset(pending)
    decreases |pending|
  {
    if pending != [] {
      var p := AssignTasksToDevelopers(pending, devs, weeklyWorkHours, total);
      if |p.assignment.DeveloperTasks| > 0 {
        var rest := ScheduleWeeks(p.remaining, devs, weeklyWorkHours, p.total);
        WeeksPartition(p.remaining, devs, weeklyWorkHours, p.total);
        var r := ScheduleWeeks(pending, devs, weeklyWorkHours, total);
        assert r.weeks == [p.assignment] + rest.weeks && r.stranded == rest.stranded;
        AllTasksCons(p.assignment, rest.weeks);
        MultisetAssociative(BucketTasks(p.assignment.DeveloperTasks), AllTasks(rest.weeks), multiset(rest.stranded));
      }
    }
  }

  /** No bucket of any week costs its developer more than `hours`. */
  predicate WeeksWithin(weeks: seq<Assignment>, hours: int)
    requires AllStaffed(weeks)
  {
    forall k | 0 <= k < |weeks| :: BucketsWithinHours(weeks[k].DeveloperTasks, hours)
  }

  lemma WeeksWithinCons(a: Assignment, weeks: seq<Assignment>, hours: int)
    requires Staffed(a.DeveloperTasks) && BucketsWithinHours(a.DeveloperTasks, hours)
    requires AllStaffed(weeks) && WeeksWithin(weeks, hours)
    ensures AllStaffed([a] + weeks) && WeeksWithin([a] + weeks, hours)
    ensures WeeksCost([a] + weeks) == BucketsCost(a.DeveloperTasks) + WeeksCost(weeks)
  {
    var w := [a] + weeks;
    assert w[0] == a && w[1..] == weeks;
    assert forall k | 1 <= k < |w| :: w[k] == weeks[k - 1];
  }

  /**
   * No bucket of any week costs its developer more than the weekly hours,
   * and the running total grows by exactly the cost of all weeks.
   */
  lemma {:induction false} WeeksCostBound(pending: seq<Task>, devs: seq<Developer>, weeklyWorkHours: int, total: real)
    requires PositiveCapacities(devs) && UniqueIds(devs) && weeklyWorkHours >= 0
    ensures var r := ScheduleWeeks(pending, devs, weeklyWorkHours, total);
      && AllStaffed(r.weeks)
      && WeeksWithin(r.weeks, weeklyWorkHours)
      && r.total == total + WeeksCost(r.weeks)
    decreases |pending|
  {
    if pending != [] {
      var p := AssignTasksToDevelopers(pending, devs, weeklyWorkHours, total);
      if |p.assignment.DeveloperTasks| > 0 {
        PeriodCost(pending, devs, weeklyWorkHours, total);
        var rest := ScheduleWeeks(p.remaining, devs, weeklyWorkHours, p.total);
        WeeksCostBound(p.remaining, devs, weeklyWorkHours, p.total);
        var r := ScheduleWeeks(pending, devs, weeklyWorkHours, total);
        assert r.weeks == [p.assignment] + rest.weeks && r.total == rest.total;
        WeeksWithinCons(p.assignment, rest.weeks, weeklyWorkHours);
      }
    }
  }

  /**
   * The loop strands tasks only when none of them fits any developer even
   * in an empty week, and the stranded tasks come from the pending ones.
   */
  lemma {:induction false} WeeksStranded(pending: seq<Task>, devs: seq<Developer>, weeklyWorkHours: int, total: real)
    requires PositiveCapacities(devs)
    ensures var r := ScheduleWeeks(pending, devs, weeklyWorkHours, total);
      && multiset(r.stranded) <= multiset(pending)
      && Unfit(r.stranded, devs, weeklyWorkHours)
    decreases |pending|
  {
    WeeksPartition(pending, devs, weeklyWorkHours, total);
    if pending != [] {
      var p := AssignTasksToDevelopers(pending, devs, weeklyWorkHours, total);
      PeriodStall(pending, devs, weeklyWorkHours, total);
      if |p.assignment.DeveloperTasks| > 0 {
        WeeksStranded(p.remaining, devs, weeklyWorkHours, p.total);
      }
    }
  }

  /** Some developer could take `t` in an otherwise empty week. */
  predicate FitsSomeone(t: Task, devs: seq<Developer>, weeklyWorkHours: int)
    requires PositiveCapacities(devs)
  {
    exists j | 0 <= j < |devs| :: EffectiveCost(t, devs[j]) <= weeklyWorkHours as real
  }

  /** When every task fits some developer in an empty week, nothing is stranded. */
  lemma WeeksComplete(pending: seq<Task>, devs: seq<Developer>, weeklyWorkHours: int, total: real)
    requires PositiveCapacities(devs)
    requires forall k | 0 <= k < |pending| :: FitsSomeone(pending[k], devs, weeklyWorkHours)
    ensures ScheduleWeeks(pending, devs, weeklyWorkHours, total).stranded == []
  {
    var r := ScheduleWeeks(pending, devs, weeklyWorkHours, total);
    WeeksStranded(pending, devs, weeklyWorkHours, total);
    FitsSomeoneSubset(r.stranded, pending, devs, weeklyWorkHours);
    UnfitOnlyEmpty(r.stranded, devs, weeklyWorkHours);
  }

  /** A task that fits someone is not among tasks that fit no one. */
  lemma UnfitHead(ts: seq<Task>, devs: seq<Developer>, weeklyWorkHours: int)
    requires PositiveCapacities(devs) && ts != []
    ensures Unfit(ts, devs, weeklyWorkHours) ==> !FitsSomeone(ts[0], devs, weeklyWorkHours)
  {
  }

  /** Tasks that each fit someone fit no one only when there are none. */
  lemma UnfitOnlyEmpty(ts: seq<Task>, devs: seq<Developer>, weeklyWorkHours: int)
    requires PositiveCapacities(devs)
    ensures (forall k | 0 <= k < |ts| :: FitsSomeone(ts[k], devs, weeklyWorkHours)) && Unfit(ts, devs, weeklyWorkHours) ==> ts == []
  {
    if ts != [] {
      UnfitHead(ts, devs, weeklyWorkHours);
    }
  }

  /** A property of every element carries over to a sub-multiset. */
  lemma FitsSomeoneSubset(sub: seq<Task>, ts: seq<Task>, devs: seq<Developer>, weeklyWorkHours: int)
    requires PositiveCapacities(devs) && multiset(sub) <= multiset(ts)
    requires forall k | 0 <= k < |ts| :: FitsSomeone(ts[k], devs, weeklyWorkHours)
    ensures forall k | 0 <= k < |sub| :: FitsSomeone(sub[k], devs, weeklyWorkHours)
  {
    forall k | 0 <= k < |sub|
      ensures FitsSomeone(sub[k], devs, weeklyWorkHours)
    {
      assert sub[k] in multiset(sub);
      var m :| 0 <= m < |ts| && ts[m] == sub[k];
    }
  }

  // ---------------------------------------------------------------------
  // Tasks nobody can take
  // ---------------------------------------------------------------------

  predicate NonNegativeDifficulties(ts: seq<Task>) {
    forall k | 0 <= k < |ts| :: ts[k].Difficulty >= 0
  }

  /** Every workload is non-negative. */
  predicate LoadsNonNegative(w: Workloads) {
    forall id | id in w :: w[id] >= 0.0
  }

  lemma CostNonNegative(u: Task, d: Developer)
    requires d.Capacity > 0 && u.Difficulty >= 0
    ensures EffectiveCost(u, d) >= 0.0
  {
    assert u.Difficulty as real >= 0.0 && d.Capacity as real > 0.0;
  }

  /**
   * With non-negative workloads, placing a task of non-negative
   * difficulty keeps the workloads non-negative and never puts a task that
   * fits nobody into a bucket.
   */
  lemma PlaceTaskKeepsUnfit(s: PeriodState, u: Task, devs: seq<Developer>, weeklyWorkHours: int, t: Task)
    requires PositiveCapacities(devs) && LoadsNonNegative(s.workloads) && u.Difficulty >= 0
    requires !FitsSomeone(t, devs, weeklyWorkHours)
    ensures var r := PlaceTask(s, u, devs, weeklyWorkHours);
      && LoadsNonNegative(r.workloads)
      && BucketTasks(r.buckets)[t] == BucketTasks(s.buckets)[t]
  {
    match FirstFit(u, devs, s.workloads, weeklyWorkHours)
    case None =>
    case Some(i) =>
      var d := devs[i];
      assert Load(s.workloads, d.ID) >= 0.0;
      assert EffectiveCost(t, d) > weeklyWorkHours as real;
      assert u != t;
      CostNonNegative(u, d);
  }

  lemma {:induction false} PlaceAllKeepsUnfit(s: PeriodState, ts: seq<Task>, devs: seq<Developer>, weeklyWorkHours: int, t: Task)
    requires PositiveCapacities(devs) && LoadsNonNegative(s.workloads) && NonNegativeDifficulties(ts)
    requires !FitsSomeone(t, devs, weeklyWorkHours)
    ensures var r := PlaceAll(s, ts, devs, weeklyWorkHours);
      && LoadsNonNegative(r.workloads)
      && BucketTasks(r.buckets)[t] == BucketTasks(s.buckets)[t]
    decreases |ts|
  {
    if ts != [] {
      PlaceTaskKeepsUnfit(s, ts[0], devs, weeklyWorkHours, t);
      assert NonNegativeDifficulties(ts[1..]);
      PlaceAllKeepsUnfit(PlaceTask(s, ts[0], devs, weeklyWorkHours), ts[1..], devs, weeklyWorkHours, t);
    }
  }

  /** A week keeps every copy of a task that fits nobody among the remaining tasks. */
  lemma PeriodKeepsUnfit(pending: seq<Task>, devs: seq<Developer>, weeklyWorkHours: int, total: real, t: Task)
    requires PositiveCapacities(devs) && NonNegativeDifficulties(pending)
    requires !FitsSomeone(t, devs, weeklyWorkHours)
    ensures multiset(AssignTasksToDevelopers(pending, devs, weeklyWorkHours, total).remaining)[t] == multiset(pending)[t]
  {
    var r := AssignTasksToDevelopers(pending, devs, weeklyWorkHours, total);
    var start := StartOfWeek(devs, total);
    assert LoadsNonNegative(start.workloads) by {
      forall id | id in start.workloads
        ensures start.workloads[id] >= 0.0
      {
        assert Load(start.workloads, id) == 0.0;
      }
    }
    var s := PlaceAll(start, pending, devs, weeklyWorkHours);
    PlaceAllKeepsUnfit(start, pending, devs, weeklyWorkHours, t);
    PlaceAllWellFormed(start, pending, devs, weeklyWorkHours);
    StaffedFromPositive(s.buckets, devs);
    assert r.assignment.DeveloperTasks == RebalanceWorkload(s.buckets, s.workloads).0;
    assert BucketTasks(r.assignment.DeveloperTasks)[t] == 0;
  }

  lemma StrandUnfitStep(sub: seq<Task>, ts: seq<Task>)
    requires IsSubsequence(sub, ts) && NonNegativeDifficulties(ts)
    ensures NonNegativeDifficulties(sub)
  {
    SubsequenceMembers(sub, ts);
    forall k | 0 <= k < |sub|
      ensures sub[k].Difficulty >= 0
    {
      var m :| 0 <= m < |ts| && ts[m] == sub[k];
    }
  }

  /** A pending task that fits nobody is never placed: the loop strands it. */
  lemma {:induction false} WeeksStrandUnfit(pending: seq<Task>, devs: seq<Developer>, weeklyWorkHours: int, total: real, t: Task)
    requires PositiveCapacities(devs) && NonNegativeDifficulties(pending)
    requires t in pending && !FitsSomeone(t, devs, weeklyWorkHours)
    ensures t in ScheduleWeeks(pending, devs, weeklyWorkHours, total).stranded
    decreases |pending|
  {
    var p := AssignTasksToDevelopers(pending, devs, weeklyWorkHours, total);
    var r := ScheduleWeeks(pending, devs, weeklyWorkHours, total);
    if |p.assignment.DeveloperTasks| == 0 {
      assert r.stranded == pending;
    } else {
      assert r.stranded == ScheduleWeeks(p.remaining, devs, weeklyWorkHours, p.total).stranded;
      PeriodKeepsUnfit(pending, devs, weeklyWorkHours, total, t);
      assert t in multiset(p.remaining);
      StrandUnfitStep(p.remaining, pending);
      WeeksStrandUnfit(p.remaining, devs, weeklyWorkHours, p.total, t);
    }
  }

  // ---------------------------------------------------------------------
  // ScheduleAssignments
  // ---------------------------------------------------------------------

  function StrandedTasks(r: ScheduleOutcome): seq<Task> {
    if r.Unschedulable? then r.stranded else []
  }

  /**
   * With at least one developer, every task appears exactly once: in one
   * bucket of one week, or among the stranded tasks.
   */
  lemma ScheduleAssignmentsPartition(tasks: seq<Task>, devs: seq<Developer>, weeklyWorkHours: int, workDaysInWeek: nat)
    requires PositiveCapacities(devs) && |devs| > 0
    ensures var r := ScheduleAssignments(tasks, devs, weeklyWorkHours, workDaysInWeek);
      AllTasks(r.response.Assignments) + multiset(StrandedTasks(r)) == multiset(tasks)
  {
    if |tasks| > 0 {
      var sorted := SortDescBy(tasks, TaskDuration);
      WeeksPartition(sorted, devs, weeklyWorkHours, 0.0);
    }
  }

  /** Every bucket of every week lists tasks of `ts` in their order in `ts`. */
  predicate WeeksFrom(weeks: seq<Assignment>, ts: seq<Task>) {
    forall k | 0 <= k < |weeks| :: BucketsFrom(weeks[k].DeveloperTasks, ts)
  }

  lemma WeeksFromCons(a: Assignment, weeks: seq<Assignment>, remaining: seq<Task>, pending: seq<Task>)
    requires BucketsFrom(a.DeveloperTasks, pending) && WeeksFrom(weeks, remaining)
    requires IsSubsequence(remaining, pending)
    ensures WeeksFrom([a] + weeks, pending)
  {
    forall k | 0 <= k < |[a] + weeks|
      ensures BucketsFrom(([a] + weeks)[k].DeveloperTasks, pending)
    {
      if k > 0 {
        assert ([a] + weeks)[k] == weeks[k - 1];
        BucketsFromWiden(weeks[k - 1].DeveloperTasks, remaining, pending);
      }
    }
  }

  /** Every bucket of every week lists tasks of `pending` in their pending order. */
  lemma {:induction false} WeeksBucketsFrom(pending: seq<Task>, devs: seq<Developer>, weeklyWorkHours: int, total: real)
    requires PositiveCapacities(devs)
    ensures WeeksFrom(ScheduleWeeks(pending, devs, weeklyWorkHours, total).weeks, pending)
    decreases |pending|
  {
    if pending != [] {
      var p := AssignTasksToDevelopers(pending, devs, weeklyWorkHours, total);
      if |p.assignment.DeveloperTasks| > 0 {
        PeriodBucketsFrom(pending, devs, weeklyWorkHours, total);
        WeeksBucketsFrom(p.remaining, devs, weeklyWorkHours, p.total);
        WeeksFromCons(p.assignment, ScheduleWeeks(p.remaining, devs, weeklyWorkHours, p.total).weeks, p.remaining, pending);
      }
    }
  }

  /** Every bucket of every week lists its tasks longest first. */
  predicate LongestFirst(weeks: seq<Assignment>) {
    forall w, k | 0 <= w < |weeks| && 0 <= k < |weeks[w].DeveloperTasks| ::
      SortedDescBy(weeks[w].DeveloperTasks[k].Tasks, TaskDuration)
  }

  lemma WeeksFromSorted(weeks: seq<Assignment>, sorted: seq<Task>)
    requires WeeksFrom(weeks, sorted) && SortedDescBy(sorted, TaskDuration)
    ensures LongestFirst(weeks)
  {
    forall w, k | 0 <= w < |weeks| && 0 <= k < |weeks[w].DeveloperTasks|
      ensures SortedDescBy(weeks[w].DeveloperTasks[k].Tasks, TaskDuration)
    {
      SubsequenceSorted(weeks[w].DeveloperTasks[k].Tasks, sorted, TaskDuration);
    }
  }

  /**
   * The tasks are sorted by descending duration once, before the first
   * week, and every bucket keeps the order it met them in, so every bucket
   * of every week lists its tasks longest first.
   */
  lemma ScheduleAssignmentsBuckets(tasks: seq<Task>, devs: seq<Developer>, weeklyWorkHours: int, workDaysInWeek: nat)
    requires PositiveCapacities(devs)
    ensures LongestFirst(ScheduleAssignments(tasks, devs, weeklyWorkHours, workDaysInWeek).response.Assignments)
  {
    if |tasks| > 0 && |devs| > 0 {
      var sorted := SortDescBy(tasks, TaskDuration);
      WeeksBucketsFrom(sorted, devs, weeklyWorkHours, 0.0);
      ScheduleAssignmentsRun(tasks, devs, weeklyWorkHours, workDaysInWeek);
      WeeksFromSorted(ScheduleWeeks(sorted, devs, weeklyWorkHours, 0.0).weeks, sorted);
    }
  }

  /** Every week of the schedule is well formed. */
  lemma ScheduleAssignmentsWeeks(tasks: seq<Task>, devs: seq<Developer>, weeklyWorkHours: int, workDaysInWeek: nat)
    requires PositiveCapacities(devs)
    ensures var r := ScheduleAssignments(tasks, devs, weeklyWorkHours, workDaysInWeek);
      forall k | 0 <= k < |r.response.Assignments| :: GoodWeek(r.response.Assignments[k], devs)
  {
  }

  /**
   * No developer is booked beyond the weekly hours in any week, and the
   * reported elapsed hours are the effective cost of the whole schedule
   * with the fraction dropped.
   */
  lemma ScheduleAssignmentsHours(tasks: seq<Task>, devs: seq<Developer>, weeklyWorkHours: int, workDaysInWeek: nat)
    requires PositiveCapacities(devs) && UniqueIds(devs) && weeklyWorkHours >= 0
    ensures var r := ScheduleAssignments(tasks, devs, weeklyWorkHours, workDaysInWeek);
      && AllStaffed(r.response.Assignments)
      && WeeksWithin(r.response.Assignments, weeklyWorkHours)
      && r.response.TotalElapsedWorkHour == TruncateHours(WeeksCost(r.response.Assignments))
  {
    if |tasks| > 0 && |devs| > 0 {
      var sorted := SortDescBy(tasks, TaskDuration);
      WeeksCostBound(sorted, devs, weeklyWorkHours, 0.0);
      ScheduleAssignmentsRun(tasks, devs, weeklyWorkHours, workDaysInWeek);
    }
  }

  /**
   * The schedule comes out `Unschedulable` only with tasks of the input
   * that no developer could take even in an empty week.
   */
  lemma ScheduleAssignmentsStranded(tasks: seq<Task>, devs: seq<Developer>, weeklyWorkHours: int, workDaysInWeek: nat)
    requires PositiveCapacities(devs)
    ensures var r := ScheduleAssignments(tasks, devs, weeklyWorkHours, workDaysInWeek);
      r.Unschedulable? ==>
        && multiset(r.stranded) <= multiset(tasks)
        && Unfit(r.stranded, devs, weeklyWorkHours)
  {
    if |tasks| > 0 && |devs| > 0 {
      var sorted := SortDescBy(tasks, TaskDuration);
      WeeksStranded(sorted, devs, weeklyWorkHours, 0.0);
    }
  }

  /** When every task fits some developer on its own, the schedule is complete. */
  lemma ScheduleAssignmentsComplete(tasks: seq<Task>, devs: seq<Developer>, weeklyWorkHours: int, workDaysInWeek: nat)
    requires PositiveCapacities(devs)
    requires forall k | 0 <= k < |tasks| :: FitsSomeone(tasks[k], devs, weeklyWorkHours)
    ensures ScheduleAssignments(tasks, devs, weeklyWorkHours, workDaysInWeek).Scheduled?
  {
    if |tasks| > 0 && |devs| > 0 {
      var sorted := SortDescBy(tasks, TaskDuration);
      FitsSomeoneSubset(sorted, tasks, devs, weeklyWorkHours);
      WeeksComplete(sorted, devs, weeklyWorkHours, 0.0);
    }
  }

  lemma NonNegativeDifficultiesPermutation(a: seq<Task>, b: seq<Task>)
    requires multiset(a) == multiset(b) && NonNegativeDifficulties(b)
    ensures NonNegativeDifficulties(a)
  {
    forall k | 0 <= k < |a|
      ensures a[k].Difficulty >= 0
    {
      assert a[k] in multiset(b);
      var m :| 0 <= m < |b| && b[m] == a[k];
    }
  }

  /**
   * With non-negative difficulties and at least one developer, a task
   * whose effective cost exceeds the weekly hours for every developer is
   * never scheduled: the outcome is `Unschedulable` and the task is stranded.
   */
  lemma ScheduleAssignmentsStrandsUnfit(tasks: seq<Task>, devs: seq<Developer>, weeklyWorkHours: int, workDaysInWeek: nat, t: Task)
    requires PositiveCapacities(devs) && NonNegativeDifficulties(tasks)
    requires t in tasks && !FitsSomeone(t, devs, weeklyWorkHours)
    ensures var r := ScheduleAssignments(tasks, devs, weeklyWorkHours, workDaysInWeek);
      |devs| > 0 ==> r.Unschedulable? && t in r.stranded
  {
    if |devs| > 0 {
      var sorted := SortDescBy(tasks, TaskDuration);
      NonNegativeDifficultiesPermutation(sorted, tasks);
      assert t in multiset(sorted);
      WeeksStrandUnfit(sorted, devs, weeklyWorkHours, 0.0, t);
    }
  }

  /**
   * With non-negative difficulties, the schedule is complete exactly when
   * there is no developer (the empty response) or every task fits some
   * developer in an empty week.
   */
  lemma ScheduleAssignmentsCompleteIff(tasks: seq<Task>, devs: seq<Developer>, weeklyWorkHours: int, workDaysInWeek: nat)
    requires PositiveCapacities(devs) && NonNegativeDifficulties(tasks)
    ensures ScheduleAssignments(tasks, devs, weeklyWorkHours, workDaysInWeek).Scheduled? <==>
      |devs| == 0 || forall k | 0 <= k < |tasks| :: FitsSomeone(tasks[k], devs, weeklyWorkHours)
  {
    if forall k | 0 <= k < |tasks| :: FitsSomeone(tasks[k], devs, weeklyWorkHours) {
      ScheduleAssignmentsComplete(tasks, devs, weeklyWorkHours, workDaysInWeek);
    } else if |devs| > 0 {
      var k :| 0 <= k < |tasks| && !FitsSomeone(tasks[k], devs, weeklyWorkHours);
      ScheduleAssignmentsStrandsUnfit(tasks, devs, weeklyWorkHours, workDaysInWeek, tasks[k]);
    }
  }
}

=== FILE: sequences.dfy ===
/**
 * Sequence utilities: the subsequence relation, and sorting a sequence
 * into descending order of an integer key. Both
 * schedulers sort once with Go's `sort.Slice`, which is not stable; the
 * insertion sort here is one admissible outcome, and everything proved
 * about its callers relies only on the result being ordered and a
 * permutation of the input.
 */
module Sequences {

  /** `a` is `b` with some elements left out, the rest kept in their order. */
  predicate IsSubsequence<T(==)>(a: seq<T>, b: seq<T>)
    decreases |b|
  {
    || a == []
    || (b != [] && ((a[0] == b[0] && IsSubsequence(a[1..], b[1..])) || IsSubsequence(a, b[1..])))
  }

  /** `s` is ordered from the largest key to the smallest. */
  predicate SortedDescBy<T>(s: seq<T>, key: T -> int) {
    forall i, j | 0 <= i < j < |s| :: key(s[i]) >= key(s[j])
  }

  /** Inserts `x` into the ordered `s`, ahead of the first element with a smaller or equal key. */
  function InsertDescBy<T(==)>(x: T, s: seq<T>, key: T -> int): (r: seq<T>)
    requires SortedDescBy(s, key)
    ensures SortedDescBy(r, key)
    ensures multiset(r) == multiset(s) + multiset{x}
    decreases |s|
  {
    if s == [] then [x]
    else if key(x) >= key(s[0]) then [x] + s
    else
      var rest := InsertDescBy(x, s[1..], key);
      assert s == [s[0]] + s[1..];
      KeysBelowHead(s, x, rest, key);
      [s[0]] + rest
  }

  /** Every element of a permutation of `s[1..] + [x]` has a key no larger than `s[0]`'s. */
  lemma KeysBelowHead<T>(s: seq<T>, x: T, rest: seq<T>, key: T -> int)
    requires |s| > 0 && SortedDescBy(s, key) && key(x) < key(s[0])
    requires multiset(rest) == multiset(s[1..]) + multiset{x}
    ensures forall k | 0 <= k < |rest| :: key(rest[k]) <= key(s[0])
  {
    forall k | 0 <= k < |rest|
      ensures key(rest[k]) <= key(s[0])
    {
      assert rest[k] in multiset(rest);
      if rest[k] != x {
        assert rest[k] in s[1..];
        var m :| 0 <= m < |s[1..]| && s[1..][m] == rest[k];
        assert s[m + 1] == rest[k];
      }
    }
  }

  /** Orders `s` by descending key. */
  function SortDescBy<T(==)>(s: seq<T>, key: T -> int): (r: seq<T>)
    ensures SortedDescBy(r, key)
    ensures multiset(r) == multiset(s)
    decreases |s|
  {
    if s == [] then []
    else
      assert s == [s[0]] + s[1..];
      InsertDescBy(s[0], SortDescBy(s[1..], key), key)
  }

  lemma MultisetAssociative<T>(x: multiset<T>, y: multiset<T>, z: multiset<T>)
    ensures (x + y) + z == x + (y + z)
  {
    assert forall t :: ((x + y) + z)[t] == (x + (y + z))[t];
  }

  lemma {:induction false} SubsequenceReflexive<T>(s: seq<T>)
    ensures IsSubsequence(s, s)
    decreases |s|
  {
    if s != [] {
      SubsequenceReflexive(s[1..]);
    }
  }

  /** Every element of a subsequence occurs in the whole. */
  lemma {:induction false} SubsequenceMembers<T>(a: seq<T>, b: seq<T>)
    requires IsSubsequence(a, b)
    ensures forall i | 0 <= i < |a| :: a[i] in b
    decreases |b|
  {
    if a != [] {
      if a[0] == b[0] && IsSubsequence(a[1..], b[1..]) {
        SubsequenceMembers(a[1..], b[1..]);
        forall i | 1 <= i < |a|
          ensures a[i] in b
        {
          assert a[i] == a[1..][i - 1];
        }
      } else {
        SubsequenceMembers(a, b[1..]);
      }
    }
  }

  /** A subsequence is no longer than the whole. */
  lemma {:induction false} SubsequenceLength<T>(a: seq<T>, b: seq<T>)
    requires IsSubsequence(a, b)
    ensures |a| <= |b|
    decreases |b|
  {
    if a != [] {
      if a[0] == b[0] && IsSubsequence(a[1..], b[1..]) {
        SubsequenceLength(a[1..], b[1..]);
      } else {
        SubsequenceLength(a, b[1..]);
      }
    }
  }

  /** A subsequence as long as the whole is the whole. */
  lemma {:induction false} SubsequenceSameLength<T>(a: seq<T>, b: seq<T>)
    requires IsSubsequence(a, b) && |a| == |b|
    ensures a == b
    decreases |b|
  {
    if a != [] {
      if a[0] == b[0] && IsSubsequence(a[1..], b[1..]) {
        SubsequenceSameLength(a[1..], b[1..]);
        assert a == [a[0]] + a[1..] && b == [b[0]] + b[1..];
      } else {
        SubsequenceLength(a, b[1..]);
        assert false;
      }
    }
  }

  lemma {:induction false} SubsequenceTransitive<T>(a: seq<T>, b: seq<T>, c: seq<T>)
    requires IsSubsequence(a, b) && IsSubsequence(b, c)
    ensures IsSubsequence(a, c)
    decreases |c|
  {
    if a != [] {
      if b[0] == c[0] && IsSubsequence(b[1..], c[1..]) {
        if a[0] == b[0] && IsSubsequence(a[1..], b[1..]) {
          SubsequenceTransitive(a[1..], b[1..], c[1..]);
        } else {
          SubsequenceTransitive(a, b[1..], c[1..]);
        }
      } else {
        SubsequenceTransitive(a, b, c[1..]);
      }
    }
  }

  /** Appending the same element to both sides keeps a subsequence. */
  lemma {:induction false} SubsequenceSnoc<T>(a: seq<T>, b: seq<T>, x: T)
    requires IsSubsequence(a, b)
    ensures IsSubsequence(a + [x], b + [x])
    decreases |b|
  {
    if b == [] {
      assert a == [];
      assert (a + [x])[1..] == [];
    } else {
      assert (b + [x])[1..] == b[1..] + [x];
      if a == [] {
        SubsequenceSnoc(a, b[1..], x);
      } else if a[0] == b[0] && IsSubsequence(a[1..], b[1..]) {
        SubsequenceSnoc(a[1..], b[1..], x);
        assert (a + [x])[1..] == a[1..] + [x];
      } else {
        SubsequenceSnoc(a, b[1..], x);
      }
    }
  }

  /** A subsequence of `b` is a subsequence of `b` with an element appended. */
  lemma {:induction false} SubsequenceExtend<T>(a: seq<T>, b: seq<T>, x: T)
    requires IsSubsequence(a, b)
    ensures IsSubsequence(a, b + [x])
    decreases |b|
  {
    if a != [] {
      assert (b + [x])[1..] == b[1..] + [x];
      if a[0] == b[0] && IsSubsequence(a[1..], b[1..]) {
        SubsequenceExtend(a[1..], b[1..], x);
      } else {
        SubsequenceExtend(a, b[1..], x);
      }
    }
  }

  /** A subsequence of an ordered sequence is ordered. */
  lemma {:induction false} SubsequenceSorted<T>(a: seq<T>, b: seq<T>, key: T -> int)
    requires IsSubsequence(a, b) && SortedDescBy(b, key)
    ensures SortedDescBy(a, key)
    decreases |b|
  {
    if a != [] {
      assert SortedDescBy(b[1..], key);
      if a[0] == b[0] && IsSubsequence(a[1..], b[1..]) {
        SubsequenceSorted(a[1..], b[1..], key);
        SubsequenceMembers(a[1..], b[1..]);
        forall i, j | 0 <= i < j < |a|
          ensures key(a[i]) >= key(a[j])
        {
          assert a[j] == a[1..][j - 1];
          if i > 0 {
            assert a[i] == a[1..][i - 1];
          } else {
            var m :| 0 <= m < |b[1..]| && b[1..][m] == a[j];
            assert b[m + 1] == a[j];
          }
        }
      } else {
        SubsequenceSorted(a, b[1..], key);
      }
    }
  }
}

=== FILE: text.dfy ===
/**
 * The few pieces of Go's `strconv` and `strings` packages the importers,
 * prompts and configuration loader rely on: decimal formatting of an
 * unsigned integer (`%v`), `strconv.Atoi` on a 64-bit platform,
 * `strings.Split` and its inverse `strings.Join`, `strings.TrimSpace` and
 * `strings.ToLower`.
 */
module Text {
  import opened Wrappers

  const MinInt64: int := -0x8000_0000_0000_0000
  const MaxInt64: int := 0x7FFF_FFFF_FFFF_FFFF

  // ---------------------------------------------------------------------
  // Decimal digits
  // ---------------------------------------------------------------------

  predicate IsDigit(c: char) {
    '0' <= c <= '9'
  }

  predicate AllDigits(s: string) {
    forall k | 0 <= k < |s| :: IsDigit(s[k])
  }

  function DigitChar(d: nat): (c: char)
    requires d < 10
    ensures IsDigit(c)
  {
    ('0' as int + d) as char
  }

  /** The value of a string of decimal digits, most significant first. */
  function DigitsValue(s: string): nat
    requires AllDigits(s)
    decreases |s|
  {
    if s == [] then 0
    else DigitsValue(s[..|s| - 1]) * 10 + (s[|s| - 1] as int - '0' as int)
  }

  /** Decimal rendering of an unsigned integer, as `fmt` prints it with `%v`. */
  function NatToString(n: nat): (s: string)
    ensures |s| >= 1 && AllDigits(s)
    decreases n
  {
    if n < 10 then [DigitChar(n)]
    else NatToString(n / 10) + [DigitChar(n % 10)]
  }

  /** Reading back what `NatToString` wrote gives the number again. */
  lemma {:induction false} DigitsValueOfNatToString(n: nat)
    ensures DigitsValue(NatToString(n)) == n
    decreases n
  {
    if n >= 10 {
      var s := NatToString(n);
      DigitsValueOfNatToString(n / 10);
      assert s[..|s| - 1] == NatToString(n / 10);
    }
  }

  function Pow10(k: nat): (p: nat)
    ensures p >= 1
  {
    if k == 0 then 1 else 10 * Pow10(k - 1)
  }

  lemma {:induction false} Pow10Add(a: nat, b: nat)
    ensures Pow10(a + b) == Pow10(a) * Pow10(b)
    decreases a
  {
    if a > 0 {
      Pow10Add(a - 1, b);
    }
  }

  /** A number below `10^k` takes at most `k` digits. */
  lemma {:induction false} NatToStringLength(n: nat, k: nat)
    requires k >= 1 && n < Pow10(k)
    ensures |NatToString(n)| <= k
    decreases k
  {
    if n >= 10 {
      assert k >= 2;
      NatToStringLength(n / 10, k - 1);
    }
  }

  /**
   * `strconv.Atoi` with a 64-bit `int`: an optional `+` or `-`, then one or
   * more ASCII decimal digits (no underscores, no spaces), with a value in
   * the signed 64-bit range. Anything else is a syntax or range error.
   */
  function Atoi(s: string): (r: Option<int>)
    ensures r.Some? ==> |s| > 0 && MinInt64 <= r.value <= MaxInt64
    ensures r.Some? && s[0] != '-' ==> r.value >= 0
  {
    var signed := |s| > 0 && (s[0] == '-' || s[0] == '+');
    var digits := if signed then s[1..] else s;
    if |digits| == 0 || !AllDigits(digits) then None
    else
      var magnitude: int := DigitsValue(digits);
      var v := if |s| > 0 && s[0] == '-' then -magnitude else magnitude;
      if MinInt64 <= v <= MaxInt64 then Some(v) else None
  }

  /** Every non-negative 64-bit integer, written in decimal, parses back to itself. */
  lemma AtoiOfNatToString(n: nat)
    requires n <= MaxInt64
    ensures Atoi(NatToString(n)) == Some(n)
  {
    DigitsValueOfNatToString(n);
  }

  /** A minus sign in front of a decimal rendering parses to the negated number. */
  lemma AtoiOfNegative(n: nat)
    requires n <= -MinInt64
    ensures Atoi("-" + NatToString(n)) == Some(-(n as int))
  {
    DigitsValueOfNatToString(n);
    assert ("-" + NatToString(n))[1..] == NatToString(n);
  }

  /** A string holding a character other than a digit or a leading sign never parses. */
  lemma AtoiRejectsNonDigit(s: string, k: nat)
    requires 0 < k < |s| && !IsDigit(s[k])
    ensures Atoi(s) == None
  {
    if s[0] == '-' || s[0] == '+' {
      assert s[1..][k - 1] == s[k];
    }
  }

  // ---------------------------------------------------------------------
  // Split and Join
  // ---------------------------------------------------------------------

  /** The position of the first `c` in `s`, if any. */
  function IndexOf(s: string, c: char): (r: Option<nat>)
    ensures r.Some? ==> r.value < |s| && s[r.value] == c && c !in s[..r.value]
    ensures r.None? ==> c !in s
    decreases |s|
  {
    if s == [] then None
    else if s[0] == c then Some(0)
    else match IndexOf(s[1..], c)
      case None => None
      case Some(i) =>
        assert s[..i + 1] == [s[0]] + s[1..][..i];
        Some(i + 1)
  }

  /**
   * `strings.Split(s, sep)` for a one-character separator: the pieces
   * between consecutive separators. The empty string splits into one empty
   * piece.
   */
  function Split(s: string, sep: char): (r: seq<string>)
    ensures |r| >= 1
    ensures forall k | 0 <= k < |r| :: sep !in r[k]
    decreases |s|
  {
    match IndexOf(s, sep)
    case None => [s]
    case Some(i) => [s[..i]] + Split(s[i + 1..], sep)
  }

  /** `strings.Join(parts, sep)` for a one-character separator. */
  function Join(parts: seq<string>, sep: char): string
    decreases |parts|
  {
    if |parts| == 0 then ""
    else if |parts| == 1 then parts[0]
    else parts[0] + [sep] + Join(parts[1..], sep)
  }

  /** Joining the pieces of a split with the same separator rebuilds the string. */
  lemma {:induction false} JoinSplit(s: string, sep: char)
    ensures Join(Split(s, sep), sep) == s
    decreases |s|
  {
    match IndexOf(s, sep)
    case None =>
    case Some(i) =>
      var rest := Split(s[i + 1..], sep);
      JoinSplit(s[i + 1..], sep);
      var r := [s[..i]] + rest;
      assert r[1..] == rest;
      assert Join(r, sep) == s[..i] + [sep] + Join(rest, sep);
      assert s == s[..i] + [sep] + s[i + 1..];
  }

  /** Splitting a join of separator-free pieces gives the pieces back. */
  lemma {:induction false} SplitJoin(parts: seq<string>, sep: char)
    requires |parts| >= 1
    requires forall k | 0 <= k < |parts| :: sep !in parts[k]
    ensures Split(Join(parts, sep), sep) == parts
    decreases |parts|
  {
    if |parts| > 1 {
      var head, tail := parts[0], Join(parts[1..], sep);
      assert Join(parts, sep) == head + [sep] + tail;
      IndexOfAfter(head, tail, sep);
      SplitJoin(parts[1..], sep);
    }
  }

  /** In `head + [sep] + tail` with no `sep` in `head`, the first `sep` follows `head`. */
  lemma IndexOfAfter(head: string, tail: string, sep: char)
    requires sep !in head
    ensures var s := head + [sep] + tail;
      && IndexOf(s, sep) == Some(|head|) && s[..|head|] == head && s[|head| + 1..] == tail
  {
    var s := head + [sep] + tail;
    assert s[|head|] == sep;
  }

  // ---------------------------------------------------------------------
  // White space and letter case
  // ---------------------------------------------------------------------

  /** Go's `unicode.IsSpace`: the ASCII spaces, NEL, NBSP and the Unicode `White_Space` characters. */
  predicate IsSpace(c: char) {
    || c == ' ' || c == '\t' || c == '\n' || c == '\U{000B}' || c == '\U{000C}' || c == '\r'
    || c == '\U{0085}' || c == '\U{00A0}' || c == '\U{1680}'
    || ('\U{2000}' <= c <= '\U{200A}')
    || c == '\U{2028}' || c == '\U{2029}' || c == '\U{202F}' || c == '\U{205F}' || c == '\U{3000}'
  }

  predicate AllSpace(s: string) {
    forall k | 0 <= k < |s| :: IsSpace(s[k])
  }

  /** `s` without its leading white space. */
  function TrimLeft(s: string): (r: string)
    ensures |r| <= |s| && r == s[|s| - |r|..]
    ensures AllSpace(s[..|s| - |r|])
    ensures r == [] || !IsSpace(r[0])
    decreases |s|
  {
    if s != [] && IsSpace(s[0]) then
      var r := TrimLeft(s[1..]);
      assert s[..|s| - |r|] == [s[0]] + s[1..][..|s| - 1 - |r|];
      r
    else s
  }

  /** `s` without its trailing white space. */
  function TrimRight(s: string): (r: string)
    ensures |r| <= |s| && r == s[..|r|]
    ensures AllSpace(s[|r|..])
    ensures r == [] || !IsSpace(r[|r| - 1])
    decreases |s|
  {
    if s != [] && IsSpace(s[|s| - 1]) then
      var r := TrimRight(s[..|s| - 1]);
      assert s[|r|..] == s[..|s| - 1][|r|..] + [s[|s| - 1]];
      r
    else s
  }

  /** `strings.TrimSpace`: the part of `s` between its leading and its trailing white space. */
  function TrimSpace(s: string): (r: string)
    ensures |r| <= |s|
    ensures r == [] || (!IsSpace(r[0]) && !IsSpace(r[|r| - 1]))
  {
    TrimRight(TrimLeft(s))
  }

  /** `r` occurs in `s` with only white space before and after it. */
  predicate Surrounded(s: string, r: string) {
    exists i | 0 <= i <= |s| - |r| :: s[i..i + |r|] == r && AllSpace(s[..i]) && AllSpace(s[i + |r|..])
  }

  /** What `TrimSpace` drops is white space, from both ends. */
  lemma TrimSpaceInside(s: string)
    ensures Surrounded(s, TrimSpace(s))
  {
    var left := TrimLeft(s);
    SpaceAround(s, left, TrimRight(left));
  }

  /** A suffix after white space, cut before white space, sits between white space in `s`. */
  lemma SpaceAround(s: string, left: string, r: string)
    requires |left| <= |s| && left == s[|s| - |left|..] && AllSpace(s[..|s| - |left|])
    requires |r| <= |left| && r == left[..|r|] && AllSpace(left[|r|..])
    ensures Surrounded(s, r)
  {
    var i := |s| - |left|;
    assert s[i..i + |r|] == r;
    assert s[i + |r|..] == left[|r|..];
  }

  /** A string of white space trims to nothing. */
  lemma TrimSpaceAllSpace(s: string)
    requires AllSpace(s)
    ensures TrimSpace(s) == []
  {
    assert TrimLeft(s) == [];
  }

  /** Trimming twice is trimming once. */
  lemma TrimSpaceIdempotent(s: string)
    ensures TrimSpace(TrimSpace(s)) == TrimSpace(s)
  {
    var t := TrimSpace(s);
    assert TrimLeft(t) == t;
  }

  /** `unicode.ToLower` on ASCII letters; every other character is kept. */
  function LowerChar(c: char): char {
    if 'A' <= c <= 'Z' then (c as int + 32) as char else c
  }

  /**
   * `strings.ToLower`, letter by letter: the result has no upper-case
   * ASCII letter, and each character is the input's in one case or the other.
   */
  function ToLower(s: string): (r: string)
    ensures |r| == |s|
    ensures forall k | 0 <= k < |s| :: r[k] == LowerChar(s[k])
    ensures forall k | 0 <= k < |r| :: !('A' <= r[k] <= 'Z') && EitherCase(s[k], r[k])
  {
    seq(|s|, k requires 0 <= k < |s| => LowerChar(s[k]))
  }

  /** The letter `c` in either case. */
  predicate EitherCase(c: char, lower: char) {
    c == lower || c as int == lower as int - 32
  }

  /** Lowering maps exactly the two cases of a lower-case letter to it. */
  lemma LowerCharInverse(c: char, lower: char)
    requires 'a' <= lower <= 'z'
    ensures LowerChar(c) == lower <==> EitherCase(c, lower)
  {
  }

  /** `s` is `word` typed in any mix of upper and lower case. */
  predicate SpelledAs(s: string, word: string)
    requires forall k | 0 <= k < |word| :: 'a' <= word[k] <= 'z'
  {
    |s| == |word| && forall k | 0 <= k < |s| :: EitherCase(s[k], word[k])
  }

  /**
   * `strings.ToLower` folds case and nothing else: a string lowers to a
   * lower-case ASCII word exactly when it spells that word in any mix of
   * upper and lower case.
   */
  lemma SpelledAsLower(s: string, word: string)
    requires forall k | 0 <= k < |word| :: 'a' <= word[k] <= 'z'
    ensures ToLower(s) == word <==> SpelledAs(s, word)
  {
    if SpelledAs(s, word) {
      forall k | 0 <= k < |s| ensures ToLower(s)[k] == word[k] {
        LowerCharInverse(s[k], word[k]);
      }
    }
    if ToLower(s) == word {
      forall k | 0 <= k < |s| ensures EitherCase(s[k], word[k]) {
        LowerCharInverse(s[k], word[k]);
      }
    }
  }
}

=== FILE: wrappers.dfy ===
/** Failure-carrying result types shared by the other modules. */
module Wrappers {

  /** An optional value: `None` stands for "absent" or "try again". */
  datatype Option<+T> = None | Some(value: T)

  /** A value or an error, as Go's `(value, error)` return pairs. */
  datatype Result<+R, +E> = Ok(value: R) | Err(error: E)
}
